=== FILE: README.md ===
# Alif M55 viewfinder — a Dafny model

The viewfinder application captures camera frames and prepares each one for display. Each frame goes through five steps:

1. An optional colour correction and gamma pass.
2. A crop to the largest centred square.
3. A resize to the panel width, and on one board variant a 180° rotation.
4. Drawing into the display's inactive framebuffer, followed by a buffer swap.
5. At start-up, separately, the power profiles are chosen from the secure enclave's firmware version.

This project models the sequential logic of that application and proves properties of it.

| module | models |
|---|---|
| `ColorMath` | Per-lane colour maths of the software pixel converter. The YUV→RGB transform is built from the vector unit's saturating narrows. The RGB565 pack is built from the two shift-insert steps. The BGR888 path has its own two-byte store. |
| `PixelLayout` | For each of the ten software-converted source formats, the source bytes (Y, U, V, or B, G, R) that feed output pixel (row, col). It also gives the pixel computed from those bytes. |
| `SoftwareDraw` | The software fallback of `aipl_image_draw`. It is a write trace with the converters' row guard, row stepping and column count. The lane loop counts the pixels its enabled lanes store. A row/column method applies the trace to a framebuffer `seq`. |
| `Compositor` | The dispatch between the 2D accelerator and the software converters, the accelerator's command queue and its execution, and the prepare/render bracket of a frame. |
| `FrameBuffers` | The two display surfaces, the `current_buffer` index, the active/inactive selectors, the swap, and display start-up. |
| `CameraEvents` | The capture event mask driven by the driver callback, the result of `camera_capture`, and the gamma-table memoisation flag. |
| `IspLayout` | The ISP output layout table: plane sizes, auxiliary buffer kind and total for each output format code. It also gives the plane buffers a build declares. |
| `FrameLoop` | The crop geometry of `main.c`, the live set of temporary images over one loop iteration (as a straight-line program), and the capture loop. Each shown frame is prepared, drawn at the origin through the accelerator or the software converter, given the logo, and rendered. |
| `PowerProfile` | Locating `" v"` in the revision string, the `%d.%d.%d` scan, packing the version, choosing the 107 or 109 profiles, and the two configuration calls. |

Modelling decisions:
- Integers are unbounded. Lanes are `bv16` and bytes are `0..255`.
- The C arithmetic right shift of a non-negative value is a division. For a negative accumulator it is a floor division, which is Dafny's `/` with a positive divisor.
- Calls whose code is not part of this model are parameters. These are the AIPL library, the drivers and the secure-enclave services. Each appears as its outcome: a status, a success flag, or a curve value.
- The converter's column limit and paired-row guard are modelled exactly as written. They are also modelled as evidently intended, selected by a `Clipping` parameter. The application's geometry is proved to make the two agree.

## Model

| member | source | states |
|---|---|---|
| ColorMath.Channel | viewfinder/graphics/image.c:291-295 | The rounding add, the shift by 8, the signed 16-bit narrow and the unsigned 8-bit narrow together equal clamping `(acc+128)>>8` to 0..255. |
| ColorMath.YuvToRgb | viewfinder/graphics/image.c:275-319 | With c=y-16, d=u-128, e=v-128: r=clamp((298c+409e+128)>>8), g=clamp((298c-100d-208e+128)>>8), b=clamp((298c+516d+128)>>8). |
| ColorMath.GreyToRgb | viewfinder/graphics/image.c:949-982 | The I400 transform gives equal channels, and it equals the full transform with neutral chroma u=v=128. |
| ColorMath.Pack565Value | viewfinder/graphics/image.c:321-322 | The word built by the two shift-insert steps has value (r/8)·2048 + (g/4)·32 + b/8. |
| ColorMath.BgrWord | viewfinder/graphics/image.c:230-235 | The high byte `(r&0xF8)\|(g>>5)` and the low byte `((g<<3)&0xE0)\|(b>>3)`, stored little-endian, form the same RGB565 word as the shift-insert pack. |
| ColorMath.UnpackThenPack | viewfinder/graphics/image.c:321-322 | Every RGB565 word is the pack of some colour: expanding it and packing again gives it back. |
| ColorMath.PackThenUnpack | viewfinder/graphics/image.c:321-322 | Packing loses only the dropped low bits: at most 7 of red and blue and 3 of green, never rounding up. |
| ColorMath.WhiteIsAllOnes | viewfinder/graphics/image.c:275-322 | Video white (Y≥235, neutral chroma) saturates every channel and packs to 0xFFFF. |
| ColorMath.BlackIsZero | viewfinder/graphics/image.c:275-322 | Video black (Y≤16, neutral chroma) packs to 0x0000. |
| ColorMath.LumaMonotone | viewfinder/graphics/image.c:275-319 | With the chroma fixed, every channel is non-decreasing in luma. |
| PixelLayout.BgrPixelBytes | viewfinder/graphics/image.c:218-228 | BGR888 reads B, G and R at offsets 0, 1 and 2 of the 3-byte pixel `row*pitch+col`. |
| PixelLayout.ChromaOrderSwapped | viewfinder/graphics/image.c:262-263 | YV12 is I420 with the U and V planes exchanged, and NV21 is NV12 with the two bytes of each chroma pair exchanged. |
| PixelLayout.QuarterRowOffset | viewfinder/graphics/image.c:493-494 | With an even pitch, the 4:2:0 chroma offset `i*pitch/4` of the pair at row i is the plane row (row/2) of pitch/2 samples. |
| PixelLayout.ChromaShared420 | viewfinder/graphics/image.c:486-494 | For I420, YV12, NV12 and NV21 with an even pitch, two pixels read the same U (and the same V) exactly when they lie in the same 2×2 block. |
| PixelLayout.HalfRowOffset | viewfinder/graphics/image.c:721-724 | With an even pitch, the I422 chroma offset `i*pitch/2` is row i of a plane of pitch/2 samples. |
| PixelLayout.ChromaShared422 | viewfinder/graphics/image.c:721-724 | For I422, YUY2 and UYVY, two pixels share a chroma sample exactly when they are in the same row and the same column pair. |
| PixelLayout.ChromaUnique444 | viewfinder/graphics/image.c:853-856 | I444 gives every pixel its own U and V. |
| PixelLayout.SemiPlanarParity | viewfinder/graphics/image.c:1242-1243 | NV12 reads U at the even and V at the odd byte of its chroma pair, and NV21 the reverse. |
| PixelLayout.PackedGroupOrder | viewfinder/graphics/image.c:1470-1472 | A YUY2 group is laid out Y0 U Y1 V and a UYVY group U Y0 V Y1, and both pixels of a group share its U and V. |
| PixelLayout.LumaUnique | viewfinder/graphics/image.c:1470-1472 | Every YUV format reads a different luma byte for every pixel of the image. |
| PixelLayout.GreyIsNeutralChroma | viewfinder/graphics/image.c:935-982 | An I400 pixel equals the I444 pixel with the same luma and U=V=128. |
| PixelLayout.TapsInBuffer | viewfinder/graphics/image.c:486-494 | For a pixel inside the image, every byte read lies inside the format's buffer size, given an even pitch for two-pixel lanes and an even height for paired rows. |
| SoftwareDraw.ClippedColumnCount | viewfinder/graphics/image.c:216-217 | The intended column count never exceeds the image width or the space to the framebuffer's right edge. When x is on screen it is the width or exactly reaches the edge. |
| SoftwareDraw.LaneLoop | viewfinder/graphics/image.c:222-239 | The predicated loop, `lanes` lanes per step and `div` units per lane, stores `perLane*(units/div)` pixels in total. |
| SoftwareDraw.RowLanes | viewfinder/graphics/image.c:495-500 | A row of count cnt gets cnt pixels from BGR888, I444 and I400. The two-pixel-lane formats store 2·⌊cnt/2⌋, so an odd trailing pixel is never written. |
| SoftwareDraw.WriteRow | viewfinder/graphics/image.c:222-239 | The column loop of one row has exactly the effect of that row's stores. |
| SoftwareDraw.DrawRows | viewfinder/graphics/image.c:214-240 | The row loop, with the source's guard and its row step of one or two, has exactly the effect of the converter's write trace. |
| SoftwareDraw.DrawResult | viewfinder/graphics/image.c:486-500 | After a draw whose rows fit across the framebuffer, every covered pixel shows the image pixel that lands on it, and every other pixel keeps its value. |
| SoftwareDraw.IntendedInBounds | viewfinder/graphics/image.c:216-217 | With the intended column and row limits, every store lands inside the framebuffer. |
| SoftwareDraw.IntendedRows | viewfinder/graphics/image.c:486 | With the intended guard, a row is drawn exactly when it is an image row on the framebuffer. |
| SoftwareDraw.AppGeometryAgrees | viewfinder/graphics/image.c:486-488 | When the image ends at the framebuffer's right edge (and a paired-row image has even height and fits), the limits as written give the same trace as the intended ones, inside the framebuffer. |
| SoftwareDraw.ColumnLimitInverted | viewfinder/graphics/image.c:216-217 | As written, an image that runs past the right edge is drawn at full width into the next framebuffer row. An image that fits is drawn out to the edge. |
| SoftwareDraw.PairedRowGuardOverrun | viewfinder/graphics/image.c:486-488 | As written, a paired-row converter draws the second row of a pair that the guard excludes. This can be past the framebuffer's end or past the image's last row. |
| Compositor.ExecuteConcat | viewfinder/graphics/image.c:79-83 | Executing two command lists one after the other leaves the same surface as executing their concatenation. |
| Compositor.ExecuteLast | viewfinder/graphics/image.c:79-83 | The last command of a queue acts on the surface the rest of the queue left. |
| Compositor.Flush | viewfinder/graphics/image.c:149-153 | Executing the accelerator's render buffer empties the queue and rewrites only its target surface, with the queue run on it in order. The indices and the size are unchanged. |
| Compositor.Render | viewfinder/graphics/image.c:74-87 | Render executes the queue into the target surface and empties the queue, leaving the other surface as it was. It then swaps: the surface that was inactive becomes active, and the controller is told to scan it out. |
| Compositor.ConvertInto | viewfinder/graphics/image.c:155-201 | The software conversion writes only the inactive surface. That surface becomes the old one with the converter's write trace applied in order, which includes a row's tail wrapping into the next row when the column limit as written lets it. When the written columns end inside each framebuffer row, each pixel the converter covers gets the converted source pixel and every other pixel keeps its value. The shown surface, the indices and the queue are unchanged. |
| Compositor.ImageDraw | viewfinder/graphics/image.c:100-153 | A format the accelerator supports is queued as one blit and the display is unchanged. Any other format first has the queue executed into the accelerator's target and the queue emptied. With a converter, the inactive surface is then the flushed surface with the converter's write trace applied. When the written columns end inside each framebuffer row, each covered pixel holds the converted source pixel and every other pixel holds what the flush left. Without one, the flushed surface stays. The shown surface changes only when the accelerator targets it with a non-empty queue. |
| Compositor.PrepareTargetsDrawnSurface | viewfinder/graphics/image.c:62-87 | Prepare points the accelerator at the inactive surface. After render that surface is the one the controller is told to scan out, holding what the earlier queue followed by the background clear made of it. |
| Compositor.RenderShowsDrawn | viewfinder/graphics/image.c:74-87 | A frame written into the inactive surface is what the controller is told to scan out after render, with the queue run on it when the accelerator targets it, and exactly the frame when the queue is empty. When the accelerator targets the inactive surface, the surface shown before becomes the inactive one, untouched. |
| Compositor.AppDrawInBounds | viewfinder/main.c:220 | Under the application's geometry, the software draw as written stays inside the surface and equals the intended draw. |
| FrameBuffers.Initial | viewfinder/display/disp.c:74 | Start-up state: the current index is BUFFER_1 (0) and both surfaces are blank. |
| FrameBuffers.ActiveInactiveDiffer | viewfinder/display/disp.c:130-138 | The active and inactive selectors always name different surfaces, and between them they name both. |
| FrameBuffers.NextFrame | viewfinder/display/disp.c:123-128 | The swap changes no pixels and hands the new current surface to the controller. |
| FrameBuffers.NextFrameSwaps | viewfinder/display/disp.c:123-138 | After a swap the active surface is the one that was inactive, and the reverse. |
| FrameBuffers.NextFrameTwice | viewfinder/display/disp.c:125 | Two swaps restore the original state. |
| FrameBuffers.WriteInactive | viewfinder/display/disp.c:135-138 | Drawing replaces the inactive surface only. The shown surface and the indices are unchanged. |
| FrameBuffers.DisplayInit | viewfinder/display/disp.c:90-121 | Start-up succeeds exactly when all four driver steps do, and it returns the first failing status. The configure step points the controller at the active surface. |
| FrameBuffers.ScanoutStaysActive | viewfinder/display/disp.c:107-127 | Once the controller has been told to scan out the active surface, drawing never touches it, and the next swap tells it to scan out the surface just drawn. |
| FrameBuffers.FirstFrameShown | viewfinder/display/disp.c:74-127 | After start-up, the swap that follows the first frame drawn tells the controller to scan it out, from BUFFER_2. |
| CameraEvents.Callback | viewfinder/camera/camera.c:35-53 | The callback only sets bits. STOPPED is set by every event except HSYNC and VSYNC. ERROR is set by every such event except capture-stopped. No other bit changes. |
| CameraEvents.FoldBits | viewfinder/camera/camera.c:35-53 | Over any event sequence, the mask keeps its bits. STOPPED is set iff some event stops the capture, and ERROR iff some event is an error. |
| CameraEvents.FirstStop | viewfinder/camera/camera.c:111-113 | The index of the first event that ends the wait, or −1 when none does. |
| CameraEvents.CameraCapture | viewfinder/camera/camera.c:100-124 | A failed start returns its status without waiting. Otherwise the call waits through the first stopping event, then returns 0xFFFF if any event up to that point was an error, else 0. With no stopping event it is still waiting. |
| CameraEvents.SyncOnlyNeverStops | viewfinder/camera/camera.c:40-43 | Sync events alone never end the wait and leave the mask clear. |
| CameraEvents.GammaLut | viewfinder/camera/camera.c:187-201 | The first call fills all 256 entries before setting the flag. Later calls return the stored table unchanged and recompute nothing. |
| CameraEvents.GammaLutTwice | viewfinder/camera/camera.c:187-201 | Two calls return the same complete table, and the second does not recompute it. |
| IspLayout.AuxCode | viewfinder/camera/isp_header.h:18-23 | The auxiliary buffer kinds have codes 1 to 4. |
| IspLayout.FormatOf | viewfinder/camera/isp_header.h:32-95 | A configuration code selects the format carrying that code, or no layout for a code the table does not list. |
| IspLayout.FormatCodeRoundTrip | viewfinder/camera/isp_header.h:32-95 | Every format's code selects that format, so no two formats share a code. |
| IspLayout.TotalIsSum | viewfinder/camera/isp_header.h:32-95 | For every format, the total equals the sum of its defined plane sizes. |
| IspLayout.TotalMatchesSampling | viewfinder/camera/isp_header.h:37-71 | The total is the frame's bits per pixel times X·Y over 8. This is exact when X·Y is a multiple of 4, and the total never exceeds it otherwise. |
| IspLayout.AuxMatchesPlanes | viewfinder/camera/isp_header.h:32-95 | Planar formats have Cb and Cr planes, semi-planar ones a CbCr plane, and the others none. Only YUYV has a pitch, of X. |
| IspLayout.DeclaredPlanes | viewfinder/camera/isp_header.h:97-115 | A plane buffer is declared exactly when its size is nonzero. |
| IspLayout.DeclaredHoldTotal | viewfinder/camera/isp_header.h:97-115 | The declared buffers hold `count` frames of the total size, with nothing missing or left over. |
| FrameLoop.CropOf | viewfinder/main.c:159-171 | The crop side is the smaller dimension, and one of the two margins is 0. The rectangle lies inside the image and is centred. |
| FrameLoop.CropIsLargestSquare | viewfinder/main.c:159 | No larger square fits the camera image. |
| FrameLoop.CropRectSize | viewfinder/main.c:160-171 | The rectangle is the side or one pixel more in each direction. It is exactly the side iff W−H is even. |
| FrameLoop.CameraCropsExact | viewfinder/camera/camera.h:21-35 | The MT9M114 camera sizes 1280×720 and 640×480 give an exact 720 and 480 square. |
| FrameLoop.Step | viewfinder/main.c:163-168 | A create needs a free name and adds it. A destroy needs a live image and removes it. A call needs its images live. A failed create or check halts. |
| FrameLoop.Exec | viewfinder/main.c:130-224 | An image the program never destroys stays live, and only images it creates become live. |
| FrameLoop.IterationRun | viewfinder/main.c:127-224 | For any call outcomes, the iteration never uses or destroys a dead image or allocates a live one. The camera image stays live. The iteration completes iff every call succeeds, and then only the camera image is live. The crop image leaks only on a breakpoint between its allocation and the resize. |
| FrameLoop.ResizeFailureFreesCrop | viewfinder/main.c:185-193 | A failed resize halts with the crop image already destroyed. |
| FrameLoop.DestroyedOnce | viewfinder/main.c:132-223 | Each temporary is allocated at most once and destroyed as often as it is allocated, and the camera image is never destroyed. |
| FrameLoop.TargetGeometry | viewfinder/main.c:164-220 | The crop target is a square of the crop side with that pitch, and the resize and rotate targets are squares of the display width. The crop gets the centred rectangle, and the drawn image is placed at the origin. |
| FrameLoop.DrawnImageInBounds | viewfinder/main.c:220 | The drawn display-width square stays inside the framebuffer, even with the column limit as written. |
| FrameLoop.Leading | viewfinder/main.c:119-127 | The number of frames shown before the first one that is not shown. |
| FrameLoop.LeadingIs | viewfinder/main.c:119-127 | The leading count is the only count whose frames are all shown and whose next frame, if there is one, is not. |
| FrameLoop.DrawnColumnsFit | viewfinder/main.c:220 | An image as wide as the panel, drawn at the origin, has its written columns end inside each framebuffer row, even with the column count as written. |
| FrameLoop.RenderedFrameShowsImage | viewfinder/main.c:218-222 | After a software-converted frame is rendered, the controller is told to scan out the surface it was converted into, with the queued logo executed on it. The surface shown while the frame was composed becomes the inactive one, untouched. |
| FrameLoop.BackgroundShowsThrough | viewfinder/graphics/image.c:62-72 | On a frame drawn in software, when the accelerator's clear gives every pixel one colour, every pixel the converter does not cover holds that colour. |
| FrameLoop.ScreenStep | viewfinder/main.c:222 | Rendering a composed frame keeps the display's size and advances the active surface by one. The controller is told to scan out the composed surface with its queue executed on it. The surface shown while the frame was composed becomes the inactive one, untouched. |
| FrameLoop.HistoryStep | viewfinder/main.c:119-222 | Appending a frame keeps the record a valid history. Each frame is composed from the screen the previous render left. On an accelerated format every later frame renders exactly the background clear, its own blit and the logo. |
| FrameLoop.ShowFrame | viewfinder/main.c:218-222 | One shown frame: prepare, the draw of the display-width square at the origin, the logo at (100, 600), then render. When the accelerator takes the format, the queue gets the clear, the blit and the logo, and the display is unchanged. Otherwise the queue and the clear are executed into the inactive surface, and the image is converted over that. Each covered pixel holds the converted source pixel and every other pixel holds the flushed background. Only the logo is then queued. The active surface is untouched. |
| FrameLoop.RunIteration | viewfinder/main.c:127-217 | An iteration's library calls complete exactly when every one of them succeeds. |
| FrameLoop.RunFrame | viewfinder/main.c:125-217 | The returned status is the frame's capture status. A captured frame completes exactly when it is shown, and a failed capture is never shown. |
| FrameLoop.HistoryScreen | viewfinder/main.c:119-222 | After any history, the screen is the one the last render left, and the display keeps its initial size. |
| FrameLoop.HistoryFacts | viewfinder/main.c:119-222 | After n frames the active surface has advanced n times. Every frame was composed from the screen the frame before it left. On an accelerated format every frame after the first renders exactly the clear, its blit and the logo. The controller is told to scan out the last composed surface with its queue executed on it, and the surface shown before it is untouched. |
| FrameLoop.ShowNext | viewfinder/main.c:218-222 | Showing the next frame extends a valid history by exactly that frame. |
| FrameLoop.FrameLoop | viewfinder/main.c:119-256 | The loop shows the leading run of good frames, and the record of composed screens is a valid history of them. Each shown frame is composed from the screen the previous render left, gets its display-width square at the origin and the logo, and is rendered once. A failed capture ends the loop, records the status and lights the red LED. A failed call ends it at a breakpoint without the LED. |
| PowerProfile.FindMarker | viewfinder/power_management/power_management.c:48 | The search returns the first position of `" v"`, or none when there is none. |
| PowerProfile.FindMarkerComplete | viewfinder/power_management/power_management.c:48 | The search finds a marker exactly when the string holds one. |
| PowerProfile.ScanIntReadsDecimal | viewfinder/power_management/power_management.c:52 | A `%d` conversion reads back a number written in decimal. |
| PowerProfile.ScanRoundTrip | viewfinder/power_management/power_management.c:52-55 | Scanning `" vMAJ.MIN.PATCH"` gives back exactly its three numbers. |
| PowerProfile.PartsOfRevision | viewfinder/power_management/power_management.c:48-55 | A revision string holding a written version after text without `" v"` parses to that version. |
| PowerProfile.PackSum | viewfinder/power_management/power_management.c:58 | With minor and patch below 256, `maj<<16 \| min<<8 \| patch` is their weighted sum. |
| PowerProfile.PackFields | viewfinder/power_management/power_management.c:58 | For minor and patch below 256, the packed word gives back its three numbers. |
| PowerProfile.PackOrdersVersions | viewfinder/power_management/power_management.c:58-64 | For minor and patch below 256, comparing packed words is comparing versions lexicographically. |
| PowerProfile.SetPowerProfiles | viewfinder/power_management/power_management.c:35-79 | A failed query or a scan without three numbers gives false and sends nothing. The off configuration is sent only after the run configuration succeeds, and the result is true iff both succeed. |
| PowerProfile.VersionSelectsProfiles | viewfinder/power_management/power_management.c:40-78 | End to end, for a version whose minor and patch are below 256 and that packs without overflow, a firmware newer than 1.107.0 gets the 109 profiles and the rest get the 107 ones. Start-up succeeds iff both configurations are accepted. |
| PowerProfile.SelectionBoundary | viewfinder/power_management/power_management.c:58-70 | 1.107.0 and 1.106.255 keep the 107 profiles and 1.107.1 takes the 109 ones. 1.106.300 packs above 1.107.0 although it is older. |

## Left out

- The D/AVE2D accelerator path (`dave2d_image_draw`, `d2_clear`, `d2_startframe`/`d2_endframe`): these are foreign library calls. The dispatch decision, the command queue and the points where the queue is executed are modelled. The colour each command gives each pixel is the parameter `paint` of `Accelerator`, so the model says which commands reach which surface in which order, not how the accelerator rasterises or blends.
- `aipl_image_draw_clut` (main.c:221): its code is not part of this model. It is modelled as one accelerator command, `LogoBlit(100, 600)`, queued after the frame's image. This is because main.c:109 loads the logo's lookup table into the accelerator.
- FrameLoop.FrameLoop: the pixels of a frame drawn by the accelerator are stated only through `paint`. On an accelerated format the model shows that the shown surface is the previous inactive surface with exactly the clear, the blit and the logo executed on it, not what those commands draw.
- Compositor.ImageDraw: the shown surface is promised unchanged only when the accelerator's target is not the shown surface or its queue is empty. A software draw executes the queue into whatever surface the accelerator targets (image.c:149-153), and the application always targets the inactive surface first (image.c:66).
- Helium vector registers: the gather/scatter offsets and the top/bottom lane interleave are not modelled; their per-lane scalar effect and lane counts are. Inside a row pair, the converters interleave the stores of the two rows per 8-lane chunk, while the trace stores row by row. The two orders differ only when stores alias, which needs an image wider than the framebuffer.
- Source bytes past the image buffer: the C code reads whatever memory lies there. The model reads 0. `PixelLayout.TapsInBuffer` shows that well-formed images never read there.
- The colour-correction matrix, the sRGB curve (`powf`) and the LUT values: these are floating point. The curve is a parameter, and only the memoisation flag is modelled.
- `camera_init`'s driver chain, `camera_post_capture_process` and the cache maintenance: these are driver calls.
- Interrupt concurrency of the camera callback: it is modelled as events delivered in order, and `__WFI` as waiting for the next event. When the capture start fails, the model delivers no events during the call. The error test at camera.c:119-121 then sees the freshly cleared mask, and the start status is returned. An interrupt that fires in that window is not modelled.
- The AIPL library calls (colour correction, LUT, crop, resize, rotate, image create/destroy): their code is not part of this model. Each is a success flag, and allocation is an entry in the live set.
- `__BKPT` on a failed call is modelled as the iteration halting, since the debugger's resumption is outside the program.
- PMU cycle counting, `clock()`, `printf`, the green LED and the final `__WFI` loop: these are timing, output and idling with no effect on the state modelled.
- The status of the controller's frame-buffer update at disp.c:127 is discarded by the code. The model assumes every update is accepted, so a surface the controller is "told to scan out" is the one it shows.
- FrameLoop.FrameLoop: requires that, for a camera format converted in pairs of rows, the display width is even and no greater than the panel height. Without that, the as-written row guard writes past the framebuffer (see Findings). The application's camera image is always RGB565 (camera.c:129-135), and RGB565 is not converted in pairs of rows, so the requirement holds there.
- FrameLoop.FrameLoop: the bytes of each frame's drawn image are an input of the model, because the resize and rotate calls that produce them are not modelled.
- FrameLoop.FrameLoop: frames are a finite sequence, so the loop can also end by running out of frames (`OutOfFrames`), which the endless device loop never does.
- The `strstr` result when `" v"` is absent: the C code passes NULL to `sscanf`, which is undefined. Requiring the marker is part of `RevisionDefined`.
- PowerProfile.SetPowerProfiles: requires that the parsed numbers pack without signed overflow (`PackDefined`), because the C shifts are undefined beyond that.
- The revision buffer's 80-byte size, and the contents of the profiles in `power_profile_107.c` / `power_profile_109.c`: these are register data.
- PowerProfile.ScanVersion: `sscanf`'s EOF result (input ending before the first conversion) is treated like a short count, because both give "not 3".
- The board's panel and camera resolutions are parameters, except in `FrameLoop.CameraCropsExact`.
- IspLayout.AuxMatchesPlanes: requires X·Y ≥ 4, because below that the right shifts make some declared chroma planes 0 bytes.
- ColorMath.PackThenUnpack: states the truncation bounds (error 0..7 and 0..3) rather than a symmetric ±4/±2. Expansion zero-fills the dropped bits, so the error is one-sided.
- FrameLoop.CropOf: when W−H is odd the crop rectangle is one pixel larger than the square target. What `aipl_crop_img` does with that mismatch is not part of this model. The MT9M114 sizes (camera.h:21-35) have W−H even. The ARX3A0 size comes from build settings (camera.h:43-44) that are outside this model.
- Capture errors: the loop condition `ret == ARM_DRIVER_OK` (main.c:119) ends the loop on a failed capture, and the model does the same.

## Findings

| source | as written | input that shows it | evidently intended | confidence | as-written member | corrected member |
|---|---|---|---|---|---|---|
| viewfinder/graphics/image.c:216-217 | `cnt = fbwidth < x + width ? width : fbwidth - x`: an image running past the right edge gets its full width, and one that fits gets the space to the edge. | A 10-pixel-wide image at x=15 on a 20-pixel framebuffer: the 6th pixel is stored at index 20, the start of the next row. | `cnt = fbwidth < x + width ? fbwidth - x : width`, clipped at the edge. | not executed | SoftwareDraw.ColumnLimitInverted | SoftwareDraw.IntendedInBounds |
| viewfinder/graphics/image.c:486-488 | The paired-row loop tests `i < height && y + i < fbheight` for the first row of each pair only, then always draws row i+1. | A 2-row I420 image at y=3 on a 4-row framebuffer stores its second row past the framebuffer's end. A 1-row I420 image draws a row it does not have. | Draw row i+1 only when it passes the guard itself. | not executed | SoftwareDraw.PairedRowGuardOverrun | SoftwareDraw.IntendedRows |

=== FILE: camera.dfy ===
/** The camera capture handshake: the driver's event callback accumulates
    ERROR and STOPPED bits in a mask, and a capture resets the mask, starts
    the driver, waits for STOPPED and turns the mask into its result. The
    interrupt-driven callback is modelled as events delivered in order. Also
    the gamma table, computed once and then returned as it is. */
module CameraEvents {
  import opened ColorMath

  /** Events the camera driver reports through its callback. */
  datatype CpiEvent =
    | CaptureStopped
    | HsyncDetected
    | VsyncDetected
    | ErrHardware
    | MipiCsi2Error
    | InputFifoOverrun
    | OutputFifoOverrun
    | OtherEvent(code: nat)

  /** The event mask; only its two low bits are ever set. */
  type Mask = bv8

  const EventNone: Mask := 0
  const EventError: Mask := 1
  const EventStopped: Mask := 2

  /** Driver status code for success. */
  const DriverOk: int := 0

  /** The capture result reported when the ERROR bit is set. */
  const CaptureFailed: int := 0xFFFF

  /** Whether an event ends the wait for a frame: everything except the
      line and frame sync notifications. */
  predicate Stops(e: CpiEvent)
  {
    !(e.HsyncDetected? || e.VsyncDetected?)
  }

  /** Whether an event is reported as an error: every stopping event
      except the capture-stopped notification itself. */
  predicate IsError(e: CpiEvent)
  {
    Stops(e) && !e.CaptureStopped?
  }

  /** The callback: one event's effect on the mask. */
  function Callback(mask: Mask, e: CpiEvent): (m: Mask)
    ensures m & mask == mask
    ensures m & !(EventError | EventStopped) == mask & !(EventError | EventStopped)
    ensures (m & EventStopped != 0) == (mask & EventStopped != 0 || Stops(e))
    ensures (m & EventError != 0) == (mask & EventError != 0 || IsError(e))
  {
    match e
    case CaptureStopped => mask | EventStopped
    case HsyncDetected => mask
    case VsyncDetected => mask
    case _ => mask | EventError | EventStopped
  }

  /** The mask after the callback has seen `events`, in order. */
  function Fold(mask: Mask, events: seq<CpiEvent>): Mask
    decreases |events|
  {
    if events == [] then mask else Fold(Callback(mask, events[0]), events[1..])
  }

  /** From a cleared mask, STOPPED is set exactly when some event stops the
      capture and ERROR exactly when some event is an error; no other bit
      is ever set. */
  lemma {:induction false} FoldBits(mask: Mask, events: seq<CpiEvent>)
    ensures Fold(mask, events) & mask == mask
    ensures Fold(mask, events) & !(EventError | EventStopped) == mask & !(EventError | EventStopped)
    ensures (Fold(mask, events) & EventStopped != 0)
        <==> (mask & EventStopped != 0 || exists j :: 0 <= j < |events| && Stops(events[j]))
    ensures (Fold(mask, events) & EventError != 0)
        <==> (mask & EventError != 0 || exists j :: 0 <= j < |events| && IsError(events[j]))
    decreases |events|
  {
    if events != [] {
      var m := Callback(mask, events[0]);
      FoldBits(m, events[1..]);
      OrKeeps(mask, m, Fold(m, events[1..]));
      forall j | 0 <= j < |events[1..]| ensures events[1..][j] == events[j + 1] {
      }
      if exists j :: 0 <= j < |events| && Stops(events[j]) {
        var j :| 0 <= j < |events| && Stops(events[j]);
        if j > 0 {
          assert Stops(events[1..][j - 1]);
        }
      }
      if exists j :: 0 <= j < |events| && IsError(events[j]) {
        var j :| 0 <= j < |events| && IsError(events[j]);
        if j > 0 {
          assert IsError(events[1..][j - 1]);
        }
      }
    }
  }

  /** Bits kept from a to b and from b to c are kept from a to c. */
  lemma OrKeeps(a: Mask, b: Mask, c: Mask)
    requires b & a == a && c & b == b
    ensures c & a == a
  {
  }

  /** Index of the first event that ends the wait, if any. */
  function FirstStop(events: seq<CpiEvent>): (r: int)
    ensures -1 <= r < |events|
    ensures r >= 0 ==> Stops(events[r]) && forall j :: 0 <= j < r ==> !Stops(events[j])
    ensures r == -1 ==> forall j :: 0 <= j < |events| ==> !Stops(events[j])
    decreases |events|
  {
    if events == [] then -1
    else if Stops(events[0]) then 0
    else
      var rest := FirstStop(events[1..]);
      if rest == -1 then -1 else rest + 1
  }

  /** What a capture call does with the events delivered while it runs. */
  datatype CaptureResult =
    /** The call returned `ret` after the callback saw `consumed` events. */
    | Returned(ret: int, consumed: nat)
    /** The call is still waiting for the STOPPED bit. */
    | StillWaiting

  /** One capture call: clear the mask, start the driver (its status is
      `startRet`), wait for STOPPED only if the start succeeded, then report
      0xFFFF if ERROR is set and the driver status otherwise. */
  method CameraCapture(startRet: int, events: seq<CpiEvent>) returns (r: CaptureResult)
    ensures startRet != DriverOk ==> r == Returned(startRet, 0)
    ensures startRet == DriverOk ==>
      var stop := FirstStop(events);
      if stop == -1 then r == StillWaiting
      else r == Returned(
        if exists j :: 0 <= j <= stop && IsError(events[j]) then CaptureFailed else DriverOk,
        stop + 1)
  {
    var mask := EventNone;
    var ret := startRet;
    var i := 0;
    if ret == DriverOk {
      while mask & EventStopped == 0
        invariant 0 <= i <= |events|
        invariant mask == Fold(EventNone, events[..i])
        invariant forall j :: 0 <= j < i - 1 ==> !Stops(events[j])
        invariant mask & EventStopped == 0 ==> forall j :: 0 <= j < i ==> !Stops(events[j])
        invariant i == 0 ==> mask == EventNone
        decreases |events| - i
      {
        if i == |events| {
          return StillWaiting;
        }
        assert events[..i + 1] == events[..i] + [events[i]];
        FoldSnoc(EventNone, events[..i], events[i]);
        mask := Callback(mask, events[i]);
        i := i + 1;
        if mask & EventStopped == 0 {
          FoldBits(EventNone, events[..i]);
          assert !Stops(events[..i][i - 1]);
        }
      }
      FoldBits(EventNone, events[..i]);
      FirstStopAt(events, i);
      ErrorWithin(events, i);
    }
    if mask & EventError != 0 {
      ret := CaptureFailed;
    }
    r := Returned(ret, i);
  }

  /** The callback applied to one more event. */
  lemma {:induction false} FoldSnoc(mask: Mask, events: seq<CpiEvent>, e: CpiEvent)
    ensures Fold(mask, events + [e]) == Callback(Fold(mask, events), e)
    decreases |events|
  {
    if events == [] {
      assert [e][1..] == [];
    } else {
      assert (events + [e])[1..] == events[1..] + [e];
      FoldSnoc(Callback(mask, events[0]), events[1..], e);
    }
  }

  /** The wait ends right after the first stopping event. */
  lemma FirstStopAt(events: seq<CpiEvent>, i: nat)
    requires 0 < i <= |events|
    requires forall j :: 0 <= j < i - 1 ==> !Stops(events[j])
    requires exists j :: 0 <= j < i && Stops(events[..i][j])
    ensures FirstStop(events) == i - 1
  {
    var j :| 0 <= j < i && Stops(events[..i][j]);
    assert Stops(events[j]);
    var f := FirstStop(events);
    assert f != -1;
  }

  /** The ERROR bit after the first `i` events, in terms of the events. */
  lemma ErrorWithin(events: seq<CpiEvent>, i: nat)
    requires i <= |events|
    ensures (exists j :: 0 <= j < i && IsError(events[..i][j]))
        <==> (exists j :: 0 <= j <= i - 1 && IsError(events[j]))
  {
    if exists j :: 0 <= j <= i - 1 && IsError(events[j]) {
      var j :| 0 <= j <= i - 1 && IsError(events[j]);
      assert IsError(events[..i][j]);
    }
  }

  /** A sync-only stream never ends the wait; an error event ends it with
      the failure code even when the driver started. */
  lemma SyncOnlyNeverStops(events: seq<CpiEvent>)
    requires forall j :: 0 <= j < |events| ==> events[j].HsyncDetected? || events[j].VsyncDetected?
    ensures FirstStop(events) == -1
    ensures Fold(EventNone, events) == EventNone
  {
    FoldBits(EventNone, events);
  }

  // ---------------------------------------------------------------------
  // Gamma table memoisation

  const LutSize: nat := 256

  /** The static table and its `inited` flag. */
  datatype LutCache = LutCache(inited: bool, lut: seq<Byte>)

  /** Once set, the flag means the table holds every entry of the curve. */
  predicate CacheValid(c: LutCache, curve: nat -> Byte)
  {
    c.inited ==> |c.lut| == LutSize && forall i :: 0 <= i < LutSize ==> c.lut[i] == curve(i)
  }

  /** The table getter. `curve` stands for the sRGB transfer curve's value at
      each entry; `computed` says whether this call filled the table. */
  method GammaLut(c: LutCache, curve: nat -> Byte) returns (next: LutCache, table: seq<Byte>, computed: bool)
    requires CacheValid(c, curve)
    ensures next.inited && CacheValid(next, curve) && table == next.lut
    ensures |table| == LutSize && forall i :: 0 <= i < LutSize ==> table[i] == curve(i)
    ensures computed == !c.inited
    ensures c.inited ==> next == c
  {
    if c.inited {
      return c, c.lut, false;
    }
    var lut := if |c.lut| == LutSize then c.lut else seq(LutSize, _ => 0);
    var i := 0;
    while i < LutSize
      invariant 0 <= i <= LutSize && |lut| == LutSize
      invariant forall j :: 0 <= j < i ==> lut[j] == curve(j)
    {
      lut := lut[i := curve(i)];
      i := i + 1;
    }
    next := LutCache(true, lut);
    table := lut;
    computed := true;
  }

  /** A second call returns the table of the first without recomputing it. */
  method GammaLutTwice(curve: nat -> Byte) returns (first: seq<Byte>, second: seq<Byte>, recomputed: bool)
    ensures first == second && !recomputed
    ensures |first| == LutSize && forall i :: 0 <= i < LutSize ==> first[i] == curve(i)
  {
    var c, computed;
    c, first, computed := GammaLut(LutCache(false, []), curve);
    c, second, recomputed := GammaLut(c, curve);
  }
}

=== FILE: colormath.dfy ===
/** Per-lane integer colour maths of the software pixel converter:
    the BT.601 integer YUV to RGB transform with the two saturating
    narrows of the vector code, the RGB565 pack built by two
    shift-left-insert steps, and the byte-pair pack of the BGR888 path. */
module ColorMath {

  /** An unsigned 8-bit sample. */
  type Byte = b: int | 0 <= b < 256

  /** One RGB565 display pixel (a 16-bit lane). */
  type Pixel = bv16

  datatype Rgb = Rgb(r: Byte, g: Byte, b: Byte)

  /** Reference clamp to the 8-bit range. */
  function Clamp(x: int): Byte
  {
    if x < 0 then 0 else if x > 255 then 255 else x
  }

  /** `vqmovn` on one lane: signed saturating narrow from 32 to 16 bits. */
  function NarrowS16(x: int): (r: int)
    ensures -32768 <= r <= 32767
    ensures -32768 <= x <= 32767 ==> r == x
    ensures x < -32768 ==> r == -32768
    ensures x > 32767 ==> r == 32767
  {
    if x < -32768 then -32768 else if x > 32767 then 32767 else x
  }

  /** `vqmovun` on one lane: signed 16-bit to unsigned 8-bit saturating narrow. */
  function NarrowU8(x: int): (r: Byte)
    requires -32768 <= x <= 32767
    ensures 0 <= x <= 255 ==> r == x
    ensures x < 0 ==> r == 0
    ensures x > 255 ==> r == 255
  {
    if x < 0 then 0 else if x > 255 then 255 else x
  }

  /** One output channel from its 32-bit accumulator: add the rounding bias,
      shift right arithmetically by 8 (Dafny's division by a positive divisor
      floors, which is the arithmetic shift), then the two saturating narrows. */
  function Channel(acc: int): (r: Byte)
    ensures r == Clamp((acc + 128) / 256)
  {
    NarrowU8(NarrowS16((acc + 128) / 256))
  }

  /** The per-lane YUV to RGB transform shared by every YUV converter. */
  function YuvToRgb(y: Byte, u: Byte, v: Byte): (p: Rgb)
    ensures p.r == Clamp((298 * (y - 16) + 409 * (v - 128) + 128) / 256)
    ensures p.g == Clamp((298 * (y - 16) - 100 * (u - 128) - 208 * (v - 128) + 128) / 256)
    ensures p.b == Clamp((298 * (y - 16) + 516 * (u - 128) + 128) / 256)
  {
    var c := y - 16;
    var d := u - 128;
    var e := v - 128;
    Rgb(Channel(298 * c + 409 * e),
        Channel(298 * c - 100 * d - 208 * e),
        Channel(298 * c + 516 * d))
  }

  /** The grey-only transform of the I400 converter: the chroma terms are absent. */
  function GreyToRgb(y: Byte): (p: Rgb)
    ensures p.r == p.g == p.b
    ensures p == YuvToRgb(y, 128, 128)
  {
    var c := y - 16;
    Rgb(Channel(298 * c), Channel(298 * c), Channel(298 * c))
  }

  /** `vsli` on one 16-bit lane: shift `src` left by `n` and insert it above the
      low `n` bits of `dst`. */
  function ShiftLeftInsert(dst: bv16, src: bv16, n: bv16): bv16
    requires 0 < n < 16
  {
    (src << n) | (dst & ((1 << n) - 1))
  }

  /** The RGB565 word, built as the converters build it: first g>>2 with r>>3
      inserted above 6 bits, then b>>3 with that inserted above 5 bits. */
  function Pack565(p: Rgb): (w: Pixel)
    ensures w == (((p.r as bv16) >> 3) << 11) | (((p.g as bv16) >> 2) << 5) | ((p.b as bv16) >> 3)
  {
    var r5 := (p.r as bv16) >> 3;
    var g6 := (p.g as bv16) >> 2;
    var b5 := (p.b as bv16) >> 3;
    ShiftLeftInsert(b5, ShiftLeftInsert(g6, r5, 6), 5)
  }

  /** A byte widened to a 16-bit lane keeps its value. */
  lemma WidenByte(x: Byte)
    ensures (x as bv16) as int == x
    ensures (x as bv16) < 256
  {
  }

  /** Shifting a widened byte right is integer division by a power of two. */
  lemma ShiftRightIsDivision(x: bv16)
    requires x < 256
    ensures (x >> 3) as int == (x as int) / 8
    ensures (x >> 2) as int == (x as int) / 4
  {
  }

  /** Disjoint bit fields combine by addition. */
  lemma FieldsAdd(a: bv16, b: bv16, c: bv16)
    requires a < 32 && b < 64 && c < 32
    ensures ((a << 11) | (b << 5) | c) as int == (a as int) * 2048 + (b as int) * 32 + c as int
  {
  }

  /** The numeric value of the RGB565 word: 5, 6 and 5 high bits of r, g, b. */
  lemma Pack565Value(p: Rgb)
    ensures Pack565(p) as int == (p.r / 8) * 2048 + (p.g / 4) * 32 + p.b / 8
  {
    var r, g, b := p.r as bv16, p.g as bv16, p.b as bv16;
    WidenByte(p.r);
    WidenByte(p.g);
    WidenByte(p.b);
    ShiftRightIsDivision(r);
    ShiftRightIsDivision(g);
    ShiftRightIsDivision(b);
    var r5, g6, b5 := r >> 3, g >> 2, b >> 3;
    assert r5 < 32 && g6 < 64 && b5 < 32;
    FieldsAdd(r5, g6, b5);
    assert Pack565(p) == (r5 << 11) | (g6 << 5) | b5;
  }

  /** Expands an RGB565 word back to 8-bit channels by zero-filling the dropped bits. */
  function Unpack565(w: Pixel): Rgb
  {
    FieldsFitByte(w);
    Rgb(((w >> 11) << 3) as int, (((w >> 5) & 0x3F) << 2) as int, ((w & 0x1F) << 3) as int)
  }

  lemma FieldsFitByte(w: Pixel)
    ensures ((w >> 11) << 3) as int < 256
    ensures (((w >> 5) & 0x3F) << 2) as int < 256
    ensures ((w & 0x1F) << 3) as int < 256
  {
  }

  /** `vsri` on one 8-bit lane: shift `src` right by `n` and insert it below the
      top `8 - n` bits of `dst`. */
  function ShiftRightInsert8(dst: bv8, src: bv8, n: bv8): bv8
    requires 0 < n < 8
  {
    (src >> n) | (dst & !(0xFF >> n))
  }

  /** High byte the BGR888 path stores: `vsri(r, g, 5)`. */
  function BgrHighByte(p: Rgb): (h: bv8)
    ensures h == ((p.r as bv8) & 0xF8) | ((p.g as bv8) >> 5)
  {
    ShiftRightInsert8(p.r as bv8, p.g as bv8, 5)
  }

  /** Low byte the BGR888 path stores: `vsri(g << 3, b, 3)`. */
  function BgrLowByte(p: Rgb): (l: bv8)
    ensures l == (((p.g as bv8) << 3) & 0xE0) | ((p.b as bv8) >> 3)
  {
    ShiftRightInsert8((p.g as bv8) << 3, p.b as bv8, 3)
  }

  /** The little-endian 16-bit word formed by the BGR888 path's two byte stores. */
  function BgrWord(p: Rgb): (w: Pixel)
    ensures w == Pack565(p)
  {
    ((BgrHighByte(p) as bv16) << 8) | (BgrLowByte(p) as bv16)
  }

  /** Converting a lane to an integer and back is the identity. */
  lemma LaneRoundTrip(x: bv16)
    ensures (x as int) as bv16 == x
  {
  }

  /** Clearing the low bits of a byte-sized lane rounds it down to a multiple. */
  lemma ClearLowBits(x: bv16)
    requires x < 256
    ensures ((x >> 3) << 3) as int == (x as int / 8) * 8
    ensures ((x >> 2) << 2) as int == (x as int / 4) * 4
  {
    ClearLow3(x);
    ClearLow2(x);
  }

  lemma ClearLow3(x: bv16)
    requires x < 256
    ensures ((x >> 3) << 3) as int == (x as int / 8) * 8
  {
  }

  lemma ClearLow2(x: bv16)
    requires x < 256
    ensures ((x >> 2) << 2) as int == (x as int / 4) * 4
  {
  }

  /** The three fields of an RGB565 word reassemble the word. */
  lemma FieldsReassemble(w: Pixel)
    ensures ((((w >> 11) << 3) >> 3) << 11) | (((((w >> 5) & 0x3F) << 2) >> 2) << 5) | (((w & 0x1F) << 3) >> 3) == w
  {
  }

  /** Unpacking then packing is the identity on RGB565 words. */
  lemma UnpackThenPack(w: Pixel)
    ensures Pack565(Unpack565(w)) == w
  {
    var q := Unpack565(w);
    LaneRoundTrip((w >> 11) << 3);
    LaneRoundTrip(((w >> 5) & 0x3F) << 2);
    LaneRoundTrip((w & 0x1F) << 3);
    FieldsReassemble(w);
  }

  /** The fields of a packed word are the kept high bits of each channel. */
  lemma PackedFields(r: bv16, g: bv16, b: bv16)
    requires r < 256 && g < 256 && b < 256
    ensures var w := ((r >> 3) << 11) | ((g >> 2) << 5) | (b >> 3);
      && w >> 11 == r >> 3 && (w >> 5) & 0x3F == g >> 2 && w & 0x1F == b >> 3
  {
  }

  /** Unpacking a packed colour gives it back with the dropped low bits
      cleared. */
  lemma UnpackPacked(p: Rgb)
    ensures Unpack565(Pack565(p)) == Rgb((p.r / 8) * 8, (p.g / 4) * 4, (p.b / 8) * 8)
  {
    var r, g, b := p.r as bv16, p.g as bv16, p.b as bv16;
    WidenByte(p.r);
    WidenByte(p.g);
    WidenByte(p.b);
    ClearLowBits(r);
    ClearLowBits(g);
    ClearLowBits(b);
    PackedWordFields(p);
  }

  /** The fields of a packed colour, read back as the unpacker reads them. */
  lemma PackedWordFields(p: Rgb)
    ensures var w := Pack565(p);
      && w >> 11 == (p.r as bv16) >> 3
      && (w >> 5) & 0x3F == (p.g as bv16) >> 2
      && w & 0x1F == (p.b as bv16) >> 3
  {
    var r, g, b := p.r as bv16, p.g as bv16, p.b as bv16;
    WidenByte(p.r);
    WidenByte(p.g);
    WidenByte(p.b);
    PackedFields(r, g, b);
    var w := Pack565(p);
    assert w == ((r >> 3) << 11) | ((g >> 2) << 5) | (b >> 3);
    assert w >> 11 == r >> 3 && (w >> 5) & 0x3F == g >> 2 && w & 0x1F == b >> 3;
  }

  /** Packing then unpacking loses only the dropped low bits: at most 7 in the
      5-bit channels and at most 3 in the 6-bit channel, always downwards. */
  lemma PackThenUnpack(p: Rgb)
    ensures Unpack565(Pack565(p)).r <= p.r < Unpack565(Pack565(p)).r + 8
    ensures Unpack565(Pack565(p)).g <= p.g < Unpack565(Pack565(p)).g + 4
    ensures Unpack565(Pack565(p)).b <= p.b < Unpack565(Pack565(p)).b + 8
  {
    UnpackPacked(p);
  }

  /** Video white (Y=235, neutral chroma) and anything brighter packs to 0xFFFF. */
  lemma WhiteIsAllOnes(y: Byte)
    requires y >= 235
    ensures YuvToRgb(y, 128, 128) == Rgb(255, 255, 255)
    ensures Pack565(YuvToRgb(y, 128, 128)) == 0xFFFF
  {
  }

  /** Video black (Y=16, neutral chroma) and anything darker packs to 0x0000. */
  lemma BlackIsZero(y: Byte)
    requires y <= 16
    ensures YuvToRgb(y, 128, 128) == Rgb(0, 0, 0)
    ensures Pack565(YuvToRgb(y, 128, 128)) == 0
  {
  }

  lemma ClampMonotone(a: int, b: int)
    requires a <= b
    ensures Clamp(a) <= Clamp(b)
  {
  }

  /** With the chroma fixed, every output channel is non-decreasing in luma. */
  lemma LumaMonotone(y1: Byte, y2: Byte, u: Byte, v: Byte)
    requires y1 <= y2
    ensures YuvToRgb(y1, u, v).r <= YuvToRgb(y2, u, v).r
    ensures YuvToRgb(y1, u, v).g <= YuvToRgb(y2, u, v).g
    ensures YuvToRgb(y1, u, v).b <= YuvToRgb(y2, u, v).b
  {
    var c1, c2, d, e := y1 - 16, y2 - 16, u - 128, v - 128;
    assert 298 * c1 <= 298 * c2;
    ClampMonotone((298 * c1 + 409 * e + 128) / 256, (298 * c2 + 409 * e + 128) / 256);
    ClampMonotone((298 * c1 - 100 * d - 208 * e + 128) / 256, (298 * c2 - 100 * d - 208 * e + 128) / 256);
    ClampMonotone((298 * c1 + 516 * d + 128) / 256, (298 * c2 + 516 * d + 128) / 256);
  }
}

=== FILE: compositor.dfy ===
/** Drawing an image into the frame being composed: formats the 2D
    accelerator supports are queued for it; any other format first has the
    accelerator's queue executed, then is converted in software straight
    into the inactive surface. The prepare and render steps bracket a frame:
    prepare points the accelerator at the inactive surface and queues a
    background clear; render executes the queue and swaps the surfaces. What
    each accelerator command does to a pixel is a parameter. */
module Compositor {
  import opened ColorMath
  import opened PixelLayout
  import opened SoftwareDraw
  import opened FrameBuffers

  /** A command queued for the 2D accelerator: the background clear, an
      image blit, and the logo drawn through the accelerator's colour
      lookup table. */
  datatype AccelCommand = Clear(color: bv32) | Blit(x: nat, y: nat, img: Image) | LogoBlit(x: nat, y: nat)

  /** The background colour a frame is cleared to, 0x00RRGGBB. */
  const Background: bv32 := 0x00fe_fefe

  /** Where the application draws its logo. */
  const LogoX: nat := 100
  const LogoY: nat := 600

  /** The 2D accelerator: the image formats it takes, and the colour it
      gives pixel `k` of its target surface when it executes a command, as a
      function of the command and of the surface before it. How it
      rasterises is not part of this model. */
  datatype Accelerator = Accelerator(
    supports: ColorFormat -> bool, paint: (AccelCommand, seq<Pixel>, nat) -> Pixel)

  /** The display, the surface the accelerator renders into, and the
      accelerator's queue of commands not yet executed. */
  datatype Screen = Screen(display: Display, target: BufferId, queue: seq<AccelCommand>)

  /** The per-pixel conversion of the image's format; formats without a
      converter are never drawn in software. */
  function Converter(img: Image): (nat, nat) -> Pixel
  {
    (r: nat, c: nat) => if HasConverter(img.format) then PixelOf(img, r, c) else 0
  }

  /** The software converter call for an image placed at (x, y). */
  function Request(s: Screen, x: nat, y: nat, img: Image, clip: Clipping): DrawRequest
  {
    DrawRequest(img, Converter(img), x, y, Panel(s.display.width, s.display.height), clip)
  }

  /** One command executed on a surface. */
  function ExecuteOne(a: Accelerator, fb: seq<Pixel>, c: AccelCommand): (out: seq<Pixel>)
    ensures |out| == |fb|
    ensures forall k :: 0 <= k < |fb| ==> out[k] == a.paint(c, fb, k)
  {
    seq(|fb|, k requires 0 <= k < |fb| => a.paint(c, fb, k))
  }

  /** A queue of commands executed in order on a surface. */
  function Execute(a: Accelerator, fb: seq<Pixel>, q: seq<AccelCommand>): (out: seq<Pixel>)
    ensures |out| == |fb|
    decreases |q|
  {
    if q == [] then fb else Execute(a, ExecuteOne(a, fb, q[0]), q[1..])
  }

  /** Executing two queues one after the other is executing their
      concatenation. */
  lemma {:induction false} ExecuteConcat(a: Accelerator, fb: seq<Pixel>, p: seq<AccelCommand>, q: seq<AccelCommand>)
    ensures Execute(a, fb, p + q) == Execute(a, Execute(a, fb, p), q)
    decreases |p|
  {
    if p == [] {
      assert p + q == q;
    } else {
      assert (p + q)[0] == p[0] && (p + q)[1..] == p[1..] + q;
      ExecuteConcat(a, ExecuteOne(a, fb, p[0]), p[1..], q);
    }
  }

  /** The last command of a queue acts on what the rest of the queue left. */
  lemma ExecuteLast(a: Accelerator, fb: seq<Pixel>, p: seq<AccelCommand>, c: AccelCommand)
    ensures Execute(a, fb, p + [c]) == ExecuteOne(a, Execute(a, fb, p), c)
  {
    ExecuteConcat(a, fb, p, [c]);
    assert [c][1..] == [];
  }

  /** Surface `b` once the queue has been executed into the accelerator's
      target surface. */
  function Flushed(a: Accelerator, s: Screen, b: BufferId): (out: seq<Pixel>)
    requires Valid(s.display)
    ensures |out| == s.display.width * s.display.height
  {
    if b == s.target then Execute(a, s.display.surfaces[b], s.queue) else s.display.surfaces[b]
  }

  /** Execute the queued commands into the target surface and empty the
      queue. */
  function Flush(a: Accelerator, s: Screen): (t: Screen)
    ensures t.queue == [] && t.target == s.target
    ensures t.display.width == s.display.width && t.display.height == s.display.height
    ensures t.display.current == s.display.current && t.display.scanout == s.display.scanout
    ensures Valid(s.display) ==> Valid(t.display)
    ensures Valid(s.display) ==> forall b: BufferId :: t.display.surfaces[b] == Flushed(a, s, b)
  {
    var d := s.display;
    if s.target < |d.surfaces|
    then Screen(d.(surfaces := d.surfaces[s.target := Execute(a, d.surfaces[s.target], s.queue)]), s.target, [])
    else Screen(d, s.target, [])
  }

  /** Point the accelerator at the inactive surface and queue the background
      clear. */
  function Prepare(s: Screen): (t: Screen)
    ensures t.display == s.display
    ensures t.target == Inactive(s.display) && t.target != Active(s.display)
    ensures t.queue == s.queue + [Clear(Background)]
  {
    Screen(s.display, Inactive(s.display), s.queue + [Clear(Background)])
  }

  /** Queue the logo at its fixed position. */
  function QueueLogo(s: Screen): (t: Screen)
    ensures t.display == s.display && t.target == s.target
    ensures t.queue == s.queue + [LogoBlit(LogoX, LogoY)]
  {
    s.(queue := s.queue + [LogoBlit(LogoX, LogoY)])
  }

  /** Execute the queued commands into the target surface, wait for them,
      then swap the surfaces. */
  function Render(a: Accelerator, s: Screen): (t: Screen)
    ensures t.queue == [] && t.target == s.target
    ensures t.display.width == s.display.width && t.display.height == s.display.height
    ensures Active(t.display) == Inactive(s.display) && t.display.scanout == Active(t.display)
    ensures Valid(s.display) ==> Valid(t.display)
    ensures Valid(s.display) ==> forall b: BufferId :: t.display.surfaces[b] == Flushed(a, s, b)
  {
    var f := Flush(a, s);
    f.(display := NextFrame(f.display))
  }

  /** Convert `img` in software into the inactive surface, with its
      top-left corner at (x, y): the surface receives the converter's writes
      in order, and nothing else changes. When the written columns end
      inside each row, covered pixels get the converted source pixel and all
      others keep their value; otherwise a row's tail wraps into the next
      row, as the write trace says. */
  method ConvertInto(s: Screen, x: nat, y: nat, img: Image, clip: Clipping) returns (t: Screen)
    requires Valid(s.display)
    requires InBounds(Trace(Request(s, x, y, img, clip)), s.display.width * s.display.height)
    ensures Valid(t.display) && t.target == s.target && t.queue == s.queue
    ensures t.display.width == s.display.width && t.display.height == s.display.height
    ensures t.display.current == s.display.current && t.display.scanout == s.display.scanout
    ensures t.display.surfaces[Active(s.display)] == s.display.surfaces[Active(s.display)]
    ensures t.display.surfaces[Inactive(s.display)]
         == ApplyWrites(s.display.surfaces[Inactive(s.display)], Trace(Request(s, x, y, img, clip)))
    ensures var req := Request(s, x, y, img, clip);
      var before := s.display.surfaces[Inactive(s.display)];
      var after := t.display.surfaces[Inactive(s.display)];
      (Columns(req) == 0 || x + Columns(req) <= s.display.width) ==>
        forall k :: 0 <= k < |before| ==>
          after[k] == if Covered(req, k) then SourcePixel(req, k) else before[k]
  {
    var req := Request(s, x, y, img, clip);
    var fb := s.display.surfaces[Inactive(s.display)];
    var drawn := DrawRows(req, fb);
    if Columns(req) == 0 || x + Columns(req) <= s.display.width {
      DrawResult(req, fb);
    }
    t := s.(display := WriteInactive(s.display, drawn));
  }

  /** Draw `img` with its top-left corner at (x, y). A format the accelerator
      supports is queued as a blit. Any other format first has the queue
      executed into the accelerator's target, then is converted in software
      into the inactive surface, writing only where the source's converter
      writes, which must lie inside the surface. */
  method ImageDraw(s: Screen, x: nat, y: nat, img: Image, a: Accelerator, clip: Clipping)
    returns (t: Screen)
    requires Valid(s.display)
    requires !a.supports(img.format) && HasConverter(img.format) ==>
      InBounds(Trace(Request(s, x, y, img, clip)), s.display.width * s.display.height)
    ensures Valid(t.display) && t.target == s.target
    ensures t.display.width == s.display.width && t.display.height == s.display.height
    ensures t.display.current == s.display.current && t.display.scanout == s.display.scanout
    ensures s.target != Active(s.display) || s.queue == [] ==>
      t.display.surfaces[Active(s.display)] == s.display.surfaces[Active(s.display)]
    ensures a.supports(img.format) ==> t.display == s.display && t.queue == s.queue + [Blit(x, y, img)]
    ensures !a.supports(img.format) ==> t.queue == []
    ensures !a.supports(img.format) ==>
      t.display.surfaces[Active(s.display)] == Flushed(a, s, Active(s.display))
    ensures !a.supports(img.format) && !HasConverter(img.format) ==>
      t.display.surfaces[Inactive(s.display)] == Flushed(a, s, Inactive(s.display))
    ensures !a.supports(img.format) && HasConverter(img.format) ==>
      t.display.surfaces[Inactive(s.display)]
      == ApplyWrites(Flushed(a, s, Inactive(s.display)), Trace(Request(s, x, y, img, clip)))
    ensures !a.supports(img.format) && HasConverter(img.format) ==>
      var req := Request(s, x, y, img, clip);
      var under := Flushed(a, s, Inactive(s.display));
      var after := t.display.surfaces[Inactive(s.display)];
      (Columns(req) == 0 || x + Columns(req) <= s.display.width) ==>
        forall k :: 0 <= k < |under| ==>
          after[k] == if Covered(req, k) then SourcePixel(req, k) else under[k]
  {
    if a.supports(img.format) {
      t := s.(queue := s.queue + [Blit(x, y, img)]);
    } else {
      var f := Flush(a, s);
      if HasConverter(img.format) {
        assert Request(f, x, y, img, clip) == Request(s, x, y, img, clip);
        assert Inactive(f.display) == Inactive(s.display) && Active(f.display) == Active(s.display);
        assert f.display.surfaces[Inactive(s.display)] == Flushed(a, s, Inactive(s.display));
        t := ConvertInto(f, x, y, img, clip);
      } else {
        t := f;
      }
    }
  }

  /** The surface the accelerator renders into after prepare is the one the
      software path draws into, and the one render then hands to the
      display, with the background clear executed on it. */
  lemma PrepareTargetsDrawnSurface(a: Accelerator, s: Screen)
    requires Valid(s.display)
    ensures Prepare(s).target == Inactive(Prepare(s).display)
    ensures var t := Render(a, Prepare(s));
      && Active(t.display) == Prepare(s).target
      && t.display.surfaces[Active(t.display)]
         == Execute(a, s.display.surfaces[Inactive(s.display)], s.queue + [Clear(Background)])
  {
  }

  /** A frame written into the inactive surface is what the controller is
      told to scan out after render, once the queue has run on it; the
      surface shown before is untouched unless the accelerator targets it. */
  lemma RenderShowsDrawn(a: Accelerator, s: Screen, pixels: seq<Pixel>)
    requires Valid(s.display) && |pixels| == s.display.width * s.display.height
    ensures var t := Render(a, s.(display := WriteInactive(s.display, pixels)));
      && t.display.scanout == Inactive(s.display)
      && t.display.surfaces[t.display.scanout]
         == (if s.target == Inactive(s.display) then Execute(a, pixels, s.queue) else pixels)
      && (s.queue == [] ==> t.display.surfaces[t.display.scanout] == pixels)
      && (s.target == Inactive(s.display) ==>
            t.display.surfaces[Inactive(t.display)] == s.display.surfaces[Active(s.display)])
  {
  }

  /** Under the application's geometry a software draw with the limits as
      written stays inside the surface, as the intended limits do. */
  lemma AppDrawInBounds(s: Screen, x: nat, y: nat, img: Image)
    requires AppGeometry(Request(s, x, y, img, AsWritten))
    ensures InBounds(Trace(Request(s, x, y, img, AsWritten)), s.display.width * s.display.height)
    ensures Trace(Request(s, x, y, img, AsWritten)) == Trace(Request(s, x, y, img, Intended))
  {
    var req := Request(s, x, y, img, AsWritten);
    AppGeometryAgrees(req);
    assert req.(clip := Intended) == Request(s, x, y, img, Intended);
  }
}

=== FILE: framebuffers.dfy ===
/** The display's double buffering: two RGB565 surfaces, an index naming the
    one the display controller shows, and the swap that hands the other one
    to the controller. */
module FrameBuffers {
  import opened ColorMath

  /** BUFFER_1 is 0, BUFFER_2 is 1. */
  type BufferId = b: nat | b < 2

  const NumBuffers: nat := 2

  /** Driver status code for success. */
  const DriverOk: int := 0

  /** The two surfaces of `width * height` pixels, the current index, and the
      surface the display controller was last told to scan out. */
  datatype Display = Display(
    surfaces: seq<seq<Pixel>>, width: nat, height: nat, current: BufferId, scanout: BufferId)

  predicate Valid(d: Display)
  {
    |d.surfaces| == NumBuffers
    && (forall b :: 0 <= b < NumBuffers ==> |d.surfaces[b]| == d.width * d.height)
  }

  /** Both surfaces zero-filled, the current index at BUFFER_1. No
      controller has been configured yet, so `scanout` means nothing here:
      it is set to 0 as a placeholder, and display_init overwrites it with
      the surface it configures (disp.c:107). */
  function Initial(width: nat, height: nat): (d: Display)
    ensures Valid(d)
    ensures |d.surfaces[0]| == |d.surfaces[1]| == width * height
    ensures d.current == 0 && Active(d) == 0
    ensures forall k :: 0 <= k < width * height ==> d.surfaces[0][k] == 0 && d.surfaces[1][k] == 0
  {
    var blank := seq(width * height, _ => 0 as Pixel);
    Display([blank, blank], width, height, 0, 0)
  }

  /** The surface the controller was last told to show. */
  function Active(d: Display): BufferId
  {
    d.current
  }

  /** The other surface, the one drawing goes to. */
  function Inactive(d: Display): (b: BufferId)
  {
    (d.current + 1) % NumBuffers
  }

  /** Advance the current index and hand the new current surface to the
      controller. The driver's status for that update is discarded
      (disp.c:127), so the model takes the update as accepted. */
  function NextFrame(d: Display): (e: Display)
    ensures e.surfaces == d.surfaces && e.width == d.width && e.height == d.height
    ensures e.scanout == Active(e)
  {
    var next := (d.current + 1) % NumBuffers;
    d.(current := next, scanout := next)
  }

  /** Replace the inactive surface's pixels. */
  function WriteInactive(d: Display, pixels: seq<Pixel>): (e: Display)
    requires Valid(d) && |pixels| == d.width * d.height
    ensures Valid(e)
    ensures e.current == d.current && e.scanout == d.scanout
    ensures e.surfaces[Inactive(d)] == pixels
    ensures e.surfaces[Active(d)] == d.surfaces[Active(d)]
  {
    d.(surfaces := d.surfaces[Inactive(d) := pixels])
  }

  /** The controller start-up sequence: initialise, power up, configure to
      scan out the active surface, start. Each step runs only when the ones
      before it succeeded, and the first failing status is returned. */
  function DisplayInit(d: Display, initRet: int, powerRet: int, configRet: int, startRet: int)
    : (res: (int, Display))
    ensures res.0 == DriverOk <==>
      initRet == DriverOk && powerRet == DriverOk && configRet == DriverOk && startRet == DriverOk
    ensures res.0 != DriverOk ==>
      res.0 == (if initRet != DriverOk then initRet
                else if powerRet != DriverOk then powerRet
                else if configRet != DriverOk then configRet
                else startRet)
    ensures powerRet == DriverOk && initRet == DriverOk ==> res.1.scanout == Active(d)
    ensures res.1.surfaces == d.surfaces && res.1.current == d.current
  {
    if initRet != DriverOk then (initRet, d)
    else if powerRet != DriverOk then (powerRet, d)
    else
      var configured := d.(scanout := Active(d));
      if configRet != DriverOk then (configRet, configured)
      else (startRet, configured)
  }

  // ---------------------------------------------------------------------
  // Properties of the swap

  /** The two selectors always name different surfaces, and between them
      name both. */
  lemma ActiveInactiveDiffer(d: Display)
    ensures Active(d) != Inactive(d)
    ensures Active(d) + Inactive(d) == 1
  {
  }

  /** A swap exchanges the roles of the two surfaces. */
  lemma NextFrameSwaps(d: Display)
    ensures Active(NextFrame(d)) == Inactive(d)
    ensures Inactive(NextFrame(d)) == Active(d)
  {
  }

  /** Two swaps restore the roles, and the controller again shows the
      surface it showed before. */
  lemma NextFrameTwice(d: Display)
    requires d.scanout == d.current
    ensures NextFrame(NextFrame(d)) == d
  {
  }

  /** Once the controller shows the active surface, drawing and swapping keep
      it so: drawing never touches the shown surface, and a swap hands over
      the surface just drawn. */
  lemma ScanoutStaysActive(d: Display, pixels: seq<Pixel>)
    requires Valid(d) && |pixels| == d.width * d.height
    requires d.scanout == Active(d)
    ensures WriteInactive(d, pixels).scanout == Active(WriteInactive(d, pixels))
    ensures WriteInactive(d, pixels).surfaces[WriteInactive(d, pixels).scanout]
         == d.surfaces[d.scanout]
    ensures NextFrame(WriteInactive(d, pixels)).surfaces[NextFrame(WriteInactive(d, pixels)).scanout]
         == pixels
  {
  }

  /** After start-up, the first drawn frame is shown by the swap that
      follows it. */
  lemma FirstFrameShown(width: nat, height: nat, pixels: seq<Pixel>)
    requires |pixels| == width * height
    ensures var d := DisplayInit(Initial(width, height), DriverOk, DriverOk, DriverOk, DriverOk).1;
      var e := NextFrame(WriteInactive(d, pixels));
      e.scanout == 1 && e.surfaces[e.scanout] == pixels
  {
  }
}

=== FILE: frameloop.dfy ===
/** The application's frame loop: capture a frame, crop the camera image to
    a centred square, resize it to the display width, optionally rotate it,
    draw it with the logo and render. The temporary images of one iteration
    are modelled as a straight-line program over a set of live images, so
    that use after destruction, double destruction and leaks can be stated;
    a failed library call stops at a breakpoint. */
module FrameLoop {
  import opened ColorMath
  import opened PixelLayout
  import opened SoftwareDraw
  import opened FrameBuffers
  import opened Compositor

  // ---------------------------------------------------------------------
  // Crop geometry

  /** The square crop of a W by H camera image: its side, the left and top
      margins, and the rectangle handed to the crop call. */
  datatype Crop = Crop(dim: nat, border: nat, header: nat, left: nat, top: nat, right: nat, bottom: nat)

  /** The side is the smaller dimension, the margins are half of what is
      left over, and the rectangle leaves the same margin on both sides. */
  function CropOf(w: nat, h: nat): (c: Crop)
    ensures c.dim <= w && c.dim <= h && (c.dim == w || c.dim == h)
    ensures c.border == 0 || c.header == 0
    ensures c.left <= c.right <= w && c.top <= c.bottom <= h
    ensures c.left == w - c.right && c.top == h - c.bottom
  {
    var dim := if w > h then h else w;
    var border := (w - dim) / 2;
    var header := (h - dim) / 2;
    Crop(dim, border, header, border, header, w - border, h - header)
  }

  /** The side is the largest square that fits the image. */
  lemma CropIsLargestSquare(w: nat, h: nat, d: nat)
    requires d <= w && d <= h
    ensures d <= CropOf(w, h).dim
  {
  }

  /** The rectangle is at most one pixel wider or taller than the square
      target, and exactly its size when the two dimensions differ by an
      even number. */
  lemma CropRectSize(w: nat, h: nat)
    ensures var c := CropOf(w, h);
      && c.dim <= c.right - c.left <= c.dim + 1
      && c.dim <= c.bottom - c.top <= c.dim + 1
      && ((c.right - c.left == c.dim && c.bottom - c.top == c.dim) <==> (w - h) % 2 == 0)
  {
    var c := CropOf(w, h);
    if w > h {
      assert c.right - c.left == w - 2 * ((w - h) / 2);
    } else {
      assert c.bottom - c.top == h - 2 * ((h - w) / 2);
    }
  }

  /** For the camera resolutions the application is built with, 1280 by 720
      and 640 by 480, the rectangle is exactly the square target. */
  lemma CameraCropsExact()
    ensures CropOf(1280, 720) == Crop(720, 280, 0, 280, 0, 1000, 720)
    ensures CropOf(640, 480) == Crop(480, 80, 0, 80, 0, 560, 480)
  {
  }

  // ---------------------------------------------------------------------
  // One iteration as a program over live images

  /** An image's buffer geometry: pitch, width and height in pixels, and
      its colour format. */
  datatype Geometry = Geometry(pitch: nat, width: nat, height: nat, format: ColorFormat)

  /** A square image whose pitch is its side. */
  function Square(side: nat, format: ColorFormat): Geometry
  {
    Geometry(side, side, side, format)
  }

  /** The camera image, which lives in a static buffer, and the three
      temporaries an iteration may allocate. */
  datatype Name = CamImage | CropImage | ResImage | RotImage

  /** The library operations an iteration calls. */
  datatype Op =
    | ColorCorrect | GammaCorrect
    | CropTo(left: nat, top: nat, right: nat, bottom: nat)
    | ResizeInterpolated | Rotate180
    | PrepareFrame | DrawAt(x: nat, y: nat) | DrawLogo(x: nat, y: nat) | RenderFrame

  /** A statement of the iteration. An allocation with `ok` false fails and
      is followed at once by a breakpoint; a call touches the images in
      `uses`; a check stops at a breakpoint when its call failed. */
  datatype Stmt =
    | Create(name: Name, g: Geometry, ok: bool)
    | Call(op: Op, uses: set<Name>)
    | Check(ok: bool)
    | Destroy(name: Name)

  /** How a program ended: it ran to the end, stopped at a breakpoint, or
      misused an image (allocated a live one, touched or destroyed a dead
      one). */
  datatype Status = Completed | Halted | Fault

  /** The images live at the end, and the status. */
  datatype Run = Run(live: set<Name>, status: Status)

  /** One statement's effect: the next live set, or the end of the run. */
  datatype Effect = Next(live: set<Name>) | Stop(status: Status)

  function Step(s: Stmt, live: set<Name>): (e: Effect)
    ensures e.Next? && s.Create? ==> s.name !in live && e.live == live + {s.name}
    ensures e.Next? && s.Destroy? ==> s.name in live && e.live == live - {s.name}
    ensures e.Next? && s.Call? ==> s.uses <= live && e.live == live
    ensures e.Stop? && e.status == Halted <==> (s.Create? && s.name !in live && !s.ok) || (s.Check? && !s.ok)
  {
    match s
    case Create(n, _, ok) =>
      if n in live then Stop(Fault) else if !ok then Stop(Halted) else Next(live + {n})
    case Call(_, uses) =>
      if uses <= live then Next(live) else Stop(Fault)
    case Check(ok) =>
      if ok then Next(live) else Stop(Halted)
    case Destroy(n) =>
      if n in live then Next(live - {n}) else Stop(Fault)
  }

  /** Run a program from the live set `live`. An image the program never
      destroys stays live, and nothing the program never allocates becomes
      live. */
  function Exec(prog: seq<Stmt>, live: set<Name>): (r: Run)
    ensures forall n :: n in live && Destroys(prog, n) == 0 ==> n in r.live
    ensures forall n :: n in r.live && Creates(prog, n) == 0 ==> n in live
    decreases |prog|
  {
    if prog == [] then Run(live, Completed)
    else match Step(prog[0], live)
      case Next(after) => Exec(prog[1..], after)
      case Stop(st) => Run(live, st)
  }

  /** One statement of a program, run. */
  lemma Unfold(prog: seq<Stmt>, live: set<Name>)
    requires prog != []
    ensures var e := Step(prog[0], live);
      Exec(prog, live) == if e.Next? then Exec(prog[1..], e.live) else Run(live, e.status)
  {
  }

  /** Statements allocating `n`, and statements destroying it. */
  function Creates(prog: seq<Stmt>, n: Name): nat
  {
    if prog == [] then 0 else (if prog[0].Create? && prog[0].name == n then 1 else 0) + Creates(prog[1..], n)
  }

  function Destroys(prog: seq<Stmt>, n: Name): nat
  {
    if prog == [] then 0 else (if prog[0] == Destroy(n) then 1 else 0) + Destroys(prog[1..], n)
  }

  /** Running `a` and then, if it completed, `b`. */
  function Then(r: Run, b: seq<Stmt>): Run
  {
    if r.status == Completed then Exec(b, r.live) else r
  }

  /** A program run in two parts. */
  lemma {:induction false} ExecAppend(a: seq<Stmt>, b: seq<Stmt>, live: set<Name>)
    ensures Exec(a + b, live) == Then(Exec(a, live), b)
    decreases |a|
  {
    if a == [] {
      assert a + b == b;
    } else {
      assert (a + b)[0] == a[0];
      assert (a + b)[1..] == a[1..] + b;
      match Step(a[0], live)
      case Next(after) => ExecAppend(a[1..], b, after);
      case Stop(_) =>
    }
  }

  /** Build options: the colour-correction pass, and the board variant whose
      camera is mounted upside down. */
  datatype Build = Build(colorCorrection: bool, rotate: bool)

  /** Whether each library call of an iteration succeeds. */
  datatype Outcomes = Outcomes(
    colorOk: bool, gammaOk: bool,
    cropCreateOk: bool, cropOk: bool,
    resCreateOk: bool, resizeOk: bool,
    rotCreateOk: bool, rotateOk: bool)

  function CorrectionsOk(b: Build, o: Outcomes): bool
  {
    !b.colorCorrection || (o.colorOk && o.gammaOk)
  }

  function RotationOk(b: Build, o: Outcomes): bool
  {
    !b.rotate || (o.rotCreateOk && o.rotateOk)
  }

  /** Every call the build makes succeeds. */
  predicate AllOk(b: Build, o: Outcomes)
  {
    CorrectionsOk(b, o) && o.cropCreateOk && o.cropOk && o.resCreateOk && o.resizeOk
    && RotationOk(b, o)
  }

  /** Colour correction and gamma, in place on the camera image. */
  function Corrections(b: Build, o: Outcomes): seq<Stmt>
  {
    if b.colorCorrection then
      [Call(ColorCorrect, {CamImage}), Check(o.colorOk), Call(GammaCorrect, {CamImage}), Check(o.gammaOk)]
    else []
  }

  /** Crop the camera image to the centred square. */
  function CropStage(cam: Geometry, o: Outcomes): seq<Stmt>
  {
    var c := CropOf(cam.width, cam.height);
    [ Create(CropImage, Square(c.dim, cam.format), o.cropCreateOk),
      Call(CropTo(c.left, c.top, c.right, c.bottom), {CamImage, CropImage}), Check(o.cropOk) ]
  }

  /** Resize the crop to a square of the display width, destroying the crop
      before the resize result is checked. */
  function ResizeStage(dispW: nat, format: ColorFormat, o: Outcomes): seq<Stmt>
  {
    [ Create(ResImage, Square(dispW, format), o.resCreateOk),
      Call(ResizeInterpolated, {CropImage, ResImage}), Destroy(CropImage), Check(o.resizeOk) ]
  }

  /** On the rotating board: rotate into a new image of the resized image's
      pitch and size, then destroy the resized image. */
  function Rotation(b: Build, dispW: nat, format: ColorFormat, o: Outcomes): seq<Stmt>
  {
    var res := Square(dispW, format);
    if b.rotate then
      [ Create(RotImage, Geometry(res.width, res.width, res.height, format), o.rotCreateOk),
        Call(Rotate180, {ResImage, RotImage}), Check(o.rotateOk), Destroy(ResImage) ]
    else []
  }

  /** The image drawn: the rotated one when the board rotates, else the
      resized one. */
  function Drawn(b: Build): Name
  {
    if b.rotate then RotImage else ResImage
  }

  /** Prepare, draw the image at the origin and the logo, render (which
      executes the queued blit reading the image), then destroy the image. */
  function Present(drawn: Name): seq<Stmt>
  {
    [ Call(PrepareFrame, {}), Call(DrawAt(0, 0), {drawn}), Call(DrawLogo(100, 600), {}),
      Call(RenderFrame, {drawn}), Destroy(drawn) ]
  }

  /** One iteration after a successful capture. */
  function Iteration(b: Build, o: Outcomes, cam: Geometry, dispW: nat): seq<Stmt>
  {
    Corrections(b, o) + AfterCorrections(b, o, cam, dispW)
  }

  function AfterCorrections(b: Build, o: Outcomes, cam: Geometry, dispW: nat): seq<Stmt>
  {
    CropStage(cam, o) + AfterCrop(b, o, cam.format, dispW)
  }

  function AfterCrop(b: Build, o: Outcomes, format: ColorFormat, dispW: nat): seq<Stmt>
  {
    ResizeStage(dispW, format, o) + AfterResize(b, o, format, dispW)
  }

  function AfterResize(b: Build, o: Outcomes, format: ColorFormat, dispW: nat): seq<Stmt>
  {
    Rotation(b, dispW, format, o) + Present(Drawn(b))
  }

  /** The temporaries. */
  const Temps: set<Name> := {CropImage, ResImage, RotImage}

  lemma CorrectionsRun(b: Build, o: Outcomes, live: set<Name>)
    requires CamImage in live
    ensures var r := Exec(Corrections(b, o), live);
      r.live == live && r.status != Fault && (r.status == Completed <==> CorrectionsOk(b, o))
  {
    if b.colorCorrection {
      var p := Corrections(b, o);
      Unfold(p, live);
      Unfold(p[1..], live);
      Unfold(p[2..], live);
      Unfold(p[3..], live);
      assert p[4..] == [];
    }
  }

  lemma CropRun(cam: Geometry, o: Outcomes, live: set<Name>)
    requires CamImage in live && CropImage !in live
    ensures var r := Exec(CropStage(cam, o), live);
      && r.status != Fault
      && (r.status == Completed <==> o.cropCreateOk && o.cropOk)
      && r.live == if o.cropCreateOk then live + {CropImage} else live
  {
    var p := CropStage(cam, o);
    var l1 := live + {CropImage};
    Unfold(p, live);
    Unfold(p[1..], l1);
    Unfold(p[2..], l1);
    assert p[3..] == [];
  }

  lemma ResizeRun(dispW: nat, format: ColorFormat, o: Outcomes, live: set<Name>)
    requires CropImage in live && ResImage !in live
    ensures var r := Exec(ResizeStage(dispW, format, o), live);
      && r.status != Fault
      && (r.status == Completed <==> o.resCreateOk && o.resizeOk)
      && r.live == if o.resCreateOk then live - {CropImage} + {ResImage} else live
  {
    var p := ResizeStage(dispW, format, o);
    var l1 := live + {ResImage};
    var l2 := l1 - {CropImage};
    Unfold(p, live);
    Unfold(p[1..], l1);
    Unfold(p[2..], l1);
    Unfold(p[3..], l2);
    assert p[4..] == [];
    assert l2 == live - {CropImage} + {ResImage};
  }

  lemma RotationRun(b: Build, dispW: nat, format: ColorFormat, o: Outcomes, live: set<Name>)
    requires ResImage in live && RotImage !in live
    ensures var r := Exec(Rotation(b, dispW, format, o), live);
      && r.status != Fault
      && (r.status == Completed <==> RotationOk(b, o))
      && (r.status == Completed ==> r.live == if b.rotate then live - {ResImage} + {RotImage} else live)
      && (r.status != Completed ==> r.live - {RotImage} == live)
  {
    if b.rotate {
      var p := Rotation(b, dispW, format, o);
      var l1 := live + {RotImage};
      Unfold(p, live);
      Unfold(p[1..], l1);
      Unfold(p[2..], l1);
      Unfold(p[3..], l1);
      assert p[4..] == [];
    }
  }

  lemma PresentRun(drawn: Name, live: set<Name>)
    requires drawn in live
    ensures Exec(Present(drawn), live) == Run(live - {drawn}, Completed)
  {
    var p := Present(drawn);
    Unfold(p, live);
    Unfold(p[1..], live);
    Unfold(p[2..], live);
    Unfold(p[3..], live);
    Unfold(p[4..], live);
    assert p[5..] == [];
  }

  /** From the rotation on, the resized image is destroyed exactly once,
      through the rotation or as the drawn image. */
  lemma AfterResizeRun(b: Build, o: Outcomes, format: ColorFormat, dispW: nat, live: set<Name>)
    requires ResImage in live && RotImage !in live
    ensures var r := Exec(AfterResize(b, o, format, dispW), live);
      && r.status != Fault
      && (r.status == Completed <==> RotationOk(b, o))
      && (r.status == Completed ==> r.live == live - {ResImage})
      && r.live - {ResImage, RotImage} == live - {ResImage, RotImage}
  {
    var ro := Rotation(b, dispW, format, o);
    ExecAppend(ro, Present(Drawn(b)), live);
    RotationRun(b, dispW, format, o, live);
    var r1 := Exec(ro, live);
    if r1.status == Completed {
      PresentRun(Drawn(b), r1.live);
    }
  }

  lemma AfterCropRun(b: Build, o: Outcomes, format: ColorFormat, dispW: nat, live: set<Name>)
    requires CropImage in live && ResImage !in live && RotImage !in live
    ensures var r := Exec(AfterCrop(b, o, format, dispW), live);
      && r.status != Fault
      && (r.status == Completed <==> o.resCreateOk && o.resizeOk && RotationOk(b, o))
      && (r.status == Completed ==> r.live == live - {CropImage})
      && (CropImage in r.live <==> !o.resCreateOk)
      && (o.resCreateOk && !o.resizeOk ==> r == Run(live - {CropImage} + {ResImage}, Halted))
      && r.live - Temps == live - Temps
  {
    var rs := ResizeStage(dispW, format, o);
    ExecAppend(rs, AfterResize(b, o, format, dispW), live);
    ResizeRun(dispW, format, o, live);
    var r1 := Exec(rs, live);
    if r1.status == Completed {
      AfterResizeRun(b, o, format, dispW, r1.live);
      var r := Exec(AfterResize(b, o, format, dispW), r1.live);
      assert r.live - Temps == (r.live - {ResImage, RotImage}) - {CropImage};
      assert r1.live - {ResImage, RotImage} - {CropImage} == live - Temps;
    }
  }

  lemma AfterCorrectionsRun(b: Build, o: Outcomes, cam: Geometry, dispW: nat, live: set<Name>)
    requires CamImage in live && live !! Temps
    ensures var r := Exec(AfterCorrections(b, o, cam, dispW), live);
      && r.status != Fault
      && (r.status == Completed <==> o.cropCreateOk && o.cropOk && o.resCreateOk && o.resizeOk && RotationOk(b, o))
      && (r.status == Completed ==> r.live == live)
      && (CropImage in r.live <==> o.cropCreateOk && (!o.cropOk || !o.resCreateOk))
      && (o.cropCreateOk && o.cropOk && o.resCreateOk && !o.resizeOk ==> r == Run(live + {ResImage}, Halted))
      && r.live - Temps == live
  {
    var cs := CropStage(cam, o);
    ExecAppend(cs, AfterCrop(b, o, cam.format, dispW), live);
    CropRun(cam, o, live);
    var r1 := Exec(cs, live);
    if r1.status == Completed {
      AfterCropRun(b, o, cam.format, dispW, r1.live);
      assert live + {CropImage} - {CropImage} == live;
      assert live + {CropImage} - {CropImage} + {ResImage} == live + {ResImage};
    }
  }

  /** Every iteration, whatever its calls return, uses the images correctly:
      no image is touched or destroyed after its destruction or allocated
      twice. The camera image stays live. The iteration runs to the end
      exactly when every call succeeds, and then every temporary it
      allocated has been destroyed; the crop image outlives the iteration
      only when a breakpoint stops it between the crop's allocation and the
      resize. */
  lemma IterationRun(b: Build, o: Outcomes, cam: Geometry, dispW: nat)
    ensures var r := Exec(Iteration(b, o, cam, dispW), {CamImage});
      && r.status != Fault
      && CamImage in r.live
      && (r.status == Completed <==> AllOk(b, o))
      && (r.status == Completed ==> r.live == {CamImage})
      && (CropImage in r.live <==> CorrectionsOk(b, o) && o.cropCreateOk && (!o.cropOk || !o.resCreateOk))
  {
    var c := Corrections(b, o);
    ExecAppend(c, AfterCorrections(b, o, cam, dispW), {CamImage});
    CorrectionsRun(b, o, {CamImage});
    if CorrectionsOk(b, o) {
      AfterCorrectionsRun(b, o, cam, dispW, {CamImage});
      var r := Exec(AfterCorrections(b, o, cam, dispW), {CamImage});
      assert CamImage in r.live - Temps;
    }
  }

  /** A failed resize stops with the crop image already destroyed: only
      the resized image is left besides the camera image. */
  lemma ResizeFailureFreesCrop(b: Build, o: Outcomes, cam: Geometry, dispW: nat)
    requires CorrectionsOk(b, o) && o.cropCreateOk && o.cropOk && o.resCreateOk && !o.resizeOk
    ensures Exec(Iteration(b, o, cam, dispW), {CamImage}) == Run({CamImage, ResImage}, Halted)
  {
    ExecAppend(Corrections(b, o), AfterCorrections(b, o, cam, dispW), {CamImage});
    CorrectionsRun(b, o, {CamImage});
    AfterCorrectionsRun(b, o, cam, dispW, {CamImage});
  }

  lemma {:induction false} CountsAppend(a: seq<Stmt>, b: seq<Stmt>, n: Name)
    ensures Creates(a + b, n) == Creates(a, n) + Creates(b, n)
    ensures Destroys(a + b, n) == Destroys(a, n) + Destroys(b, n)
    decreases |a|
  {
    if a == [] {
      assert a + b == b;
    } else {
      assert (a + b)[1..] == a[1..] + b;
      CountsAppend(a[1..], b, n);
    }
  }

  /** One statement counted. */
  lemma CountStep(p: seq<Stmt>, n: Name)
    requires p != []
    ensures Creates(p, n) == (if p[0].Create? && p[0].name == n then 1 else 0) + Creates(p[1..], n)
    ensures Destroys(p, n) == (if p[0] == Destroy(n) then 1 else 0) + Destroys(p[1..], n)
  {
  }

  lemma CorrectionsCounts(b: Build, o: Outcomes, n: Name)
    ensures Creates(Corrections(b, o), n) == 0 && Destroys(Corrections(b, o), n) == 0
  {
    var p := Corrections(b, o);
    if b.colorCorrection {
      CountStep(p, n);
      CountStep(p[1..], n);
      CountStep(p[2..], n);
      CountStep(p[3..], n);
      assert p[4..] == [];
    }
  }

  lemma CropCounts(cam: Geometry, o: Outcomes, n: Name)
    ensures Creates(CropStage(cam, o), n) == (if n == CropImage then 1 else 0)
    ensures Destroys(CropStage(cam, o), n) == 0
  {
    var p := CropStage(cam, o);
    CountStep(p, n);
    CountStep(p[1..], n);
    CountStep(p[2..], n);
    assert p[3..] == [];
  }

  lemma ResizeCounts(dispW: nat, format: ColorFormat, o: Outcomes, n: Name)
    ensures Creates(ResizeStage(dispW, format, o), n) == (if n == ResImage then 1 else 0)
    ensures Destroys(ResizeStage(dispW, format, o), n) == (if n == CropImage then 1 else 0)
  {
    var p := ResizeStage(dispW, format, o);
    CountStep(p, n);
    CountStep(p[1..], n);
    CountStep(p[2..], n);
    CountStep(p[3..], n);
    assert p[4..] == [];
  }

  lemma RotationCounts(b: Build, dispW: nat, format: ColorFormat, o: Outcomes, n: Name)
    ensures Creates(Rotation(b, dispW, format, o), n) == (if b.rotate && n == RotImage then 1 else 0)
    ensures Destroys(Rotation(b, dispW, format, o), n) == (if b.rotate && n == ResImage then 1 else 0)
  {
    var p := Rotation(b, dispW, format, o);
    if b.rotate {
      CountStep(p, n);
      CountStep(p[1..], n);
      CountStep(p[2..], n);
      CountStep(p[3..], n);
      assert p[4..] == [];
    }
  }

  lemma PresentCounts(drawn: Name, n: Name)
    ensures Creates(Present(drawn), n) == 0
    ensures Destroys(Present(drawn), n) == (if n == drawn then 1 else 0)
  {
    var p := Present(drawn);
    CountStep(p, n);
    CountStep(p[1..], n);
    CountStep(p[2..], n);
    CountStep(p[3..], n);
    CountStep(p[4..], n);
    assert p[5..] == [];
  }

  /** Each temporary is allocated at most once and destroyed as often as it
      is allocated, through the rotation for the resized image on the
      rotating board and through the drawn image otherwise; the camera
      image is never allocated or destroyed. */
  lemma DestroyedOnce(b: Build, o: Outcomes, cam: Geometry, dispW: nat, n: Name)
    ensures var p := Iteration(b, o, cam, dispW);
      && Creates(p, n) == Destroys(p, n)
      && Creates(p, n) == (if n == CamImage || (n == RotImage && !b.rotate) then 0 else 1)
  {
    CountsAppend(Corrections(b, o), AfterCorrections(b, o, cam, dispW), n);
    CountsAppend(CropStage(cam, o), AfterCrop(b, o, cam.format, dispW), n);
    CountsAppend(ResizeStage(dispW, cam.format, o), AfterResize(b, o, cam.format, dispW), n);
    CountsAppend(Rotation(b, dispW, cam.format, o), Present(Drawn(b)), n);
    CorrectionsCounts(b, o, n);
    CropCounts(cam, o, n);
    ResizeCounts(dispW, cam.format, o, n);
    RotationCounts(b, dispW, cam.format, o, n);
    PresentCounts(Drawn(b), n);
  }

  /** The crop target is a square of the crop side whose pitch is its side;
      the resized image, and the rotated one, are squares of the display
      width; all share the camera image's format. The crop call gets the
      centred rectangle, and the drawn image is placed at the origin. */
  lemma TargetGeometry(b: Build, o: Outcomes, cam: Geometry, dispW: nat)
    ensures var p := Iteration(b, o, cam, dispW);
      var c := CropOf(cam.width, cam.height);
      && Create(CropImage, Geometry(c.dim, c.dim, c.dim, cam.format), o.cropCreateOk) in p
      && Create(ResImage, Geometry(dispW, dispW, dispW, cam.format), o.resCreateOk) in p
      && (b.rotate ==> Create(RotImage, Geometry(dispW, dispW, dispW, cam.format), o.rotCreateOk) in p)
      && Call(CropTo(c.left, c.top, c.right, c.bottom), {CamImage, CropImage}) in p
      && Call(DrawAt(0, 0), {Drawn(b)}) in p
  {
    var cs := CropStage(cam, o);
    var rs := ResizeStage(dispW, cam.format, o);
    var ro := Rotation(b, dispW, cam.format, o);
    var pr := Present(Drawn(b));
    var a3 := AfterResize(b, o, cam.format, dispW);
    var a2 := AfterCrop(b, o, cam.format, dispW);
    var a1 := AfterCorrections(b, o, cam, dispW);
    var p := Iteration(b, o, cam, dispW);
    assert pr[1] in ro + pr && (b.rotate ==> ro[0] in ro + pr);
    assert forall x :: x in a3 ==> x in rs + a3;
    assert rs[0] in rs + a3;
    assert forall x :: x in a2 ==> x in cs + a2;
    assert cs[0] in cs + a2 && cs[1] in cs + a2;
    assert forall x :: x in a1 ==> x in p;
  }

  /** The drawn image, a square of the display width placed at the origin,
      stays inside the frame buffer when converted in software, provided a
      format converted in pairs of rows fits the panel's height. */
  lemma DrawnImageInBounds(s: Screen, img: Image)
    requires img.width == s.display.width && img.height == img.width
    requires PairedRows(img.format) ==> img.height % 2 == 0 && img.height <= s.display.height
    ensures InBounds(Trace(Request(s, 0, 0, img, AsWritten)), s.display.width * s.display.height)
  {
    AppDrawInBounds(s, 0, 0, img);
  }

  /** With the image as wide as the panel and placed at the origin, the
      columns the converter writes end inside each framebuffer row. */
  lemma DrawnColumnsFit(s: Screen, img: Image)
    requires img.width == s.display.width
    ensures var req := Request(s, 0, 0, img, AsWritten);
      Columns(req) <= s.display.width
  {
  }

  // ---------------------------------------------------------------------
  // The capture loop

  /** What one pass of the loop sees: the capture's status, how the
      iteration's library calls fare, and the bytes of the image it draws
      (the output of the resize or rotate call, whose computation is not
      part of this model). */
  datatype Frame = Frame(capture: int, outcomes: Outcomes, pixels: seq<Byte>)

  /** The image a pass draws: a square of the display width, with that
      pitch, in the camera image's format, as the resize and rotate targets
      are created. */
  function DrawnImage(f: Frame, cam: Geometry, dispW: nat): Image
  {
    Image(f.pixels, dispW, dispW, dispW, cam.format)
  }

  /** A frame that is captured and processed to the end. */
  predicate Shown(b: Build, f: Frame)
  {
    f.capture == DriverOk && AllOk(b, f.outcomes)
  }

  /** Frame `j` exists and is shown. */
  predicate ShownAt(b: Build, frames: seq<Frame>, j: int)
  {
    0 <= j < |frames| && Shown(b, frames[j])
  }

  /** The number of frames shown before the first one that is not. */
  function Leading(b: Build, frames: seq<Frame>): (n: nat)
    ensures n <= |frames|
    ensures forall j :: 0 <= j < n ==> ShownAt(b, frames, j)
    ensures n < |frames| ==> !ShownAt(b, frames, n)
    decreases |frames|
  {
    if frames == [] || !Shown(b, frames[0]) then 0
    else
      var rest := Leading(b, frames[1..]);
      assert forall j :: 0 < j <= rest ==> ShownAt(b, frames[1..], j - 1) ==> ShownAt(b, frames, j);
      1 + rest
  }

  /** A shown frame extends a run of shown frames. */
  lemma ShownExtend(b: Build, frames: seq<Frame>, i: nat)
    requires forall j :: 0 <= j < i ==> ShownAt(b, frames, j)
    requires ShownAt(b, frames, i)
    ensures forall j :: 0 <= j < i + 1 ==> ShownAt(b, frames, j)
  {
  }

  /** The leading count is the only count whose frames are all shown and
      that is followed, if by anything, by a frame that is not. */
  lemma LeadingIs(b: Build, frames: seq<Frame>, n: nat)
    requires n <= |frames|
    requires forall j :: 0 <= j < n ==> ShownAt(b, frames, j)
    requires n < |frames| ==> !ShownAt(b, frames, n)
    ensures Leading(b, frames) == n
  {
    var m := Leading(b, frames);
    assert m < n ==> ShownAt(b, frames, m);
    assert n < m ==> ShownAt(b, frames, n);
  }

  /** One frame's composition, from the screen the previous render left to
      the screen handed to render. Prepare aims the accelerator at the
      inactive surface and queues the background clear. The drawn image is
      then queued as a blit when the accelerator supports its format;
      otherwise the queue is executed into the inactive surface and the
      image converted into it where the converter writes. The logo is queued
      last. The active surface is never touched. */
  predicate Composes(before: Screen, c: Screen, img: Image, a: Accelerator)
  {
    && Valid(before.display) && Valid(c.display)
    && c.display.width == before.display.width && c.display.height == before.display.height
    && c.display.current == before.display.current && c.display.scanout == before.display.scanout
    && c.target == Inactive(before.display)
    && c.display.surfaces[Active(before.display)] == before.display.surfaces[Active(before.display)]
    && (a.supports(img.format) ==>
          c.display == before.display
          && c.queue == before.queue + [Clear(Background), Blit(0, 0, img), LogoBlit(LogoX, LogoY)])
    && (!a.supports(img.format) ==> c.queue == [LogoBlit(LogoX, LogoY)])
    && (!a.supports(img.format) ==> forall k :: 0 <= k < c.display.width * c.display.height ==> DrawnPixel(before, c, img, a, k))
  }

  /** Pixel `k` of a frame drawn in software: the converted source pixel
      where the converter writes, otherwise what executing the queue and the
      background clear left there. */
  predicate DrawnPixel(before: Screen, c: Screen, img: Image, a: Accelerator, k: nat)
    requires Valid(before.display) && Valid(c.display)
    requires c.display.width == before.display.width && c.display.height == before.display.height
  {
    var under := Execute(a, before.display.surfaces[Inactive(before.display)], before.queue + [Clear(Background)]);
    var req := Request(before, 0, 0, img, AsWritten);
    k < |under| ==>
      c.display.surfaces[Inactive(before.display)][k] ==
        if HasConverter(img.format) && Covered(req, k) then SourcePixel(req, k) else under[k]
  }

  /** The screen a shown frame starts from: the initial one, or what the
      previous frame's render left. */
  function StartOf(a: Accelerator, s: Screen, composed: seq<Screen>, j: nat): Screen
    requires j <= |composed|
  {
    if j == 0 then s else Render(a, composed[j - 1])
  }

  /** Frame `j` of the recorded history was composed from the screen the
      frame before it left, drawing that frame's image. */
  predicate FrameComposed(a: Accelerator, s: Screen, composed: seq<Screen>, frames: seq<Frame>,
                          cam: Geometry, dispW: nat, j: nat)
  {
    j < |composed| && j < |frames|
    && Composes(StartOf(a, s, composed, j), composed[j], DrawnImage(frames[j], cam, dispW), a)
  }

  /** On an accelerated format, frame `j` of the history renders exactly
      the background clear, its own blit and the logo. */
  predicate AccelQueued(a: Accelerator, composed: seq<Screen>, frames: seq<Frame>, cam: Geometry,
                        dispW: nat, j: nat)
  {
    j < |composed| && j < |frames|
    && (a.supports(cam.format) ==>
          composed[j].queue == [Clear(Background), Blit(0, 0, DrawnImage(frames[j], cam, dispW)), LogoBlit(LogoX, LogoY)])
  }

  /** After at least one frame, the controller is told to scan out the last
      composed surface with its queue executed on it, and the surface shown
      while that frame was composed is the inactive one, untouched. */
  predicate ShowsLast(a: Accelerator, s: Screen, composed: seq<Screen>, frames: seq<Frame>,
                      cam: Geometry, dispW: nat, screen: Screen)
  {
    |composed| > 0 ==>
      var last := composed[|composed| - 1];
      var prev := StartOf(a, s, composed, |composed| - 1);
      && FrameComposed(a, s, composed, frames, cam, dispW, |composed| - 1)
      && Valid(screen.display)
      && screen.display.surfaces[Active(screen.display)] == Execute(a, last.display.surfaces[last.target], last.queue)
      && screen.display.surfaces[Inactive(screen.display)] == prev.display.surfaces[Active(prev.display)]
  }

  /** After a frame drawn in software is rendered, the controller is told to
      scan out the surface the image was converted into, with the queued
      logo executed on it; the surface shown while the frame was composed is
      untouched and becomes the one the next frame draws into. */
  lemma RenderedFrameShowsImage(before: Screen, c: Screen, img: Image, a: Accelerator)
    requires Composes(before, c, img, a)
    requires !a.supports(img.format)
    ensures var t := Render(a, c);
      var drawn := c.display.surfaces[Inactive(before.display)];
      && t.display.scanout == Inactive(before.display)
      && t.display.surfaces[t.display.scanout] == ExecuteOne(a, drawn, LogoBlit(LogoX, LogoY))
      && t.display.surfaces[Inactive(t.display)] == before.display.surfaces[Active(before.display)]
  {
    var t := Render(a, c);
    var drawn := c.display.surfaces[Inactive(before.display)];
    assert t.display.surfaces[c.target] == Execute(a, drawn, c.queue);
    assert c.queue == [LogoBlit(LogoX, LogoY)];
    assert Execute(a, drawn, c.queue) == Execute(a, ExecuteOne(a, drawn, LogoBlit(LogoX, LogoY)), []);
    assert t.display.scanout == c.target;
    assert Inactive(t.display) == Active(before.display);
    assert t.display.surfaces[Active(before.display)] == Flushed(a, c, Active(before.display));
  }

  /** The accelerator's clear gives every pixel the colour `px`. */
  ghost predicate ClearFills(a: Accelerator, color: bv32, px: Pixel)
  {
    forall fb: seq<Pixel>, k: nat :: a.paint(Clear(color), fb, k) == px
  }

  /** On a frame drawn in software, every pixel of the drawn surface that
      the converter does not cover holds the background the flushed clear
      left there. */
  lemma BackgroundShowsThrough(before: Screen, c: Screen, img: Image, a: Accelerator, px: Pixel)
    requires Composes(before, c, img, a)
    requires !a.supports(img.format) && ClearFills(a, Background, px)
    ensures var req := Request(before, 0, 0, img, AsWritten);
      var drawn := c.display.surfaces[Inactive(before.display)];
      forall k :: 0 <= k < |drawn| && !(HasConverter(img.format) && Covered(req, k)) ==> drawn[k] == px
  {
    var fb := before.display.surfaces[Inactive(before.display)];
    var req := Request(before, 0, 0, img, AsWritten);
    var drawn := c.display.surfaces[Inactive(before.display)];
    var flushed := Execute(a, fb, before.queue);
    ExecuteLast(a, fb, before.queue, Clear(Background));
    forall k | 0 <= k < |drawn| && !(HasConverter(img.format) && Covered(req, k))
      ensures drawn[k] == px
    {
      assert DrawnPixel(before, c, img, a, k);
      assert drawn[k] == ExecuteOne(a, flushed, Clear(Background))[k] == a.paint(Clear(Background), flushed, k);
    }
  }

  /** How the loop ended: a capture failed, a breakpoint stopped an
      iteration, or the model's sequence of frames ran out. */
  datatype LoopEnd = CaptureError(ret: int) | Breakpoint | OutOfFrames

  /** The loop's outcome; `composed` holds, for each frame shown, the
      screen handed to render. */
  datatype LoopResult = LoopResult(shown: nat, end: LoopEnd, redLed: bool, screen: Screen, composed: seq<Screen>)

  /** Appending a frame's composed screen leaves the earlier frames' start
      screens alone and makes the next frame start from its render. */
  lemma LoopStep(a: Accelerator, s: Screen, composed: seq<Screen>, c: Screen)
    ensures forall j :: 0 <= j <= |composed| ==> StartOf(a, s, composed + [c], j) == StartOf(a, s, composed, j)
    ensures forall j :: 0 <= j < |composed| ==> (composed + [c])[j] == composed[j]
    ensures StartOf(a, s, composed + [c], |composed| + 1) == Render(a, c)
  {
  }

  /** An earlier frame's composition is unaffected by appending a frame. */
  lemma ComposedKept(a: Accelerator, s: Screen, composed: seq<Screen>, c: Screen, frames: seq<Frame>,
                     cam: Geometry, dispW: nat, j: nat)
    requires j < |composed| && FrameComposed(a, s, composed, frames, cam, dispW, j)
    ensures FrameComposed(a, s, composed + [c], frames, cam, dispW, j)
  {
    var all := composed + [c];
    assert all[j] == composed[j];
    if j > 0 {
      assert all[j - 1] == composed[j - 1];
    }
    assert StartOf(a, s, all, j) == StartOf(a, s, composed, j);
  }

  /** The appended frame is composed from the screen the last one left. */
  lemma ComposedNew(a: Accelerator, s: Screen, composed: seq<Screen>, c: Screen, frames: seq<Frame>,
                    cam: Geometry, dispW: nat)
    requires |composed| < |frames|
    requires Composes(StartOf(a, s, composed, |composed|), c, DrawnImage(frames[|composed|], cam, dispW), a)
    ensures FrameComposed(a, s, composed + [c], frames, cam, dispW, |composed|)
  {
    var n := |composed|;
    var all := composed + [c];
    assert all[n] == c;
    if n > 0 {
      assert all[n - 1] == composed[n - 1];
    }
    assert StartOf(a, s, all, n) == StartOf(a, s, composed, n);
  }

  /** An earlier frame's rendered queue is unaffected by appending a frame. */
  lemma QueuedKept(a: Accelerator, composed: seq<Screen>, c: Screen, frames: seq<Frame>,
                   cam: Geometry, dispW: nat, j: nat)
    requires j < |composed| && AccelQueued(a, composed, frames, cam, dispW, j)
    ensures AccelQueued(a, composed + [c], frames, cam, dispW, j)
  {
    assert (composed + [c])[j] == composed[j];
  }

  /** A frame after the first starts from an emptied queue, so on an
      accelerated format it renders exactly the clear, its blit and the
      logo. */
  lemma QueuedNew(a: Accelerator, s: Screen, composed: seq<Screen>, c: Screen, frames: seq<Frame>,
                  cam: Geometry, dispW: nat)
    requires 0 < |composed| < |frames|
    requires Composes(StartOf(a, s, composed, |composed|), c, DrawnImage(frames[|composed|], cam, dispW), a)
    ensures AccelQueued(a, composed + [c], frames, cam, dispW, |composed|)
  {
    var n := |composed|;
    assert (composed + [c])[n] == c;
    assert StartOf(a, s, composed, n).queue == [];
  }

  /** The loop's record of composed screens stays a faithful history when
      a frame is appended: each frame is composed from the screen the one
      before it left, and on an accelerated format every frame after the
      first renders exactly the clear, its blit and the logo. */
  lemma HistoryStep(a: Accelerator, s: Screen, composed: seq<Screen>, c: Screen, frames: seq<Frame>,
                    cam: Geometry, dispW: nat)
    requires |composed| < |frames|
    requires forall j :: 0 <= j < |composed| ==> FrameComposed(a, s, composed, frames, cam, dispW, j)
    requires forall j :: 0 < j < |composed| ==>
      AccelQueued(a, composed, frames, cam, dispW, j)
    requires Composes(StartOf(a, s, composed, |composed|), c, DrawnImage(frames[|composed|], cam, dispW), a)
    ensures forall j :: 0 <= j < |composed| + 1 ==> FrameComposed(a, s, composed + [c], frames, cam, dispW, j)
    ensures forall j :: 0 < j < |composed| + 1 ==>
      AccelQueued(a, composed + [c], frames, cam, dispW, j)
    ensures StartOf(a, s, composed + [c], |composed| + 1) == Render(a, c)
  {
    LoopStep(a, s, composed, c);
    var n := |composed|;
    forall j | 0 <= j < n + 1
      ensures FrameComposed(a, s, composed + [c], frames, cam, dispW, j)
    {
      if j < n {
        ComposedKept(a, s, composed, c, frames, cam, dispW, j);
      } else {
        ComposedNew(a, s, composed, c, frames, cam, dispW);
      }
    }
    forall j | 0 < j < n + 1
      ensures AccelQueued(a, composed + [c], frames, cam, dispW, j)
    {
      if j < n {
        QueuedKept(a, composed, c, frames, cam, dispW, j);
      } else {
        QueuedNew(a, s, composed, c, frames, cam, dispW);
      }
    }
  }


  /** Rendering a composed frame advances the active surface by one and
      shows the composed surface with the queue executed on it, while the
      surface shown before becomes the inactive one untouched. */
  lemma ScreenStep(before: Screen, c: Screen, img: Image, a: Accelerator)
    requires Composes(before, c, img, a)
    ensures var t := Render(a, c);
      && Valid(t.display) && t.display.width == before.display.width
      && t.display.height == before.display.height
      && Active(t.display) == (Active(before.display) + 1) % 2
      && t.display.surfaces[Active(t.display)] == Execute(a, c.display.surfaces[c.target], c.queue)
      && t.display.surfaces[Inactive(t.display)] == before.display.surfaces[Active(before.display)]
  {
  }

  /** One shown frame: prepare, draw the image at the origin, draw the
      logo, render. */
  method ShowFrame(screen: Screen, img: Image, a: Accelerator)
    returns (c: Screen, t: Screen)
    requires Valid(screen.display)
    requires img.width == screen.display.width && img.height == img.width
    requires PairedRows(img.format) ==> img.height % 2 == 0 && img.height <= screen.display.height
    ensures Composes(screen, c, img, a)
    ensures t == Render(a, c)
  {
    var p := Prepare(screen);
    DrawnImageInBounds(p, img);
    DrawnColumnsFit(p, img);
    var d := ImageDraw(p, 0, 0, img, a, AsWritten);
    c := QueueLogo(d);
    t := Render(a, c);
  }

  /** Advancing a parity counted from `a` by one more step. */
  lemma ParityStep(a: nat, i: nat, p: nat, q: nat)
    requires p == (a + i) % 2 && q == (p + 1) % 2
    ensures q == (a + i + 1) % 2
  {
  }

  /** Run one iteration's library calls on the live set holding the camera
      image; it completes exactly when every call succeeds. */
  method RunIteration(b: Build, o: Outcomes, cam: Geometry, dispW: nat) returns (completed: bool)
    ensures completed <==> AllOk(b, o)
  {
    var run := Exec(Iteration(b, o, cam, dispW), {CamImage});
    IterationRun(b, o, cam, dispW);
    completed := run.status == Completed;
  }

  /** Capture frame `i` and, when the capture succeeds, run its library
      calls; the frame completes exactly when it is shown. */
  method RunFrame(b: Build, frames: seq<Frame>, i: nat, cam: Geometry, dispW: nat)
    returns (ret: int, completed: bool)
    requires i < |frames|
    ensures ret == frames[i].capture
    ensures ret == DriverOk ==> (completed <==> ShownAt(b, frames, i))
    ensures ret != DriverOk ==> !ShownAt(b, frames, i)
  {
    ret := frames[i].capture;
    completed := false;
    if ret == DriverOk {
      completed := RunIteration(b, frames[i].outcomes, cam, dispW);
    }
  }

  /** The shown frames' history: `composed` holds, frame by frame, the
      screen handed to render, each composed from the screen the previous
      render left (the first from `s`), and `screen` is what the last render
      left. */
  predicate History(a: Accelerator, s: Screen, composed: seq<Screen>, frames: seq<Frame>,
                    cam: Geometry, dispW: nat, screen: Screen)
    decreases |composed|, 1
  {
    |composed| <= |frames|
    && if composed == [] then screen == s else LastFrameFollows(a, s, composed, frames, cam, dispW, screen)
  }

  /** A non-empty history is a history one frame shorter, the last frame
      composed from the screen that shorter history left, and the render of
      that last frame. */
  predicate LastFrameFollows(a: Accelerator, s: Screen, composed: seq<Screen>, frames: seq<Frame>,
                             cam: Geometry, dispW: nat, screen: Screen)
    requires 0 < |composed| <= |frames|
    decreases |composed|, 0
  {
    var n := |composed| - 1;
    var prev := StartOf(a, s, composed[..n], n);
    && History(a, s, composed[..n], frames, cam, dispW, prev)
    && Composes(prev, composed[n], DrawnImage(frames[n], cam, dispW), a)
    && screen == Render(a, composed[n])
  }

  /** What a history of n frames gives: the active surface has advanced n
      times, every frame was composed from the screen the one before it
      left, on an accelerated format every frame after the first renders
      exactly the clear, its blit and the logo, and the last frame is what
      the controller is told to scan out. */
  lemma {:induction false} HistoryFacts(a: Accelerator, s: Screen, composed: seq<Screen>, frames: seq<Frame>,
                                        cam: Geometry, dispW: nat, screen: Screen)
    requires Valid(s.display) && s.display.width == dispW
    requires History(a, s, composed, frames, cam, dispW, screen)
    ensures Active(screen.display) == (Active(s.display) + |composed|) % 2
    ensures forall j :: 0 <= j < |composed| ==> FrameComposed(a, s, composed, frames, cam, dispW, j)
    ensures forall j :: 0 < j < |composed| ==> AccelQueued(a, composed, frames, cam, dispW, j)
    ensures ShowsLast(a, s, composed, frames, cam, dispW, screen)
    decreases |composed|
  {
    if composed != [] {
      var n := |composed| - 1;
      var prefix := composed[..n];
      var prev := StartOf(a, s, prefix, n);
      assert LastFrameFollows(a, s, composed, frames, cam, dispW, screen);
      HistoryFacts(a, s, prefix, frames, cam, dispW, prev);
      HistoryScreen(a, s, prefix, frames, cam, dispW, prev);
      DropLast(composed);
      FactsStep(a, s, prefix, composed[n], composed, frames, cam, dispW, prev, screen);
    }
  }

  /** A non-empty sequence is its prefix followed by its last element. */
  lemma DropLast<T>(xs: seq<T>)
    requires xs != []
    ensures xs[..|xs| - 1] + [xs[|xs| - 1]] == xs
  {
  }

  /** The facts of a history carry over to the history one frame longer. */
  lemma FactsStep(a: Accelerator, s: Screen, composed: seq<Screen>, c: Screen, grown: seq<Screen>,
                  frames: seq<Frame>, cam: Geometry, dispW: nat, prev: Screen, screen: Screen)
    requires grown == composed + [c] && |composed| < |frames|
    requires prev == StartOf(a, s, composed, |composed|)
    requires Valid(prev.display) && prev.display.width == dispW
    requires prev.display.height == s.display.height
    requires Active(prev.display) == (Active(s.display) + |composed|) % 2
    requires forall j :: 0 <= j < |composed| ==> FrameComposed(a, s, composed, frames, cam, dispW, j)
    requires forall j :: 0 < j < |composed| ==> AccelQueued(a, composed, frames, cam, dispW, j)
    requires Composes(prev, c, DrawnImage(frames[|composed|], cam, dispW), a)
    requires screen == Render(a, c)
    ensures Active(screen.display) == (Active(s.display) + |grown|) % 2
    ensures forall j :: 0 <= j < |grown| ==> FrameComposed(a, s, grown, frames, cam, dispW, j)
    ensures forall j :: 0 < j < |grown| ==> AccelQueued(a, grown, frames, cam, dispW, j)
    ensures ShowsLast(a, s, grown, frames, cam, dispW, screen)
  {
    var n := |composed|;
    HistoryStep(a, s, composed, c, frames, cam, dispW);
    LoopStep(a, s, composed, c);
    ScreenStep(prev, c, DrawnImage(frames[n], cam, dispW), a);
    ParityStep(Active(s.display), n, Active(prev.display), Active(screen.display));
  }

  /** A history's screen is the one the last render left, and its display
      keeps the initial size. */
  lemma {:induction false} HistoryScreen(a: Accelerator, s: Screen, composed: seq<Screen>, frames: seq<Frame>,
                                         cam: Geometry, dispW: nat, screen: Screen)
    requires Valid(s.display) && s.display.width == dispW
    requires History(a, s, composed, frames, cam, dispW, screen)
    ensures screen == StartOf(a, s, composed, |composed|)
    ensures Valid(screen.display) && screen.display.width == dispW
    ensures screen.display.height == s.display.height
    decreases |composed|
  {
    if composed != [] {
      var n := |composed| - 1;
      assert LastFrameFollows(a, s, composed, frames, cam, dispW, screen);
      HistoryScreen(a, s, composed[..n], frames, cam, dispW, StartOf(a, s, composed[..n], n));
    }
  }

  /** Show frame number |composed| and record its composed screen. */
  method ShowNext(cam: Geometry, dispW: nat, frames: seq<Frame>, s: Screen,
                  a: Accelerator, composed: seq<Screen>, screen: Screen)
    returns (composed': seq<Screen>, screen': Screen)
    requires |composed| < |frames|
    requires PairedRows(cam.format) ==> dispW % 2 == 0 && dispW <= s.display.height
    requires Valid(s.display) && s.display.width == dispW
    requires History(a, s, composed, frames, cam, dispW, screen)
    ensures |composed'| == |composed| + 1
    ensures History(a, s, composed', frames, cam, dispW, screen')
  {
    HistoryScreen(a, s, composed, frames, cam, dispW, screen);
    var img := DrawnImage(frames[|composed|], cam, dispW);
    var c;
    c, screen' := ShowFrame(screen, img, a);
    composed' := composed + [c];
    LoopStep(a, s, composed, c);
    assert composed'[..|composed|] == composed && composed'[|composed|] == c;
  }

  /** The loop runs while the last capture succeeded. A failed capture ends
      it and lights the red LED; a failed library call stops at its
      breakpoint. Every frame shown is composed from the screen the previous
      one left, draws its image and the logo, and swaps the display's
      surfaces once. */
  method FrameLoop(b: Build, cam: Geometry, dispW: nat, frames: seq<Frame>, s: Screen, a: Accelerator)
    returns (r: LoopResult)
    requires Valid(s.display) && dispW == s.display.width
    requires PairedRows(cam.format) ==> dispW % 2 == 0 && dispW <= s.display.height
    ensures r.shown == Leading(b, frames)
    ensures r.redLed <==> r.end.CaptureError?
    ensures r.end.CaptureError? <==> r.shown < |frames| && frames[r.shown].capture != DriverOk
    ensures r.end.CaptureError? ==> r.end.ret == frames[r.shown].capture
    ensures r.end.Breakpoint? <==> r.shown < |frames| && frames[r.shown].capture == DriverOk
    ensures r.end.OutOfFrames? <==> r.shown == |frames|
    ensures |r.composed| == r.shown
    ensures History(a, s, r.composed, frames, cam, dispW, r.screen)
  {
    var ret := DriverOk;
    var i := 0;
    var screen := s;
    var composed: seq<Screen> := [];
    var end := OutOfFrames;
    while ret == DriverOk && i < |frames|
      invariant 0 <= i <= |frames| && |composed| == i
      invariant forall j :: 0 <= j < i ==> ShownAt(b, frames, j)
      invariant ret != DriverOk ==> i < |frames| && ret == frames[i].capture
      invariant History(a, s, composed, frames, cam, dispW, screen)
      decreases |frames| - i, if ret == DriverOk then 1 else 0
    {
      var completed;
      ret, completed := RunFrame(b, frames, i, cam, dispW);
      if ret == DriverOk {
        if !completed {
          end := Breakpoint;
          break;
        }
        ShownExtend(b, frames, i);
        composed, screen := ShowNext(cam, dispW, frames, s, a, composed, screen);
        i := i + 1;
      }
    }
    if end != Breakpoint && ret != DriverOk {
      end := CaptureError(ret);
    }
    LeadingIs(b, frames, i);
    r := LoopResult(i, end, ret != DriverOk && end != Breakpoint, screen, composed);
  }
}

=== FILE: isplayout.dfy ===
/** The ISP output buffer layout: for each output format code, the byte size
    of each plane of an X by Y frame, the kind of auxiliary buffer, and the
    total frame size; and the plane buffers a build declares. A size the
    table leaves undefined counts as 0, as an undefined name does in a
    preprocessor condition. */
module IspLayout {

  /** Auxiliary buffer kinds, codes 1 to 4. */
  datatype AuxType = Planar | SemiPlanar | Interleaved | NoAux

  function AuxCode(a: AuxType): (c: nat)
    ensures 1 <= c <= 4
  {
    match a
    case Planar => 1
    case SemiPlanar => 2
    case Interleaved => 3
    case NoAux => 4
  }

  /** Output formats the table covers. */
  datatype IspFormat =
    | Raw8 | Raw10 | Raw12 | Nv12 | Nv16 | Yuv422p | Yuv420p | Yuyv | Yuv400
    | Rgb888Interleaved | Rgb888Planar

  /** The configuration code of each format. */
  function FormatCode(f: IspFormat): nat
  {
    match f
    case Raw8 => 20
    case Raw10 => 21
    case Raw12 => 22
    case Nv12 => 23
    case Nv16 => 25
    case Yuv422p => 30
    case Yuv420p => 31
    case Yuyv => 32
    case Yuv400 => 37
    case Rgb888Interleaved => 38
    case Rgb888Planar => 39
  }

  datatype Option<T> = None | Some(value: T)

  /** The format a configuration code selects; any other code selects no
      layout at all. */
  function FormatOf(code: nat): (r: Option<IspFormat>)
    ensures r.Some? ==> FormatCode(r.value) == code
  {
    if code == 20 then Some(Raw8)
    else if code == 21 then Some(Raw10)
    else if code == 22 then Some(Raw12)
    else if code == 23 then Some(Nv12)
    else if code == 25 then Some(Nv16)
    else if code == 30 then Some(Yuv422p)
    else if code == 31 then Some(Yuv420p)
    else if code == 32 then Some(Yuyv)
    else if code == 37 then Some(Yuv400)
    else if code == 38 then Some(Rgb888Interleaved)
    else if code == 39 then Some(Rgb888Planar)
    else None
  }

  /** Every format's code selects that format, so no two formats share a
      code. */
  lemma FormatCodeRoundTrip(f: IspFormat)
    ensures FormatOf(FormatCode(f)) == Some(f)
  {
  }

  /** Plane sizes in bytes (0 where the table defines none), the auxiliary
      buffer kind, the total, and the pitch where the table gives one. */
  datatype Layout = Layout(
    y: nat, cb: nat, cr: nat, cbcr: nat, aux: AuxType, total: nat, pitch: Option<nat>)

  /** The layout table for an X by Y frame. Right shifts of these
      non-negative sizes are divisions by powers of two. */
  function LayoutOf(f: IspFormat, x: nat, y: nat): Layout
  {
    var xy := x * y;
    match f
    case Raw8 => Layout(xy, 0, 0, 0, NoAux, xy, None)
    case Raw10 => Layout((xy * 5) / 4, 0, 0, 0, NoAux, (xy * 5) / 4, None)
    case Raw12 => Layout((xy * 12) / 8, 0, 0, 0, NoAux, (xy * 12) / 8, None)
    case Nv12 => Layout(xy, 0, 0, xy / 2, SemiPlanar, xy + xy / 2, None)
    case Nv16 => Layout(xy, 0, 0, xy, SemiPlanar, xy + xy, None)
    case Yuv422p => Layout(xy, xy / 2, xy / 2, 0, Planar, xy + xy / 2 + xy / 2, None)
    case Yuv420p => Layout(xy, xy / 4, xy / 4, 0, Planar, xy + xy / 4 + xy / 4, None)
    case Yuyv => Layout(xy * 2, 0, 0, 0, Interleaved, xy * 2, Some(x))
    case Yuv400 => Layout(xy, 0, 0, 0, NoAux, xy, None)
    case Rgb888Interleaved => Layout(xy * 3, 0, 0, 0, Interleaved, xy * 3, None)
    case Rgb888Planar => Layout(xy, xy, xy, 0, Planar, xy + xy + xy, None)
  }

  /** Bits per pixel of each format, an independent description of its
      sampling. */
  function BitsPerPixel(f: IspFormat): nat
  {
    match f
    case Raw8 => 8
    case Raw10 => 10
    case Raw12 => 12
    case Nv12 => 12
    case Nv16 => 16
    case Yuv422p => 16
    case Yuv420p => 12
    case Yuyv => 16
    case Yuv400 => 8
    case Rgb888Interleaved => 24
    case Rgb888Planar => 24
  }

  /** Every format's total is the sum of its plane sizes. */
  lemma TotalIsSum(f: IspFormat, x: nat, y: nat)
    ensures var l := LayoutOf(f, x, y); l.total == l.y + l.cb + l.cr + l.cbcr
  {
  }

  /** The total agrees with the sampling: it is the frame's bits over 8,
      exactly when the pixel count is a multiple of 4, and never more
      otherwise. */
  lemma TotalMatchesSampling(f: IspFormat, x: nat, y: nat)
    ensures LayoutOf(f, x, y).total <= (x * y * BitsPerPixel(f)) / 8
    ensures (x * y) % 4 == 0 ==> LayoutOf(f, x, y).total == (x * y * BitsPerPixel(f)) / 8
  {
    var n := x * y;
    var q, m := n / 4, n % 4;
    assert n == 4 * q + m && m < 4;
    assert n * BitsPerPixel(f) == (4 * q + m) * BitsPerPixel(f);
    match f
    case Raw10 => assert n * 5 == 5 * q * 4 + 5 * m;
    case Raw12 => assert n * 12 == 12 * q * 4 + 12 * m;
    case Nv12 => assert n * 12 == 12 * q * 4 + 12 * m;
    case Yuv420p => assert n * 12 == 12 * q * 4 + 12 * m;
    case _ =>
  }

  /** The auxiliary buffer kind says which chroma planes exist, for any frame
      of at least 4 pixels: separate Cb and Cr planes for planar formats, one
      CbCr plane for semi-planar ones, none otherwise; and only packed YUYV
      gives a pitch, of X pixels. */
  lemma AuxMatchesPlanes(f: IspFormat, x: nat, y: nat)
    requires x * y >= 4
    ensures var l := LayoutOf(f, x, y);
      && (l.aux == Planar <==> l.cb > 0 && l.cr > 0)
      && (l.aux == SemiPlanar <==> l.cbcr > 0)
      && (l.aux == Planar ==> l.cbcr == 0)
      && (l.aux == SemiPlanar ==> l.cb == 0 && l.cr == 0)
      && (l.aux == Interleaved || l.aux == NoAux ==> l.total == l.y)
      && (l.pitch.Some? <==> f == Yuyv)
      && (f == Yuyv ==> l.pitch == Some(x))
  {
  }

  // ---------------------------------------------------------------------
  // Declared plane buffers

  datatype Plane = YPlane | CbPlane | CrPlane | CbCrPlane

  function PlaneSize(l: Layout, p: Plane): nat
  {
    match p
    case YPlane => l.y
    case CbPlane => l.cb
    case CrPlane => l.cr
    case CbCrPlane => l.cbcr
  }

  /** The plane buffers a build declares, in declaration order: one for each
      plane whose size is nonzero. */
  function DeclaredPlanes(l: Layout): (ps: seq<Plane>)
    ensures forall p: Plane :: p in ps <==> PlaneSize(l, p) != 0
  {
    IfDeclared(l, YPlane) + IfDeclared(l, CbPlane) + IfDeclared(l, CrPlane) + IfDeclared(l, CbCrPlane)
  }

  /** One plane's buffer, present only when its size is nonzero. */
  function IfDeclared(l: Layout, p: Plane): seq<Plane>
  {
    if PlaneSize(l, p) != 0 then [p] else []
  }

  /** Bytes the declared buffers take for `count` frames. */
  function DeclaredBytes(l: Layout, ps: seq<Plane>, count: nat): nat
  {
    if ps == [] then 0 else count * PlaneSize(l, ps[0]) + DeclaredBytes(l, ps[1..], count)
  }

  /** The declared buffers hold `count` frames of the total size, with nothing
      left over and nothing missing. */
  lemma DeclaredHoldTotal(f: IspFormat, x: nat, y: nat, count: nat)
    ensures var l := LayoutOf(f, x, y);
      DeclaredBytes(l, DeclaredPlanes(l), count) == count * l.total
  {
    var l := LayoutOf(f, x, y);
    TotalIsSum(f, x, y);
    DeclaredSum(l, count);
  }

  /** For any layout, the declared buffers take `count` times the sum of the
      plane sizes. */
  lemma DeclaredSum(l: Layout, count: nat)
    ensures DeclaredBytes(l, DeclaredPlanes(l), count) == count * (l.y + l.cb + l.cr + l.cbcr)
  {
    DeclaredScale(l, DeclaredPlanes(l), count);
    FrameSum(l);
  }

  /** Bytes the planes `ps` take for one frame. */
  function FrameBytes(l: Layout, ps: seq<Plane>): nat
  {
    if ps == [] then 0 else PlaneSize(l, ps[0]) + FrameBytes(l, ps[1..])
  }

  /** `count` frames take `count` times one frame. */
  lemma {:induction false} DeclaredScale(l: Layout, ps: seq<Plane>, count: nat)
    ensures DeclaredBytes(l, ps, count) == count * FrameBytes(l, ps)
    decreases |ps|
  {
    if ps != [] {
      DeclaredScale(l, ps[1..], count);
      assert count * (PlaneSize(l, ps[0]) + FrameBytes(l, ps[1..]))
          == count * PlaneSize(l, ps[0]) + count * FrameBytes(l, ps[1..]);
    }
  }

  /** One frame of the declared planes is the sum of all plane sizes: the
      planes left out are exactly the empty ones. */
  lemma FrameSum(l: Layout)
    ensures FrameBytes(l, DeclaredPlanes(l)) == l.y + l.cb + l.cr + l.cbcr
  {
    var a := IfDeclared(l, YPlane);
    var b := IfDeclared(l, CbPlane);
    var c := IfDeclared(l, CrPlane);
    var d := IfDeclared(l, CbCrPlane);
    assert FrameBytes(l, DeclaredPlanes(l))
        == FrameBytes(l, a) + FrameBytes(l, b) + FrameBytes(l, c) + FrameBytes(l, d) by {
      assert DeclaredPlanes(l) == a + (b + (c + d));
      FrameBytesConcat(l, a, b + (c + d));
      FrameBytesConcat(l, b, c + d);
      FrameBytesConcat(l, c, d);
    }
    OnePlane(l, YPlane);
    OnePlane(l, CbPlane);
    OnePlane(l, CrPlane);
    OnePlane(l, CbCrPlane);
  }

  /** A plane declared only when its size is nonzero adds its size either
      way. */
  lemma OnePlane(l: Layout, p: Plane)
    ensures FrameBytes(l, IfDeclared(l, p)) == PlaneSize(l, p)
  {
    if PlaneSize(l, p) != 0 {
      assert [p][1..] == [];
    }
  }

  lemma {:induction false} FrameBytesConcat(l: Layout, a: seq<Plane>, b: seq<Plane>)
    ensures FrameBytes(l, a + b) == FrameBytes(l, a) + FrameBytes(l, b)
    decreases |a|
  {
    if a != [] {
      assert (a + b)[1..] == a[1..] + b;
      FrameBytesConcat(l, a[1..], b);
    } else {
      assert a + b == b;
    }
  }
}

=== FILE: pixellayout.dfy ===
/** Source image formats of the software converter and, per format, where
    the bytes of output pixel (row, col) live in the source buffer. Rows and
    columns are relative to the image; every plane is addressed from the
    image's pitch and height as the converters address it. */
module PixelLayout {
  import opened ColorMath

  /** Colour formats of the image library. The ten formats the software
      converter's switch names are spelled out; every other library format
      (RGB565, ARGB8888, ...) is `OtherFormat`, identified by its code. */
  datatype ColorFormat =
    | BGR888 | YV12 | I420 | I422 | I444 | I400 | NV21 | NV12 | YUY2 | UYVY
    | OtherFormat(code: nat)

  /** A source image: buffer, pitch in pixels, width, height and format. */
  datatype Image = Image(data: seq<Byte>, pitch: nat, width: nat, height: nat, format: ColorFormat)

  /** True for the formats the software converter's switch handles. */
  predicate HasConverter(f: ColorFormat)
  {
    !f.OtherFormat?
  }

  /** Formats whose converter handles rows in pairs (4:2:0 chroma). */
  predicate PairedRows(f: ColorFormat)
  {
    f == I420 || f == YV12 || f == NV12 || f == NV21
  }

  /** Formats whose vector lane produces two horizontally adjacent pixels
      that share one chroma sample. */
  predicate TwoPixelLanes(f: ColorFormat)
  {
    f == I420 || f == YV12 || f == I422 || f == NV12 || f == NV21 || f == YUY2 || f == UYVY
  }

  /** Source byte positions feeding one output pixel. */
  datatype Taps =
    | YuvTaps(y: nat, u: nat, v: nat)
    | GreyTap(y: nat)
    | BgrTaps(b: nat, g: nat, r: nat)

  /** Where the converter of format `f` reads output pixel (row, col) from,
      for an image of the given pitch and height. Planar luma rows start at
      `row * pitch`; the chroma planes follow the luma plane of
      `pitch * height` bytes. Paired-row formats take chroma from the first
      row of the pair. */
  function TapsOf(f: ColorFormat, pitch: nat, height: nat, row: nat, col: nat): Taps
    requires HasConverter(f)
  {
    var ySize := pitch * height;
    var pairRow := row - row % 2;
    var luma := row * pitch + col;
    match f
    case BGR888 =>
      var base := row * pitch * 3 + 3 * col;
      BgrTaps(base, base + 1, base + 2)
    case I420 =>
      var u := ySize + pairRow * pitch / 4 + col / 2;
      YuvTaps(luma, u, u + ySize / 4)
    case YV12 =>
      var v := ySize + pairRow * pitch / 4 + col / 2;
      YuvTaps(luma, v + ySize / 4, v)
    case I422 =>
      var u := ySize + row * pitch / 2 + col / 2;
      YuvTaps(luma, u, u + ySize / 2)
    case I444 =>
      var u := ySize + row * pitch + col;
      YuvTaps(luma, u, u + ySize)
    case I400 =>
      GreyTap(luma)
    case NV12 =>
      var u := ySize + pairRow * pitch / 2 + 2 * (col / 2);
      YuvTaps(luma, u, u + 1)
    case NV21 =>
      var v := ySize + pairRow * pitch / 2 + 2 * (col / 2);
      YuvTaps(luma, v + 1, v)
    case YUY2 =>
      var group := row * pitch * 2 + 4 * (col / 2);
      YuvTaps(group + 2 * (col % 2), group + 1, group + 3)
    case UYVY =>
      var group := row * pitch * 2 + 4 * (col / 2);
      YuvTaps(group + 1 + 2 * (col % 2), group, group + 2)
  }

  /** A byte of the source buffer. A position past the end reads as 0: the
      source reads whatever memory lies there. */
  function ReadByte(data: seq<Byte>, k: nat): Byte
  {
    if k < |data| then data[k] else 0
  }

  /** The RGB565 value the converter computes for output pixel (row, col). */
  function PixelOf(img: Image, row: nat, col: nat): Pixel
    requires HasConverter(img.format)
  {
    match TapsOf(img.format, img.pitch, img.height, row, col)
    case YuvTaps(y, u, v) =>
      Pack565(YuvToRgb(ReadByte(img.data, y), ReadByte(img.data, u), ReadByte(img.data, v)))
    case GreyTap(y) =>
      Pack565(GreyToRgb(ReadByte(img.data, y)))
    case BgrTaps(b, g, r) =>
      BgrWord(Rgb(ReadByte(img.data, r), ReadByte(img.data, g), ReadByte(img.data, b)))
  }

  /** Bytes a well-formed image of format `f` occupies. */
  function BufferSize(f: ColorFormat, pitch: nat, height: nat): nat
    requires HasConverter(f)
  {
    var ySize := pitch * height;
    match f
    case BGR888 => 3 * ySize
    case I420 => ySize + 2 * (ySize / 4)
    case YV12 => ySize + 2 * (ySize / 4)
    case I422 => ySize + 2 * (ySize / 2)
    case I444 => 3 * ySize
    case I400 => ySize
    case NV12 => ySize + ySize / 2
    case NV21 => ySize + ySize / 2
    case YUY2 => 2 * ySize
    case UYVY => 2 * ySize
  }

  // ---------------------------------------------------------------------
  // Arithmetic helpers

  lemma MulLeftMono(a: nat, b: nat, n: nat)
    requires a <= b
    ensures a * n <= b * n
  {
  }

  /** Row-major positions are unique: a row index and an in-row offset below
      the row length determine the position and are determined by it. */
  lemma RowMajorUnique(a1: nat, b1: nat, a2: nat, b2: nat, n: nat)
    requires b1 < n && b2 < n
    ensures a1 * n + b1 == a2 * n + b2 <==> a1 == a2 && b1 == b2
  {
    if a1 < a2 {
      MulLeftMono(a1 + 1, a2, n);
    } else if a2 < a1 {
      MulLeftMono(a2 + 1, a1, n);
    }
  }

  /** With an even pitch, the 4:2:0 planar chroma row offset of the pair
      starting at `row - row % 2` is `(row / 2) * (pitch / 2)`. */
  lemma QuarterRowOffset(row: nat, pitch: nat)
    requires pitch % 2 == 0
    ensures (row - row % 2) * pitch / 4 == (row / 2) * (pitch / 2)
    ensures (row - row % 2) * pitch / 2 == (row / 2) * pitch
  {
    var h, m := row / 2, pitch / 2;
    assert row - row % 2 == 2 * h;
    assert (2 * h) * (2 * m) == 4 * (h * m);
    assert (2 * h) * (2 * m) / 2 == 2 * (h * m);
  }

  /** With an even pitch, the 4:2:2 planar chroma row offset is `row * (pitch / 2)`. */
  lemma HalfRowOffset(row: nat, pitch: nat)
    requires pitch % 2 == 0
    ensures row * pitch / 2 == row * (pitch / 2)
  {
    var m := pitch / 2;
    assert row * (2 * m) == 2 * (row * m);
  }

  // ---------------------------------------------------------------------
  // Layout properties

  /** BGR888 reads a 3-byte pixel as B, G, R at offsets 0, 1, 2 of pixel
      `row * pitch + col`. */
  lemma BgrPixelBytes(pitch: nat, height: nat, row: nat, col: nat)
    ensures var k := 3 * (row * pitch + col);
      TapsOf(BGR888, pitch, height, row, col) == BgrTaps(k, k + 1, k + 2)
  {
    assert row * pitch * 3 + 3 * col == 3 * (row * pitch + col);
  }

  /** YV12 is I420 with the two chroma planes in the other order, and NV21 is
      NV12 with the two bytes of each chroma pair in the other order. */
  lemma ChromaOrderSwapped(pitch: nat, height: nat, row: nat, col: nat)
    ensures TapsOf(YV12, pitch, height, row, col).y == TapsOf(I420, pitch, height, row, col).y
    ensures TapsOf(YV12, pitch, height, row, col).u == TapsOf(I420, pitch, height, row, col).v
    ensures TapsOf(YV12, pitch, height, row, col).v == TapsOf(I420, pitch, height, row, col).u
    ensures TapsOf(NV21, pitch, height, row, col).y == TapsOf(NV12, pitch, height, row, col).y
    ensures TapsOf(NV21, pitch, height, row, col).u == TapsOf(NV12, pitch, height, row, col).v
    ensures TapsOf(NV21, pitch, height, row, col).v == TapsOf(NV12, pitch, height, row, col).u
  {
  }

  /** NV12 takes U from the even and V from the odd byte of its chroma pair
      (relative to the chroma plane start, with an even pitch); NV21 the reverse. */
  lemma SemiPlanarParity(pitch: nat, height: nat, row: nat, col: nat)
    requires pitch % 2 == 0
    ensures var t := TapsOf(NV12, pitch, height, row, col);
      (t.u - pitch * height) % 2 == 0 && t.v == t.u + 1
    ensures var t := TapsOf(NV21, pitch, height, row, col);
      (t.v - pitch * height) % 2 == 0 && t.u == t.v + 1
  {
    QuarterRowOffset(row, pitch);
    var m := pitch / 2;
    assert (row / 2) * pitch == 2 * ((row / 2) * m);
  }

  /** Within each 4-byte group of a packed row, YUY2 is laid out Y0 U Y1 V and
      UYVY is laid out U Y0 V Y1; both pixels of the group share its U and V. */
  lemma PackedGroupOrder(pitch: nat, height: nat, row: nat, k: nat)
    ensures var g := row * pitch * 2 + 4 * k;
      var t0 := TapsOf(YUY2, pitch, height, row, 2 * k);
      var t1 := TapsOf(YUY2, pitch, height, row, 2 * k + 1);
      t0.y == g && t0.u == g + 1 && t1.y == g + 2 && t0.v == g + 3 && t1.u == t0.u && t1.v == t0.v
    ensures var g := row * pitch * 2 + 4 * k;
      var t0 := TapsOf(UYVY, pitch, height, row, 2 * k);
      var t1 := TapsOf(UYVY, pitch, height, row, 2 * k + 1);
      t0.u == g && t0.y == g + 1 && t0.v == g + 2 && t1.y == g + 3 && t1.u == t0.u && t1.v == t0.v
  {
  }

  /** 4:2:0 formats: with an even pitch, two pixels of the image read the same
      chroma sample exactly when they lie in the same 2x2 block. */
  lemma ChromaShared420(f: ColorFormat, pitch: nat, height: nat, r1: nat, c1: nat, r2: nat, c2: nat)
    requires PairedRows(f)
    requires pitch % 2 == 0
    requires c1 < pitch && c2 < pitch
    ensures TapsOf(f, pitch, height, r1, c1).u == TapsOf(f, pitch, height, r2, c2).u
        <==> r1 / 2 == r2 / 2 && c1 / 2 == c2 / 2
    ensures TapsOf(f, pitch, height, r1, c1).v == TapsOf(f, pitch, height, r2, c2).v
        <==> r1 / 2 == r2 / 2 && c1 / 2 == c2 / 2
  {
    if f == I420 || f == YV12 {
      Planar420Shared(f, pitch, height, r1, c1, r2, c2);
    } else {
      SemiPlanar420Shared(f, pitch, height, r1, c1, r2, c2);
    }
  }

  /** The chroma sample offset within its plane of a 4:2:0 pixel. */
  lemma Planar420Shared(f: ColorFormat, pitch: nat, height: nat, r1: nat, c1: nat, r2: nat, c2: nat)
    requires f == I420 || f == YV12
    requires pitch % 2 == 0
    requires c1 < pitch && c2 < pitch
    ensures TapsOf(f, pitch, height, r1, c1).u == TapsOf(f, pitch, height, r2, c2).u
        <==> r1 / 2 == r2 / 2 && c1 / 2 == c2 / 2
    ensures TapsOf(f, pitch, height, r1, c1).v == TapsOf(f, pitch, height, r2, c2).v
        <==> r1 / 2 == r2 / 2 && c1 / 2 == c2 / 2
  {
    QuarterRowOffset(r1, pitch);
    QuarterRowOffset(r2, pitch);
    RowMajorUnique(r1 / 2, c1 / 2, r2 / 2, c2 / 2, pitch / 2);
  }

  lemma SemiPlanar420Shared(f: ColorFormat, pitch: nat, height: nat, r1: nat, c1: nat, r2: nat, c2: nat)
    requires f == NV12 || f == NV21
    requires pitch % 2 == 0
    requires c1 < pitch && c2 < pitch
    ensures TapsOf(f, pitch, height, r1, c1).u == TapsOf(f, pitch, height, r2, c2).u
        <==> r1 / 2 == r2 / 2 && c1 / 2 == c2 / 2
    ensures TapsOf(f, pitch, height, r1, c1).v == TapsOf(f, pitch, height, r2, c2).v
        <==> r1 / 2 == r2 / 2 && c1 / 2 == c2 / 2
  {
    QuarterRowOffset(r1, pitch);
    QuarterRowOffset(r2, pitch);
    var m := pitch / 2;
    assert (r1 / 2) * pitch + 2 * (c1 / 2) == ((r1 / 2) * m + c1 / 2) * 2;
    assert (r2 / 2) * pitch + 2 * (c2 / 2) == ((r2 / 2) * m + c2 / 2) * 2;
    RowMajorUnique(r1 / 2, c1 / 2, r2 / 2, c2 / 2, m);
  }

  /** 4:2:2 formats (I422, YUY2, UYVY): with an even pitch, two pixels read the
      same chroma sample exactly when they are the same horizontal pair of one row. */
  lemma ChromaShared422(f: ColorFormat, pitch: nat, height: nat, r1: nat, c1: nat, r2: nat, c2: nat)
    requires f == I422 || f == YUY2 || f == UYVY
    requires pitch % 2 == 0
    requires c1 < pitch && c2 < pitch
    ensures TapsOf(f, pitch, height, r1, c1).u == TapsOf(f, pitch, height, r2, c2).u
        <==> r1 == r2 && c1 / 2 == c2 / 2
    ensures TapsOf(f, pitch, height, r1, c1).v == TapsOf(f, pitch, height, r2, c2).v
        <==> r1 == r2 && c1 / 2 == c2 / 2
  {
    var m := pitch / 2;
    if f == I422 {
      HalfRowOffset(r1, pitch);
      HalfRowOffset(r2, pitch);
      RowMajorUnique(r1, c1 / 2, r2, c2 / 2, m);
    } else {
      assert r1 * pitch * 2 + 4 * (c1 / 2) == (r1 * m + c1 / 2) * 4;
      assert r2 * pitch * 2 + 4 * (c2 / 2) == (r2 * m + c2 / 2) * 4;
      RowMajorUnique(r1, c1 / 2, r2, c2 / 2, m);
    }
  }

  /** I444: every pixel reads its own chroma samples. */
  lemma ChromaUnique444(pitch: nat, height: nat, r1: nat, c1: nat, r2: nat, c2: nat)
    requires c1 < pitch && c2 < pitch
    ensures TapsOf(I444, pitch, height, r1, c1).u == TapsOf(I444, pitch, height, r2, c2).u
        <==> r1 == r2 && c1 == c2
    ensures TapsOf(I444, pitch, height, r1, c1).v == TapsOf(I444, pitch, height, r2, c2).v
        <==> r1 == r2 && c1 == c2
  {
    RowMajorUnique(r1, c1, r2, c2, pitch);
  }

  /** Every YUV format reads a distinct luma byte for every pixel of the image. */
  lemma LumaUnique(f: ColorFormat, pitch: nat, height: nat, r1: nat, c1: nat, r2: nat, c2: nat)
    requires HasConverter(f) && f != BGR888
    requires c1 < pitch && c2 < pitch
    ensures TapsOf(f, pitch, height, r1, c1).y == TapsOf(f, pitch, height, r2, c2).y
        <==> r1 == r2 && c1 == c2
  {
    if f == YUY2 || f == UYVY {
      assert r1 * pitch * 2 + 4 * (c1 / 2) + 2 * (c1 % 2) == (r1 * pitch + c1) * 2;
      assert r2 * pitch * 2 + 4 * (c2 / 2) + 2 * (c2 % 2) == (r2 * pitch + c2) * 2;
    }
    RowMajorUnique(r1, c1, r2, c2, pitch);
  }

  /** I400 output is the I444 output of the same luma with neutral chroma. */
  lemma GreyIsNeutralChroma(grey: Image, full: Image, row: nat, col: nat)
    requires grey.format == I400 && full.format == I444
    requires grey.pitch == full.pitch && grey.height == full.height
    requires var t := TapsOf(I444, full.pitch, full.height, row, col);
      ReadByte(grey.data, t.y) == ReadByte(full.data, t.y)
      && ReadByte(full.data, t.u) == 128 && ReadByte(full.data, t.v) == 128
    ensures PixelOf(grey, row, col) == PixelOf(full, row, col)
  {
  }

  /** A position inside row `row` of a plane of `height` rows lies inside the plane. */
  lemma InsidePlane(row: nat, off: nat, rowLen: nat, height: nat)
    requires row < height && off < rowLen
    ensures row * rowLen + off < height * rowLen
  {
    MulLeftMono(row + 1, height, rowLen);
  }

  lemma TapsInBuffer420(f: ColorFormat, pitch: nat, height: nat, row: nat, col: nat)
    requires f == I420 || f == YV12
    requires row < height && col < pitch && pitch % 2 == 0 && height % 2 == 0
    ensures var t := TapsOf(f, pitch, height, row, col);
      t.y < pitch * height && t.u < pitch * height + 2 * (pitch * height / 4)
      && t.v < pitch * height + 2 * (pitch * height / 4)
  {
    var ySize := pitch * height;
    InsidePlane(row, col, pitch, height);
    QuarterRowOffset(row, pitch);
    InsidePlane(row / 2, col / 2, pitch / 2, height / 2);
    assert ySize == 4 * ((height / 2) * (pitch / 2));
  }

  lemma TapsInBuffer422(pitch: nat, height: nat, row: nat, col: nat)
    requires row < height && col < pitch && pitch % 2 == 0
    ensures var t := TapsOf(I422, pitch, height, row, col);
      t.y < pitch * height && t.u < pitch * height + 2 * (pitch * height / 2)
      && t.v < pitch * height + 2 * (pitch * height / 2)
  {
    var ySize := pitch * height;
    InsidePlane(row, col, pitch, height);
    HalfRowOffset(row, pitch);
    InsidePlane(row, col / 2, pitch / 2, height);
    assert ySize == 2 * (height * (pitch / 2));
  }

  lemma TapsInBufferSemiPlanar(f: ColorFormat, pitch: nat, height: nat, row: nat, col: nat)
    requires f == NV12 || f == NV21
    requires row < height && col < pitch && pitch % 2 == 0 && height % 2 == 0
    ensures var t := TapsOf(f, pitch, height, row, col);
      t.y < pitch * height && t.u < pitch * height + pitch * height / 2
      && t.v < pitch * height + pitch * height / 2
  {
    var ySize := pitch * height;
    InsidePlane(row, col, pitch, height);
    QuarterRowOffset(row, pitch);
    InsidePlane(row / 2, 2 * (col / 2) + 1, pitch, height / 2);
    assert ySize == 2 * ((height / 2) * pitch);
  }

  lemma TapsInBufferPacked(f: ColorFormat, pitch: nat, height: nat, row: nat, col: nat)
    requires f == YUY2 || f == UYVY
    requires row < height && col < pitch && pitch % 2 == 0
    ensures var t := TapsOf(f, pitch, height, row, col);
      t.y < 2 * (pitch * height) && t.u < 2 * (pitch * height) && t.v < 2 * (pitch * height)
  {
    InsidePlane(row, 4 * (col / 2) + 3, 2 * pitch, height);
    assert row * pitch * 2 == row * (2 * pitch);
    assert height * (2 * pitch) == 2 * (pitch * height);
  }

  lemma TapsInBufferFull(f: ColorFormat, pitch: nat, height: nat, row: nat, col: nat)
    requires f == BGR888 || f == I444 || f == I400
    requires row < height && col < pitch
    ensures match TapsOf(f, pitch, height, row, col)
      case YuvTaps(y, u, v) => y < 3 * (pitch * height) && u < 3 * (pitch * height) && v < 3 * (pitch * height)
      case GreyTap(y) => y < pitch * height
      case BgrTaps(b, g, r) => b < 3 * (pitch * height) && g < 3 * (pitch * height) && r < 3 * (pitch * height)
  {
    InsidePlane(row, col, pitch, height);
    assert height * pitch == pitch * height;
    assert row * pitch * 3 + 3 * col == 3 * (row * pitch + col);
  }

  /** The bytes read for every pixel of an image lie inside a buffer of
      `BufferSize` bytes, provided the column is inside the pitch and the
      subsampled formats have even pitch (and, for 4:2:0, even height). */
  lemma TapsInBuffer(f: ColorFormat, pitch: nat, height: nat, row: nat, col: nat)
    requires HasConverter(f)
    requires row < height && col < pitch
    requires TwoPixelLanes(f) ==> pitch % 2 == 0
    requires PairedRows(f) ==> height % 2 == 0
    ensures match TapsOf(f, pitch, height, row, col)
      case YuvTaps(y, u, v) => y < BufferSize(f, pitch, height) && u < BufferSize(f, pitch, height) && v < BufferSize(f, pitch, height)
      case GreyTap(y) => y < BufferSize(f, pitch, height)
      case BgrTaps(b, g, r) => b < BufferSize(f, pitch, height) && g < BufferSize(f, pitch, height) && r < BufferSize(f, pitch, height)
  {
    match f
    case BGR888 => TapsInBufferFull(f, pitch, height, row, col);
    case I444 => TapsInBufferFull(f, pitch, height, row, col);
    case I400 => TapsInBufferFull(f, pitch, height, row, col);
    case I420 => TapsInBuffer420(f, pitch, height, row, col);
    case YV12 => TapsInBuffer420(f, pitch, height, row, col);
    case I422 => TapsInBuffer422(pitch, height, row, col);
    case NV12 => TapsInBufferSemiPlanar(f, pitch, height, row, col);
    case NV21 => TapsInBufferSemiPlanar(f, pitch, height, row, col);
    case YUY2 => TapsInBufferPacked(f, pitch, height, row, col);
    case UYVY => TapsInBufferPacked(f, pitch, height, row, col);
  }
}

=== FILE: powerprofile.dfy ===
/** Power-profile selection at start-up: read the secure enclave's revision
    string, parse " vMAJ.MIN.PATCH" from it, pack the three numbers into one
    word, choose the profiles written for firmware 1.107.0 and earlier or
    those for later firmware, and apply the run profile and then the off
    profile. The service calls are parameters: each one's outcome is given as
    its return value and its service error code. */
module PowerProfile {

  datatype Option<T> = None | Some(value: T)

  // ---------------------------------------------------------------------
  // Locating the version

  /** Whether " v" starts at position i of s. */
  predicate MarkerAt(s: seq<char>, i: nat)
  {
    i + 1 < |s| && s[i] == ' ' && s[i + 1] == 'v'
  }

  predicate HasMarker(s: seq<char>)
  {
    exists i: nat :: i < |s| && MarkerAt(s, i)
  }

  /** The position of the first " v" at or after `from`, the search that
      locates the version text. */
  function FindMarker(s: seq<char>, from: nat): (r: Option<nat>)
    ensures r.Some? ==>
      from <= r.value && MarkerAt(s, r.value) && forall j: nat :: from <= j < r.value ==> !MarkerAt(s, j)
    ensures r.None? ==> forall j: nat :: from <= j ==> !MarkerAt(s, j)
    decreases |s| - from
  {
    if from + 1 >= |s| then None
    else if MarkerAt(s, from) then Some(from)
    else FindMarker(s, from + 1)
  }

  /** The search finds a marker exactly when the string holds one. */
  lemma FindMarkerComplete(s: seq<char>)
    ensures FindMarker(s, 0).Some? <==> HasMarker(s)
  {
    if FindMarker(s, 0).Some? {
      assert MarkerAt(s, FindMarker(s, 0).value);
    }
  }

  // ---------------------------------------------------------------------
  // The scan of " v%d.%d.%d"

  predicate IsSpace(c: char)
  {
    c == ' ' || c == '\t' || c == '\n' || c == '\r' || c == 12 as char || c == 11 as char
  }

  predicate IsDigit(c: char)
  {
    '0' <= c <= '9'
  }

  function DigitValue(c: char): nat
    requires IsDigit(c)
  {
    (c - '0') as nat
  }

  /** The text after any leading white space. */
  function SkipSpace(s: seq<char>): (t: seq<char>)
    ensures |t| <= |s|
  {
    if |s| > 0 && IsSpace(s[0]) then SkipSpace(s[1..]) else s
  }

  /** Reads the leading digits, accumulating their value onto `acc`; gives
      the value and the text after the last digit. */
  function ReadDigits(s: seq<char>, acc: nat): (r: (nat, seq<char>))
    ensures |r.1| <= |s|
  {
    if |s| > 0 && IsDigit(s[0]) then ReadDigits(s[1..], 10 * acc + DigitValue(s[0])) else (acc, s)
  }

  /** One %d conversion: leading white space, an optional sign, then at
      least one digit. Gives the value and the text after the digits; None
      when no digit follows. Values are unbounded here. */
  function ScanInt(s: seq<char>): Option<(int, seq<char>)>
  {
    var t := SkipSpace(s);
    var negative := |t| > 0 && t[0] == '-';
    var u := if |t| > 0 && (t[0] == '-' || t[0] == '+') then t[1..] else t;
    if |u| > 0 && IsDigit(u[0]) then
      var r := ReadDigits(u, 0);
      Some((if negative then -(r.0 as int) else r.0 as int, r.1))
    else None
  }

  /** Whether the text starts with the literal character c of the format. */
  predicate StartsWith(s: seq<char>, c: char)
  {
    |s| > 0 && s[0] == c
  }

  /** The numbers the scan of " v%d.%d.%d" assigned, in order; the count the
      scan returns is their number. The format's leading space skips any
      white space. A scan that fails before its first conversion returns
      either 0 or end-of-input, and both are simply "not 3" to the caller,
      so both appear as no numbers. */
  function ScanVersion(s: seq<char>): (parts: seq<int>)
    ensures |parts| <= 3
  {
    var t := SkipSpace(s);
    if StartsWith(t, 'v') then ScanNumbers(t[1..], 3) else []
  }

  /** Up to `want` %d conversions, each after the first preceded by a
      literal '.'; the scan stops at the first mismatch. */
  function ScanNumbers(s: seq<char>, want: nat): (parts: seq<int>)
    ensures |parts| <= want
    decreases want
  {
    if want == 0 then []
    else
      var r := ScanInt(s);
      if r.None? then []
      else
        var rest := r.value.1;
        [r.value.0] + (if want > 1 && StartsWith(rest, '.') then ScanNumbers(rest[1..], want - 1) else [])
  }

  // ---------------------------------------------------------------------
  // Decimal text, the partner of the scan

  predicate AllDigits(d: seq<char>)
  {
    forall k :: 0 <= k < |d| ==> IsDigit(d[k])
  }

  /** The number a string of decimal digits denotes, read left to right
      onto `acc`. */
  function DecimalValue(d: seq<char>, acc: nat): nat
    requires AllDigits(d)
  {
    if d == [] then acc else DecimalValue(d[1..], 10 * acc + DigitValue(d[0]))
  }

  function DigitChar(n: nat): (c: char)
    requires n < 10
    ensures IsDigit(c) && DigitValue(c) == n
  {
    '0' + n as char
  }

  /** The decimal text of n, without sign or leading zeros. */
  function Decimal(n: nat): (d: seq<char>)
    ensures |d| > 0 && AllDigits(d)
  {
    if n < 10 then [DigitChar(n)] else Decimal(n / 10) + [DigitChar(n % 10)]
  }

  /** Reading one more digit at the end multiplies by ten and adds it. */
  lemma {:induction false} DecimalValueSnoc(d: seq<char>, c: char, acc: nat)
    requires AllDigits(d) && IsDigit(c)
    ensures AllDigits(d + [c])
    ensures DecimalValue(d + [c], acc) == 10 * DecimalValue(d, acc) + DigitValue(c)
    decreases |d|
  {
    if d == [] {
      assert [c][1..] == [];
    } else {
      assert (d + [c])[1..] == d[1..] + [c];
      DecimalValueSnoc(d[1..], c, 10 * acc + DigitValue(d[0]));
    }
  }

  /** The digits of n's decimal text denote n. */
  lemma {:induction false} DecimalRoundTrip(n: nat)
    ensures DecimalValue(Decimal(n), 0) == n
  {
    if n >= 10 {
      DecimalRoundTrip(n / 10);
      DecimalValueSnoc(Decimal(n / 10), DigitChar(n % 10), 0);
    } else {
      assert Decimal(n)[1..] == [];
    }
  }

  /** Nothing that continues a number starts the text. */
  predicate EndsNumber(rest: seq<char>)
  {
    rest == [] || !IsDigit(rest[0])
  }

  /** Reading digits followed by text that does not continue them consumes
      exactly the digits. */
  lemma {:induction false} ReadDigitsValue(d: seq<char>, rest: seq<char>, acc: nat)
    requires AllDigits(d) && EndsNumber(rest)
    ensures ReadDigits(d + rest, acc) == (DecimalValue(d, acc), rest)
    decreases |d|
  {
    if d == [] {
      assert d + rest == rest;
    } else {
      assert (d + rest)[1..] == d[1..] + rest;
      ReadDigitsValue(d[1..], rest, 10 * acc + DigitValue(d[0]));
    }
  }

  /** A %d conversion reads back a number written in decimal, when what
      follows is not a digit. */
  lemma ScanIntReadsDecimal(n: nat, rest: seq<char>)
    requires EndsNumber(rest)
    ensures ScanInt(Decimal(n) + rest) == Some((n as int, rest))
  {
    var s := Decimal(n) + rest;
    assert s[0] == Decimal(n)[0];
    assert SkipSpace(s) == s;
    ReadDigitsValue(Decimal(n), rest, 0);
    DecimalRoundTrip(n);
  }

  /** One conversion of the field scan. */
  lemma ScanNumbersStep(s: seq<char>, n: int, rest: seq<char>, want: nat)
    requires want > 0 && ScanInt(s) == Some((n, rest))
    ensures want == 1 || !StartsWith(rest, '.') ==> ScanNumbers(s, want) == [n]
    ensures want > 1 && StartsWith(rest, '.') ==>
      ScanNumbers(s, want) == [n] + ScanNumbers(rest[1..], want - 1)
  {
  }

  /** The text a firmware of version maj.min.patch reports after the marker. */
  function VersionText(maj: nat, min: nat, patch: nat): seq<char>
  {
    " v" + Decimal(maj) + "." + Decimal(min) + "." + Decimal(patch)
  }

  /** Scanning a written version gives back its three numbers, whatever
      follows that is not a digit. */
  lemma ScanRoundTrip(maj: nat, min: nat, patch: nat, tail: seq<char>)
    requires EndsNumber(tail)
    ensures ScanVersion(VersionText(maj, min, patch) + tail) == [maj, min, patch]
  {
    var r2 := Decimal(patch) + tail;
    var r1 := Decimal(min) + ("." + r2);
    var body := Decimal(maj) + ("." + r1);
    assert VersionText(maj, min, patch) + tail == " v" + body;
    LastField(patch, tail);
    FieldThen(min, r2, 2);
    FieldThen(maj, r1, 3);
    VersionPrefix(body);
  }

  /** The format's " v" consumes exactly the marker. */
  lemma VersionPrefix(body: seq<char>)
    ensures ScanVersion(" v" + body) == ScanNumbers(body, 3)
  {
    var s := " v" + body;
    assert s[1..] == "v" + body;
    assert SkipSpace(s[1..]) == s[1..];
    assert (s[1..])[1..] == body;
  }

  /** The last conversion reads the last number. */
  lemma LastField(n: nat, rest: seq<char>)
    requires EndsNumber(rest)
    ensures ScanNumbers(Decimal(n) + rest, 1) == [n]
  {
    ScanIntReadsDecimal(n, rest);
    ScanNumbersStep(Decimal(n) + rest, n, rest, 1);
  }

  /** A conversion followed by a '.' reads its number and goes on after the
      dot. */
  lemma FieldThen(n: nat, t: seq<char>, want: nat)
    requires want > 1
    ensures ScanNumbers(Decimal(n) + ("." + t), want) == [n] + ScanNumbers(t, want - 1)
  {
    ScanIntReadsDecimal(n, "." + t);
    ScanNumbersStep(Decimal(n) + ("." + t), n, "." + t, want);
    assert ("." + t)[1..] == t;
  }

  // ---------------------------------------------------------------------
  // Packing

  function Pow2(k: nat): (p: nat)
    ensures p >= 1
  {
    if k == 0 then 1 else 2 * Pow2(k - 1)
  }

  /** Bitwise OR of two non-negative integers. */
  function BitOr(a: nat, b: nat): nat
    decreases a + b
  {
    if a == 0 then b
    else if b == 0 then a
    else 2 * BitOr(a / 2, b / 2) + (if a % 2 == 1 || b % 2 == 1 then 1 else 0)
  }

  /** OR with a value below 2^k adds it to a multiple of 2^k. */
  lemma {:induction false} OrDisjoint(a: nat, k: nat, c: nat)
    requires c < Pow2(k)
    ensures BitOr(a * Pow2(k), c) == a * Pow2(k) + c
  {
    var x := a * Pow2(k);
    if k == 0 {
      assert c == 0;
    } else if x != 0 && c != 0 {
      assert x == 2 * (a * Pow2(k - 1));
      assert x / 2 == a * Pow2(k - 1) && x % 2 == 0;
      OrDisjoint(a, k - 1, c / 2);
    }
  }

  /** Versions whose packing the source computes without overflow: each
      shifted part fits a signed 32-bit integer. */
  predicate PackDefined(maj: int, min: int, patch: int)
  {
    0 <= maj < 0x8000 && 0 <= min < 0x80_0000 && 0 <= patch < 0x8000_0000
  }

  /** The combined version `maj << 16 | min << 8 | patch`, as an unsigned
      32-bit word. */
  function Pack(maj: nat, min: nat, patch: nat): (w: nat)
    requires PackDefined(maj, min, patch)
  {
    BitOr(BitOr(maj * 0x1_0000, min * 0x100), patch)
  }

  /** With minor and patch below 256 the three numbers occupy separate
      bytes, so the packed word is their weighted sum. */
  lemma PackSum(maj: nat, min: nat, patch: nat)
    requires PackDefined(maj, min, patch) && min < 0x100 && patch < 0x100
    ensures Pack(maj, min, patch) == maj * 0x1_0000 + min * 0x100 + patch
  {
    assert Pow2(8) == 0x100 by { PowSmall(); }
    assert Pow2(16) == 0x1_0000 by { PowSmall(); }
    OrDisjoint(maj, 16, min * 0x100);
    assert (maj * 0x100 + min) * 0x100 == maj * 0x1_0000 + min * 0x100;
    OrDisjoint(maj * 0x100 + min, 8, patch);
  }

  lemma PowSmall()
    ensures Pow2(8) == 0x100 && Pow2(9) == 0x200 && Pow2(16) == 0x1_0000
  {
  }

  /** Lexicographic order on version numbers. */
  predicate NewerThan(maj: nat, min: nat, patch: nat, maj0: nat, min0: nat, patch0: nat)
  {
    maj > maj0 || (maj == maj0 && (min > min0 || (min == min0 && patch > patch0)))
  }

  /** For versions with minor and patch below 256, comparing packed words
      compares versions lexicographically. */
  lemma PackOrdersVersions(maj: nat, min: nat, patch: nat, maj0: nat, min0: nat, patch0: nat)
    requires PackDefined(maj, min, patch) && min < 0x100 && patch < 0x100
    requires PackDefined(maj0, min0, patch0) && min0 < 0x100 && patch0 < 0x100
    ensures Pack(maj, min, patch) > Pack(maj0, min0, patch0)
        <==> NewerThan(maj, min, patch, maj0, min0, patch0)
  {
    PackSum(maj, min, patch);
    PackSum(maj0, min0, patch0);
    var lo, lo0 := min * 0x100 + patch, min0 * 0x100 + patch0;
    assert lo < 0x1_0000 && lo0 < 0x1_0000;
    if maj != maj0 {
      assert maj > maj0 ==> maj * 0x1_0000 >= maj0 * 0x1_0000 + 0x1_0000;
      assert maj < maj0 ==> maj0 * 0x1_0000 >= maj * 0x1_0000 + 0x1_0000;
    }
  }

  /** The packed word gives back its three numbers, for minor and patch
      below 256. */
  lemma PackFields(maj: nat, min: nat, patch: nat)
    requires PackDefined(maj, min, patch) && min < 0x100 && patch < 0x100
    ensures Pack(maj, min, patch) / 0x1_0000 == maj
    ensures Pack(maj, min, patch) / 0x100 % 0x100 == min
    ensures Pack(maj, min, patch) % 0x100 == patch
  {
    PackSum(maj, min, patch);
    var w := maj * 0x1_0000 + min * 0x100 + patch;
    assert w == (maj * 0x100 + min) * 0x100 + patch;
    assert w / 0x100 == maj * 0x100 + min;
    assert w / 0x100 % 0x100 == min;
    assert w / 0x1_0000 == maj;
  }

  // ---------------------------------------------------------------------
  // Profile choice and application

  /** The profile sets: those for firmware up to 1.107.0 and those for
      later firmware, whose enumerations changed. */
  datatype ProfileSet = Profiles107 | Profiles109

  /** The packed form of version 1.107.0. */
  const Version1_107_0: nat := 0x1_0000 + 107 * 0x100

  function SelectProfiles(versionWord: nat): (p: ProfileSet)
    ensures p == Profiles109 <==> versionWord > Version1_107_0
  {
    if versionWord > Version1_107_0 then Profiles109 else Profiles107
  }

  /** A service call's outcome: its return value and service error code. */
  datatype ServiceResult = ServiceResult(err: int, serviceError: int)

  predicate Succeeded(r: ServiceResult)
  {
    r.err == 0 && r.serviceError == 0
  }

  /** What start-up did: whether it succeeded, which profile set it chose
      (none when it stopped before choosing), and which configurations it
      sent to the enclave. */
  datatype PowerOutcome = PowerOutcome(
    ok: bool, chosen: Option<ProfileSet>, runSent: bool, offSent: bool)

  /** The version the revision string carries, as parsed after its first
      " v". */
  function VersionParts(revision: seq<char>): seq<int>
    requires HasMarker(revision)
  {
    FindMarkerComplete(revision);
    ScanVersion(revision[FindMarker(revision, 0).value..])
  }

  /** The revision strings the source's arithmetic is defined on: they hold
      " v", and a version parsed from them packs without overflow. */
  predicate RevisionDefined(revision: seq<char>)
  {
    HasMarker(revision)
    && var parts := VersionParts(revision);
    |parts| == 3 ==> PackDefined(parts[0], parts[1], parts[2])
  }

  /** The start-up sequence. `query` is the revision query's outcome and
      `revision` the text it returned; `run` and `off` are the outcomes the
      two configuration calls would have. */
  function SetPowerProfiles(query: ServiceResult, revision: seq<char>,
                            run: ServiceResult, off: ServiceResult): (o: PowerOutcome)
    requires Succeeded(query) ==> RevisionDefined(revision)
    ensures !Succeeded(query) ==> o == PowerOutcome(false, None, false, false)
    ensures Succeeded(query) && |VersionParts(revision)| != 3 ==>
      o == PowerOutcome(false, None, false, false)
    ensures o.chosen.Some? ==> o.runSent
    ensures o.offSent <==> o.runSent && Succeeded(run)
    ensures o.ok <==> o.runSent && Succeeded(run) && Succeeded(off)
  {
    if !Succeeded(query) then PowerOutcome(false, None, false, false)
    else
      var parts := VersionParts(revision);
      if |parts| != 3 then PowerOutcome(false, None, false, false)
      else
        var chosen := SelectProfiles(Pack(parts[0], parts[1], parts[2]));
        if !Succeeded(run) then PowerOutcome(false, Some(chosen), true, false)
        else PowerOutcome(Succeeded(off), Some(chosen), true, true)
  }

  /** The first " v" of a revision that holds none before its version text
      is the version text's own. */
  lemma MarkerOfVersion(prefix: seq<char>, version: seq<char>)
    requires !HasMarker(prefix) && |version| >= 2 && version[..2] == " v"
    ensures FindMarker(prefix + version, 0) == Some(|prefix|)
  {
    var s := prefix + version;
    assert MarkerAt(s, |prefix|);
    forall j: nat | j < |prefix| ensures !MarkerAt(s, j) {
      if j + 1 < |prefix| {
        assert !MarkerAt(prefix, j);
      }
    }
  }

  /** The version parsed from a revision string holding a written version
      after a prefix without " v" is that version. */
  lemma PartsOfRevision(prefix: seq<char>, maj: nat, min: nat, patch: nat, tail: seq<char>)
    requires !HasMarker(prefix) && EndsNumber(tail)
    ensures var revision := prefix + VersionText(maj, min, patch) + tail;
      HasMarker(revision) && VersionParts(revision) == [maj, min, patch]
  {
    var version := VersionText(maj, min, patch) + tail;
    var revision := prefix + VersionText(maj, min, patch) + tail;
    assert revision == prefix + version;
    assert version[..2] == " v";
    MarkerOfVersion(prefix, version);
    assert |prefix| < |revision| && MarkerAt(revision, |prefix|);
    assert revision[|prefix|..] == version;
    ScanRoundTrip(maj, min, patch, tail);
  }

  /** End to end: a firmware reporting maj.min.patch, with minor and patch
      below 256, gets the later profiles exactly when it is newer than
      1.107.0, and start-up succeeds exactly when both configurations are
      accepted. */
  lemma VersionSelectsProfiles(prefix: seq<char>, maj: nat, min: nat, patch: nat,
                               tail: seq<char>, run: ServiceResult, off: ServiceResult)
    requires !HasMarker(prefix) && EndsNumber(tail)
    requires PackDefined(maj, min, patch) && min < 0x100 && patch < 0x100
    ensures var revision := prefix + VersionText(maj, min, patch) + tail;
      RevisionDefined(revision)
      && var o := SetPowerProfiles(ServiceResult(0, 0), revision, run, off);
      && o.chosen == Some(if NewerThan(maj, min, patch, 1, 107, 0) then Profiles109 else Profiles107)
      && (o.ok <==> Succeeded(run) && Succeeded(off))
  {
    var revision := prefix + VersionText(maj, min, patch) + tail;
    PartsOfRevision(prefix, maj, min, patch, tail);
    assert VersionParts(revision) == [maj, min, patch];
    PackOrdersVersions(maj, min, patch, 1, 107, 0);
    PackSum(1, 107, 0);
    assert Pack(1, 107, 0) == Version1_107_0;
  }

  /** The boundary: 1.107.0 keeps the earlier profiles and 1.107.1 takes the
      later ones. A minor or patch number of 256 or more spills into the
      neighbouring byte, so 1.106.300 packs above 1.107.0 and takes the later
      profiles although it is the older version. */
  lemma SelectionBoundary()
    ensures SelectProfiles(Pack(1, 107, 0)) == Profiles107
    ensures SelectProfiles(Pack(1, 107, 1)) == Profiles109
    ensures SelectProfiles(Pack(1, 106, 255)) == Profiles107
    ensures SelectProfiles(Pack(1, 106, 300)) == Profiles109
    ensures !NewerThan(1, 106, 300, 1, 107, 0)
  {
    PackSum(1, 107, 0);
    PackSum(1, 107, 1);
    PackSum(1, 106, 255);
    PackSum(1, 106, 0);
    assert BitOr(0x1_0000, 106 * 0x100) == 0x1_0000 + 106 * 0x100 by {
      PowSmall();
      OrDisjoint(1, 16, 106 * 0x100);
    }
    assert BitOr(0x1_0000 + 106 * 0x100, 300) == 0x1_0000 + 106 * 0x100 + 300 by {
      PowSmall();
      assert 181 * Pow2(9) == 0x1_0000 + 106 * 0x100;
      OrDisjoint(181, 9, 300);
    }
  }
}

=== FILE: softwaredraw.dfy ===
/** The software fallback of the image-draw routine: converting a source
    image into RGB565 pixels written at (x, y) into a framebuffer whose pitch
    is its width. The converter's stores are modelled as a trace of writes in
    program order; a method with the converter's row and column loops applies
    them to a framebuffer held as a sequence. */
module SoftwareDraw {
  import opened ColorMath
  import opened PixelLayout

  /** Framebuffer geometry; the framebuffer pitch equals its width. */
  datatype Panel = Panel(width: nat, height: nat)

  /** One 16-bit store into the framebuffer, at a pixel index. */
  datatype Write = Write(index: nat, value: Pixel)

  /** Which row and column limits the converter applies: the ones the source
      has, or the evidently intended ones (see `ClippedColumnCount` and
      `DrawnRow`). */
  datatype Clipping = AsWritten | Intended

  /** One call of a converter: the image, the converted pixel at each image
      (row, column) -- the format-specific part of each converter -- the
      placement, the framebuffer geometry and the limits applied. */
  datatype DrawRequest = DrawRequest(
    img: Image, pixel: (nat, nat) -> Pixel, x: nat, y: nat, panel: Panel, clip: Clipping)

  // ---------------------------------------------------------------------
  // Column limits

  /** Per-row column count exactly as the converters compute it: the image
      width when the image runs past the framebuffer's right edge, otherwise
      the distance from `x` to that edge. */
  function ColumnCount(fbWidth: nat, x: nat, width: nat): nat
  {
    if fbWidth < x + width then width else fbWidth - x
  }

  /** The evidently intended column count: the image width clipped at the
      framebuffer's right edge. */
  function ClippedColumnCount(fbWidth: nat, x: nat, width: nat): (n: nat)
    ensures n <= width
    ensures x + n <= fbWidth || n == 0
    ensures x < fbWidth ==> n == width || x + n == fbWidth
  {
    if fbWidth <= x then 0 else if fbWidth < x + width then fbWidth - x else width
  }

  /** Pixels of a row the vector loop stores out of a count `cnt`: formats
      with two pixels per lane enable `cnt / 2` lanes, so an odd trailing
      pixel is never written. */
  function PixelsWritten(f: ColorFormat, cnt: nat): (n: nat)
  {
    if TwoPixelLanes(f) then 2 * (cnt / 2) else cnt
  }

  /** The predicated vector loop over one row, counting the pixels its
      enabled lanes store: BGR888 scales the count by 3 bytes, enables
      `cnt / 3` of 16 byte lanes and steps 48; two-pixel-lane formats enable
      `cnt / 2` of 8 lanes and step 16; I444 and I400 enable `cnt` of 8 lanes
      and step 8. */
  method RowLanes(f: ColorFormat, cnt: nat) returns (written: nat)
    requires HasConverter(f)
    ensures written == PixelsWritten(f, cnt)
  {
    if f == BGR888 {
      written := LaneLoop(cnt * 3, 16, 3, 1);
      assert (cnt * 3) / 3 == cnt;
    } else if TwoPixelLanes(f) {
      written := LaneLoop(cnt, 8, 2, 2);
    } else {
      written := LaneLoop(cnt, 8, 1, 1);
    }
  }

  /** A predicated loop over `units` units, `div` units per lane, `lanes`
      lanes per iteration, storing `perLane` pixels per enabled lane. */
  method LaneLoop(units: nat, lanes: nat, div: nat, perLane: nat) returns (written: nat)
    requires lanes > 0 && div > 0
    ensures written == perLane * (units / div)
  {
    var left: int := units;
    written := 0;
    while left > 0
      invariant written + perLane * Quota(left, div) == perLane * (units / div)
      decreases left
    {
      var active := if left / div < lanes then left / div else lanes;
      LaneStep(written, left, lanes, div, perLane, perLane * (units / div));
      written := written + perLane * active;
      left := left - lanes * div;
    }
  }

  /** One iteration keeps the count of pixels stored plus those still to
      be stored. */
  lemma LaneStep(written: nat, left: int, lanes: nat, div: nat, perLane: nat, total: nat)
    requires lanes > 0 && div > 0 && left > 0
    requires written + perLane * Quota(left, div) == total
    ensures var active := if left / div < lanes then left / div else lanes;
      written + perLane * active + perLane * Quota(left - lanes * div, div) == total
  {
    QuotaStep(left, lanes, div);
    var active := if left / div < lanes then left / div else lanes;
    var rest := Quota(left - lanes * div, div);
    assert perLane * (active + rest) == perLane * active + perLane * rest;
  }

  /** Lanes still to be enabled when `left` units remain, `div` per lane. */
  function Quota(left: int, div: nat): nat
    requires div > 0
  {
    if left > 0 then left / div else 0
  }

  /** One loop iteration enables the lanes it can and leaves the rest. */
  lemma QuotaStep(left: int, lanes: nat, div: nat)
    requires div > 0 && left > 0 && lanes > 0
    ensures Quota(left, div)
      == (if left / div < lanes then left / div else lanes) + Quota(left - lanes * div, div)
  {
    var q, m := left / div, left % div;
    assert left == div * q + m;
    if left >= lanes * div {
      assert left - lanes * div == div * (q - lanes) + m;
      DivUnique(left - lanes * div, div, q - lanes, m);
    } else if q >= lanes {
      MulLeftMono(lanes, q, div);
      assert false;
    }
  }

  /** Division has one quotient and remainder. */
  lemma DivUnique(a: int, d: nat, q: int, m: int)
    requires d > 0 && 0 <= m < d && a == d * q + m
    ensures a / d == q
  {
    var q', m' := a / d, a % d;
    assert d * (q - q') == m' - m;
    if q > q' {
      MulLeftMono(1, q - q', d);
    } else if q < q' {
      MulLeftMono(1, q' - q, d);
    }
  }

  /** Columns each drawn row receives. */
  function Columns(req: DrawRequest): nat
  {
    var cnt := if req.clip == AsWritten
      then ColumnCount(req.panel.width, req.x, req.img.width)
      else ClippedColumnCount(req.panel.width, req.x, req.img.width);
    PixelsWritten(req.img.format, cnt)
  }

  // ---------------------------------------------------------------------
  // Row limits

  /** The converters' loop condition at image row `i`. */
  predicate RowGuard(req: DrawRequest, i: nat)
  {
    i < req.img.height && req.y + i < req.panel.height
  }

  /** Rows advanced per loop iteration. */
  function RowStep(f: ColorFormat): (s: nat)
    ensures s == 1 || s == 2
  {
    if PairedRows(f) then 2 else 1
  }

  /** Whether a paired-row iteration at `i` also draws row `i + 1`: as
      written it always does; as intended only when that row passes the
      guard itself. */
  predicate SecondRowDrawn(req: DrawRequest, i: nat)
  {
    PairedRows(req.img.format) && (req.clip == AsWritten || RowGuard(req, i + 1))
  }

  /** Whether image row `r` is drawn at all: the iteration that covers it
      passed the guard, and, as intended, the row itself passes it too. */
  predicate DrawnRow(req: DrawRequest, r: nat)
  {
    var first := r - r % RowStep(req.img.format);
    RowGuard(req, first) && (req.clip == AsWritten || RowGuard(req, r))
  }

  // ---------------------------------------------------------------------
  // The write trace

  /** Framebuffer pixel index of image pixel (r, c). */
  function Target(req: DrawRequest, r: nat, c: nat): nat
  {
    (req.y + r) * req.panel.width + req.x + c
  }

  /** The stores of one image row: columns 0 .. n-1, left to right. */
  function RowWrites(req: DrawRequest, r: nat, n: nat): (ws: seq<Write>)
    ensures |ws| == n
  {
    seq(n, c requires 0 <= c < n => Write(Target(req, r, c), req.pixel(r, c)))
  }

  lemma RowWriteAt(req: DrawRequest, r: nat, n: nat, c: nat)
    requires c < n
    ensures RowWrites(req, r, n)[c] == Write(Target(req, r, c), req.pixel(r, c))
  {
  }

  /** The stores of the loop iteration at image row `i`. */
  function StepWrites(req: DrawRequest, i: nat): seq<Write>
  {
    var n := Columns(req);
    RowWrites(req, i, n) + (if SecondRowDrawn(req, i) then RowWrites(req, i + 1, n) else [])
  }

  /** The stores of the iterations from image row `i` on. */
  function TraceFrom(req: DrawRequest, i: nat): seq<Write>
    decreases req.img.height - i
  {
    if RowGuard(req, i) then StepWrites(req, i) + TraceFrom(req, i + RowStep(req.img.format)) else []
  }

  /** All stores of one converter call. */
  function Trace(req: DrawRequest): seq<Write>
  {
    TraceFrom(req, 0)
  }

  // ---------------------------------------------------------------------
  // Applying stores to a framebuffer

  predicate InBounds(ws: seq<Write>, size: nat)
  {
    forall j :: 0 <= j < |ws| ==> ws[j].index < size
  }

  /** The framebuffer after the stores `ws`, in order. */
  function ApplyWrites(fb: seq<Pixel>, ws: seq<Write>): (out: seq<Pixel>)
    requires InBounds(ws, |fb|)
    ensures |out| == |fb|
    decreases |ws|
  {
    if ws == [] then fb else ApplyWrites(fb[ws[0].index := ws[0].value], ws[1..])
  }

  /** Stores applied in two batches have the effect of the combined batch. */
  lemma {:induction false} ApplyConcat(fb: seq<Pixel>, a: seq<Write>, b: seq<Write>)
    requires InBounds(a, |fb|) && InBounds(b, |fb|)
    ensures InBounds(a + b, |fb|)
    ensures ApplyWrites(fb, a + b) == ApplyWrites(ApplyWrites(fb, a), b)
    decreases |a|
  {
    InBoundsJoin(a, b, |fb|);
    if a == [] {
      assert a + b == b;
    } else {
      assert (a + b)[1..] == a[1..] + b;
      assert InBounds(a[1..], |fb|);
      ApplyConcat(fb[a[0].index := a[0].value], a[1..], b);
    }
  }

  lemma InBoundsJoin(a: seq<Write>, b: seq<Write>, size: nat)
    requires InBounds(a, size) && InBounds(b, size)
    ensures InBounds(a + b, size)
  {
    forall j | 0 <= j < |a + b| ensures (a + b)[j].index < size {
      if j < |a| {
        assert (a + b)[j] == a[j];
      } else {
        assert (a + b)[j] == b[j - |a|];
      }
    }
  }

  /** Applying a non-empty suffix of a batch: its first store, then the rest. */
  lemma ApplyFrom(fb: seq<Pixel>, ws: seq<Write>, c: nat)
    requires c < |ws| && InBounds(ws, |fb|)
    ensures InBounds(ws[c..], |fb|) && InBounds(ws[c + 1..], |fb|)
    ensures ApplyWrites(fb, ws[c..]) == ApplyWrites(fb[ws[c].index := ws[c].value], ws[c + 1..])
  {
    assert ws[c..][1..] == ws[c + 1..];
  }

  /** The column loop of one row. */
  method WriteRow(req: DrawRequest, fb: seq<Pixel>, r: nat, n: nat) returns (out: seq<Pixel>)
    requires InBounds(RowWrites(req, r, n), |fb|)
    ensures out == ApplyWrites(fb, RowWrites(req, r, n))
  {
    ghost var ws := RowWrites(req, r, n);
    var dst := (req.y + r) * req.panel.width + req.x;
    out := fb;
    var c := 0;
    assert ws[0..] == ws;
    while c < n
      invariant 0 <= c <= n
      invariant |out| == |fb|
      invariant InBounds(ws[c..], |fb|)
      invariant ApplyWrites(out, ws[c..]) == ApplyWrites(fb, ws)
    {
      ApplyFrom(out, ws, c);
      RowWriteAt(req, r, n, c);
      out := out[dst + c := req.pixel(r, c)];
      c := c + 1;
    }
    assert ws[n..] == [];
  }

  /** Both halves of an in-bounds batch are in bounds. */
  lemma InBoundsSplit(a: seq<Write>, b: seq<Write>, size: nat)
    requires InBounds(a + b, size)
    ensures InBounds(a, size) && InBounds(b, size)
  {
    forall j | 0 <= j < |a| ensures a[j].index < size {
      assert a[j] == (a + b)[j];
    }
    forall j | 0 <= j < |b| ensures b[j].index < size {
      assert b[j] == (a + b)[|a| + j];
    }
  }

  /** The stores of the iteration at a row that passes the guard, then the
      iterations after it. */
  lemma TraceUnfold(req: DrawRequest, i: nat)
    requires RowGuard(req, i)
    ensures TraceFrom(req, i)
         == RowWrites(req, i, Columns(req))
          + (if SecondRowDrawn(req, i) then RowWrites(req, i + 1, Columns(req)) else [])
          + TraceFrom(req, i + RowStep(req.img.format))
  {
  }

  /** Three batches in a row. */
  lemma ApplyThree(fb: seq<Pixel>, first: seq<Write>, second: seq<Write>, rest: seq<Write>)
    requires InBounds(first + second + rest, |fb|)
    ensures InBounds(first, |fb|) && InBounds(second, |fb|) && InBounds(rest, |fb|)
    ensures ApplyWrites(fb, first + second + rest)
         == ApplyWrites(ApplyWrites(ApplyWrites(fb, first), second), rest)
  {
    assert first + second + rest == first + (second + rest);
    InBoundsSplit(first, second + rest, |fb|);
    InBoundsSplit(second, rest, |fb|);
    ApplyConcat(fb, first, second + rest);
    ApplyConcat(ApplyWrites(fb, first), second, rest);
  }

  /** One iteration of the row loop: the row at `i` and, for the
      paired-row formats, the row after it. */
  method DrawStep(req: DrawRequest, fb: seq<Pixel>, i: nat) returns (out: seq<Pixel>)
    requires RowGuard(req, i)
    requires InBounds(TraceFrom(req, i), |fb|)
    ensures |out| == |fb|
    ensures InBounds(TraceFrom(req, i + RowStep(req.img.format)), |fb|)
    ensures ApplyWrites(out, TraceFrom(req, i + RowStep(req.img.format)))
         == ApplyWrites(fb, TraceFrom(req, i))
  {
    var n := Columns(req);
    var first := RowWrites(req, i, n);
    var second := if SecondRowDrawn(req, i) then RowWrites(req, i + 1, n) else [];
    TraceUnfold(req, i);
    ApplyThree(fb, first, second, TraceFrom(req, i + RowStep(req.img.format)));
    out := WriteRow(req, fb, i, n);
    if SecondRowDrawn(req, i) {
      out := WriteRow(req, out, i + 1, n);
    }
  }

  /** The converter: the row loop with its guard, drawing one row per
      iteration, or two for the paired-row formats. The source gives no
      behaviour to a store outside the framebuffer, so every store of the
      call must land inside it. */
  method DrawRows(req: DrawRequest, fb: seq<Pixel>) returns (out: seq<Pixel>)
    requires InBounds(Trace(req), |fb|)
    ensures out == ApplyWrites(fb, Trace(req))
  {
    var step := RowStep(req.img.format);
    out := fb;
    var i := 0;
    while i < req.img.height && req.y + i < req.panel.height
      invariant |out| == |fb|
      invariant InBounds(TraceFrom(req, i), |fb|)
      invariant ApplyWrites(out, TraceFrom(req, i)) == ApplyWrites(fb, Trace(req))
      decreases req.img.height - i
    {
      out := DrawStep(req, out, i);
      i := i + step;
    }
    TraceDone(req, out, i);
  }

  /** Past the last row the guard admits, nothing more is stored. */
  lemma TraceDone(req: DrawRequest, fb: seq<Pixel>, i: nat)
    requires !RowGuard(req, i)
    ensures TraceFrom(req, i) == [] && InBounds(TraceFrom(req, i), |fb|)
    ensures ApplyWrites(fb, TraceFrom(req, i)) == fb
  {
  }

  // ---------------------------------------------------------------------
  // What a draw leaves in the framebuffer

  /** Consecutive stores starting at pixel index `base`. */
  predicate IsRun(ws: seq<Write>, base: nat)
  {
    forall j :: 0 <= j < |ws| ==> ws[j].index == base + j
  }

  /** A run of stores changes exactly the pixels it covers. */
  lemma {:induction false} ApplyRun(fb: seq<Pixel>, ws: seq<Write>, base: nat, k: nat)
    requires IsRun(ws, base) && InBounds(ws, |fb|) && k < |fb|
    ensures ApplyWrites(fb, ws)[k] == if base <= k < base + |ws| then ws[k - base].value else fb[k]
    decreases |ws|
  {
    if ws != [] {
      assert IsRun(ws[1..], base + 1) by {
        forall j | 0 <= j < |ws[1..]| ensures ws[1..][j].index == base + 1 + j {
          assert ws[1..][j] == ws[j + 1];
        }
      }
      ApplyRun(fb[ws[0].index := ws[0].value], ws[1..], base + 1, k);
      if base + 1 <= k < base + |ws| {
        assert ws[1..][k - (base + 1)] == ws[k - base];
      }
    }
  }

  /** Row and column of a pixel index in a framebuffer of the given width. */
  lemma IndexSplit(k: nat, width: nat, row: nat, col: nat)
    requires col < width && k == row * width + col
    ensures k / width == row && k % width == col
  {
    DivUnique(k, width, row, col);
  }

  /** Whether pixel index `k` is in image row `r`, within the first `n` columns. */
  predicate InRow(req: DrawRequest, r: nat, n: nat, k: nat)
  {
    req.panel.width > 0 && k / req.panel.width == req.y + r
    && req.x <= k % req.panel.width < req.x + n
  }

  /** The image pixel a framebuffer index shows when the image is drawn there. */
  function SourcePixel(req: DrawRequest, k: nat): Pixel
  {
    var w := req.panel.width;
    if w > 0 && k / w >= req.y && k % w >= req.x
    then req.pixel(k / w - req.y, k % w - req.x)
    else 0
  }

  /** A framebuffer row segment, by index range and by row and column. */
  lemma RowSegment(k: nat, w: nat, row: nat, x: nat, n: nat)
    requires w > 0 && x + n <= w
    ensures (row * w + x <= k < row * w + x + n) <==> (k / w == row && x <= k % w < x + n)
    ensures row * w + x <= k < row * w + x + n ==> k - (row * w + x) == k % w - x
  {
    if row * w + x <= k < row * w + x + n {
      IndexSplit(k, w, row, k - row * w);
    }
    assert k == (k / w) * w + k % w;
  }

  /** One row's stores are consecutive. */
  lemma RowIsRun(req: DrawRequest, r: nat, n: nat)
    ensures IsRun(RowWrites(req, r, n), Target(req, r, 0))
  {
    forall j | 0 <= j < n ensures RowWrites(req, r, n)[j].index == Target(req, r, 0) + j {
      RowWriteAt(req, r, n, j);
    }
  }

  /** Where pixel index `k` sits relative to row `r`'s stores. */
  lemma RowPosition(req: DrawRequest, r: nat, n: nat, k: nat)
    requires 0 < n && req.x + n <= req.panel.width
    ensures (Target(req, r, 0) <= k < Target(req, r, 0) + n) <==> InRow(req, r, n, k)
    ensures InRow(req, r, n, k) ==>
      k - Target(req, r, 0) == k % req.panel.width - req.x
      && k / req.panel.width - req.y == r
  {
    RowSegment(k, req.panel.width, req.y + r, req.x, n);
  }

  /** The store of row `r` that lands on pixel index `k` carries that
      index's image pixel. */
  lemma RowValue(req: DrawRequest, r: nat, n: nat, k: nat)
    requires 0 < n && req.x + n <= req.panel.width && InRow(req, r, n, k)
    ensures Target(req, r, 0) <= k < Target(req, r, 0) + n
    ensures RowWrites(req, r, n)[k - Target(req, r, 0)].value == SourcePixel(req, k)
  {
    RowPosition(req, r, n, k);
    var w := req.panel.width;
    var c: nat := k % w - req.x;
    SourceAt(req, k);
    assert k - Target(req, r, 0) == c;
    assert k / w - req.y == r;
    assert SourcePixel(req, k) == req.pixel(r, c);
    assert RowWrites(req, r, n)[c].value == req.pixel(r, c);
    assert RowWrites(req, r, n)[k - Target(req, r, 0)] == RowWrites(req, r, n)[c];
  }

  lemma SourceAt(req: DrawRequest, k: nat)
    requires req.panel.width > 0 && k / req.panel.width >= req.y && k % req.panel.width >= req.x
    ensures SourcePixel(req, k)
         == req.pixel(k / req.panel.width - req.y, k % req.panel.width - req.x)
  {
  }

  /** The stores of one row change exactly that row's first `n` columns,
      when they fit in the framebuffer row. */
  lemma ApplyRow(req: DrawRequest, fb: seq<Pixel>, r: nat, n: nat, k: nat)
    requires n == 0 || req.x + n <= req.panel.width
    requires InBounds(RowWrites(req, r, n), |fb|) && k < |fb|
    ensures ApplyWrites(fb, RowWrites(req, r, n))[k]
         == if InRow(req, r, n, k) then SourcePixel(req, k) else fb[k]
  {
    RowIsRun(req, r, n);
    ApplyRun(fb, RowWrites(req, r, n), Target(req, r, 0), k);
    if n > 0 {
      RowPosition(req, r, n, k);
      if InRow(req, r, n, k) {
        RowValue(req, r, n, k);
      }
    }
  }

  /** Whether pixel index `k` is drawn by the iterations from row `i` on. */
  predicate CoveredFrom(req: DrawRequest, i: nat, k: nat)
  {
    var w := req.panel.width;
    w > 0 && k / w >= req.y + i && req.x <= k % w < req.x + Columns(req)
    && DrawnRow(req, k / w - req.y)
  }

  /** Whether pixel index `k` is drawn by the call. */
  predicate Covered(req: DrawRequest, k: nat)
  {
    CoveredFrom(req, 0, k)
  }

  /** The guard only gets stricter further down the image. */
  lemma GuardDownward(req: DrawRequest, i: nat, j: nat)
    requires i <= j && RowGuard(req, j)
    ensures RowGuard(req, i)
  {
  }

  /** The pixels drawn from an iteration at a row that passes the guard on:
      its first row, its second row if drawn, and those drawn after it. */
  lemma CoverStep(req: DrawRequest, i: nat, k: nat)
    requires i % RowStep(req.img.format) == 0 && RowGuard(req, i)
    ensures CoveredFrom(req, i, k) <==>
      InRow(req, i, Columns(req), k)
      || (SecondRowDrawn(req, i) && InRow(req, i + 1, Columns(req), k))
      || CoveredFrom(req, i + RowStep(req.img.format), k)
  {
    var s := RowStep(req.img.format);
    var w := req.panel.width;
    if w > 0 && k / w >= req.y + i {
      var r: nat := k / w - req.y;
      if r < i + s {
        assert r == i || (s == 2 && r == i + 1);
        assert r - r % s == i;
      }
    }
  }

  /** Nothing is drawn from a row that fails the guard on. */
  lemma CoverNone(req: DrawRequest, i: nat, k: nat)
    requires i % RowStep(req.img.format) == 0 && !RowGuard(req, i)
    ensures !CoveredFrom(req, i, k)
  {
  }

  /** The pixels one iteration of the row loop changes. */
  lemma ApplyIteration(req: DrawRequest, fb: seq<Pixel>, i: nat, k: nat)
    requires Columns(req) == 0 || req.x + Columns(req) <= req.panel.width
    requires InBounds(RowWrites(req, i, Columns(req)), |fb|)
    requires SecondRowDrawn(req, i) ==> InBounds(RowWrites(req, i + 1, Columns(req)), |fb|)
    requires k < |fb|
    ensures var n := Columns(req);
      var a := ApplyWrites(fb, RowWrites(req, i, n));
      var b := if SecondRowDrawn(req, i) then ApplyWrites(a, RowWrites(req, i + 1, n)) else a;
      b[k] == if InRow(req, i, n, k) || (SecondRowDrawn(req, i) && InRow(req, i + 1, n, k))
              then SourcePixel(req, k) else fb[k]
  {
    var n := Columns(req);
    ApplyRow(req, fb, i, n, k);
    if SecondRowDrawn(req, i) {
      ApplyRow(req, ApplyWrites(fb, RowWrites(req, i, n)), i + 1, n, k);
    }
  }

  /** A passing iteration's stores come before those of the rest. */
  lemma TraceStep(req: DrawRequest, i: nat)
    requires RowGuard(req, i)
    ensures TraceFrom(req, i) == StepWrites(req, i) + TraceFrom(req, i + RowStep(req.img.format))
  {
  }

  /** The pixels one passing iteration's stores change. */
  lemma StepApplied(req: DrawRequest, fb: seq<Pixel>, i: nat, k: nat)
    requires Columns(req) == 0 || req.x + Columns(req) <= req.panel.width
    requires InBounds(StepWrites(req, i), |fb|) && k < |fb|
    ensures ApplyWrites(fb, StepWrites(req, i))[k]
         == if InRow(req, i, Columns(req), k) || (SecondRowDrawn(req, i) && InRow(req, i + 1, Columns(req), k))
            then SourcePixel(req, k) else fb[k]
  {
    var n := Columns(req);
    var first := RowWrites(req, i, n);
    var second := if SecondRowDrawn(req, i) then RowWrites(req, i + 1, n) else [];
    InBoundsSplit(first, second, |fb|);
    ApplyConcat(fb, first, second);
    ApplyIteration(req, fb, i, k);
  }

  /** Splitting the stores from a passing row into its iteration's and the
      rest's: `b` is the framebuffer after the iteration. */
  lemma SplitAtStep(req: DrawRequest, fb: seq<Pixel>, i: nat, k: nat) returns (b: seq<Pixel>)
    requires RowGuard(req, i)
    requires Columns(req) == 0 || req.x + Columns(req) <= req.panel.width
    requires InBounds(TraceFrom(req, i), |fb|) && k < |fb|
    ensures |b| == |fb| && InBounds(TraceFrom(req, i + RowStep(req.img.format)), |b|)
    ensures ApplyWrites(fb, TraceFrom(req, i))[k] == ApplyWrites(b, TraceFrom(req, i + RowStep(req.img.format)))[k]
    ensures b[k] == if InRow(req, i, Columns(req), k) || (SecondRowDrawn(req, i) && InRow(req, i + 1, Columns(req), k))
                    then SourcePixel(req, k) else fb[k]
  {
    var step := StepWrites(req, i);
    var rest := TraceFrom(req, i + RowStep(req.img.format));
    TraceStep(req, i);
    InBoundsSplit(step, rest, |fb|);
    ApplyConcat(fb, step, rest);
    StepApplied(req, fb, i, k);
    b := ApplyWrites(fb, step);
  }

  /** A pixel drawn now or later shows the source; otherwise it keeps its
      value. */
  lemma PickLater(out: Pixel, mid: Pixel, before: Pixel, src: Pixel, now: bool, later: bool)
    requires mid == if now then src else before
    requires out == if later then src else mid
    ensures out == if now || later then src else before
  {
  }

  lemma {:induction false} ApplyTraceFrom(req: DrawRequest, fb: seq<Pixel>, i: nat, k: nat)
    requires i % RowStep(req.img.format) == 0
    requires Columns(req) == 0 || req.x + Columns(req) <= req.panel.width
    requires InBounds(TraceFrom(req, i), |fb|) && k < |fb|
    ensures ApplyWrites(fb, TraceFrom(req, i))[k]
         == if CoveredFrom(req, i, k) then SourcePixel(req, k) else fb[k]
    decreases req.img.height - i
  {
    if RowGuard(req, i) {
      var s := RowStep(req.img.format);
      var b := SplitAtStep(req, fb, i, k);
      assert (i + s) % s == 0;
      ApplyTraceFrom(req, b, i + s, k);
      CoverStep(req, i, k);
      PickLater(ApplyWrites(b, TraceFrom(req, i + s))[k], b[k], fb[k], SourcePixel(req, k),
                InRow(req, i, Columns(req), k) || (SecondRowDrawn(req, i) && InRow(req, i + 1, Columns(req), k)),
                CoveredFrom(req, i + s, k));
    } else {
      CoverNone(req, i, k);
    }
  }

  /** The framebuffer after a draw whose rows fit across the framebuffer:
      every pixel the call covers shows the converted image pixel, and
      every other pixel keeps its value. */
  lemma DrawResult(req: DrawRequest, fb: seq<Pixel>)
    requires Columns(req) == 0 || req.x + Columns(req) <= req.panel.width
    requires InBounds(Trace(req), |fb|)
    ensures forall k :: 0 <= k < |fb| ==>
      ApplyWrites(fb, Trace(req))[k] == if Covered(req, k) then SourcePixel(req, k) else fb[k]
  {
    forall k | 0 <= k < |fb|
      ensures ApplyWrites(fb, Trace(req))[k] == if Covered(req, k) then SourcePixel(req, k) else fb[k]
    {
      ApplyTraceFrom(req, fb, 0, k);
    }
  }

  // ---------------------------------------------------------------------
  // The intended limits

  /** With the intended limits every row fits across the framebuffer and
      inside the image. */
  lemma IntendedColumnsFit(req: DrawRequest)
    requires req.clip == Intended
    ensures Columns(req) == 0 || req.x + Columns(req) <= req.panel.width
    ensures Columns(req) <= req.img.width
  {
  }

  /** With the intended limits exactly the image rows inside the framebuffer
      are drawn. */
  lemma IntendedRows(req: DrawRequest, r: nat)
    requires req.clip == Intended
    ensures DrawnRow(req, r) <==> r < req.img.height && req.y + r < req.panel.height
  {
    var s := RowStep(req.img.format);
    if RowGuard(req, r) {
      GuardDownward(req, r - r % s, r);
    }
  }

  /** A row whose stores fit across the framebuffer, at a framebuffer row
      that exists, stays inside the framebuffer. */
  lemma RowInBounds(req: DrawRequest, r: nat, n: nat)
    requires req.y + r < req.panel.height
    requires n == 0 || req.x + n <= req.panel.width
    ensures InBounds(RowWrites(req, r, n), req.panel.width * req.panel.height)
  {
    forall c | 0 <= c < n
      ensures RowWrites(req, r, n)[c].index < req.panel.width * req.panel.height
    {
      RowWriteAt(req, r, n, c);
      InsidePlane(req.y + r, req.x + c, req.panel.width, req.panel.height);
    }
  }

  lemma {:induction false} IntendedTraceFromInBounds(req: DrawRequest, i: nat)
    requires req.clip == Intended
    ensures InBounds(TraceFrom(req, i), req.panel.width * req.panel.height)
    decreases req.img.height - i
  {
    var size := req.panel.width * req.panel.height;
    var s := RowStep(req.img.format);
    var n := Columns(req);
    if RowGuard(req, i) {
      var first := RowWrites(req, i, n);
      var second := if SecondRowDrawn(req, i) then RowWrites(req, i + 1, n) else [];
      var rest := TraceFrom(req, i + s);
      TraceUnfold(req, i);
      IntendedColumnsFit(req);
      RowInBounds(req, i, n);
      if SecondRowDrawn(req, i) {
        RowInBounds(req, i + 1, n);
      }
      IntendedTraceFromInBounds(req, i + s);
      InBoundsJoin(first, second, size);
      InBoundsJoin(first + second, rest, size);
    }
  }

  /** With the intended limits every store of a call lands inside the
      framebuffer, whatever the image size and placement. */
  lemma IntendedInBounds(req: DrawRequest)
    requires req.clip == Intended
    ensures InBounds(Trace(req), req.panel.width * req.panel.height)
  {
    IntendedTraceFromInBounds(req, 0);
  }

  // ---------------------------------------------------------------------
  // Where the limits as written are harmless

  /** The geometry the application draws with: the image ends at the
      framebuffer's right edge and, for the paired-row formats, has an even
      height and ends above the framebuffer's bottom edge. */
  predicate AppGeometry(req: DrawRequest)
  {
    req.x + req.img.width == req.panel.width
    && (PairedRows(req.img.format) ==>
          req.img.height % 2 == 0 && req.y + req.img.height <= req.panel.height)
  }

  /** Row stores do not depend on which limits are applied. */
  lemma RowWritesIgnoreClip(req: DrawRequest, clip: Clipping, r: nat, n: nat)
    ensures RowWrites(req.(clip := clip), r, n) == RowWrites(req, r, n)
  {
    forall c | 0 <= c < n ensures RowWrites(req.(clip := clip), r, n)[c] == RowWrites(req, r, n)[c] {
      RowWriteAt(req, r, n, c);
      RowWriteAt(req.(clip := clip), r, n, c);
    }
  }

  lemma {:induction false} AgreeFrom(req: DrawRequest, i: nat)
    requires AppGeometry(req) && i % RowStep(req.img.format) == 0
    ensures TraceFrom(req.(clip := AsWritten), i) == TraceFrom(req.(clip := Intended), i)
    decreases req.img.height - i
  {
    var a, b := req.(clip := AsWritten), req.(clip := Intended);
    var s := RowStep(req.img.format);
    if RowGuard(req, i) {
      assert Columns(a) == Columns(b);
      assert SecondRowDrawn(a, i) == SecondRowDrawn(b, i);
      RowWritesIgnoreClip(a, Intended, i, Columns(a));
      RowWritesIgnoreClip(a, Intended, i + 1, Columns(a));
      assert (i + s) % s == 0;
      AgreeFrom(req, i + s);
      TraceUnfold(a, i);
      TraceUnfold(b, i);
    }
  }

  /** Under the application's geometry the limits as written and the
      intended ones produce the same stores, so the draw stays inside the
      framebuffer. */
  lemma AppGeometryAgrees(req: DrawRequest)
    requires AppGeometry(req)
    ensures Trace(req.(clip := AsWritten)) == Trace(req.(clip := Intended))
    ensures InBounds(Trace(req), req.panel.width * req.panel.height)
  {
    AgreeFrom(req, 0);
    IntendedInBounds(req.(clip := Intended));
    assert req == req.(clip := AsWritten) || req == req.(clip := Intended);
  }

  // ---------------------------------------------------------------------
  // Where the limits as written go wrong

  /** The column limit as written is inverted: an image running past the
      framebuffer's right edge is drawn at full width, so its right part
      lands in the next framebuffer row; an image that fits is drawn to the
      framebuffer's edge, past its own width. */
  lemma ColumnLimitInverted(px: (nat, nat) -> Pixel)
    ensures ColumnCount(20, 0, 10) == 20
    ensures var req := DrawRequest(Image([], 10, 10, 1, I444), px, 15, 0, Panel(20, 2), AsWritten);
      Columns(req) == 10 && |Trace(req)| == 10
      && Trace(req)[5].index == 20 && Trace(req)[5].index / req.panel.width != req.y
  {
    var req := DrawRequest(Image([], 10, 10, 1, I444), px, 15, 0, Panel(20, 2), AsWritten);
    TraceUnfold(req, 0);
    RowWriteAt(req, 0, 10, 5);
  }

  /** The paired-row guard as written checks only the first row of a pair:
      an I420 image two rows high placed on the last framebuffer row has
      its second row stored past the framebuffer's end, and an image of odd
      height has a row past its own last row drawn. The intended guard
      draws neither. */
  lemma PairedRowGuardOverrun(px: (nat, nat) -> Pixel)
    ensures var req := DrawRequest(Image([], 2, 2, 2, I420), px, 0, 3, Panel(2, 4), AsWritten);
      DrawnRow(req, 1) && req.y + 1 == req.panel.height
      && !InBounds(Trace(req), req.panel.width * req.panel.height)
      && !DrawnRow(req.(clip := Intended), 1)
    ensures var odd := DrawRequest(Image([], 2, 2, 1, I420), px, 0, 0, Panel(2, 4), AsWritten);
      DrawnRow(odd, 1) && odd.img.height == 1 && !DrawnRow(odd.(clip := Intended), 1)
  {
    var req := DrawRequest(Image([], 2, 2, 2, I420), px, 0, 3, Panel(2, 4), AsWritten);
    TraceUnfold(req, 0);
    RowWriteAt(req, 1, 2, 0);
    assert Trace(req)[2] == RowWrites(req, 1, 2)[0];
  }
}
